=== FILE: README.md ===
# PhishGuard Sentinel moderation pipeline in Dafny

This project models the moderation decision pipeline of PhishGuard Sentinel, a
parental-control system. A browser extension scans the pages a child visits. A
backend decides whether each page is safe, using the parent's policy and external
classifiers. The model covers the following parts.

- **Live classification service** (`Gemini`, `ReplyParser`, `GeminiBatch`):
  - text, image and URL verdicts from the generative classifier;
  - the parser that salvages a malformed reply;
  - the document-store cache with its lifetime;
  - batch text classification with its index mapping and fallbacks.
- **Live moderation endpoints** (`LiveController`, `Domains.GetDomain`, `Profiles.ResolveChild`):
  - the text, image, URL and combined page endpoints;
  - the allow/block gate;
  - aggregation of the page verdict and its reason;
  - activity records.
- **Legacy moderation stack** (`LegacyController`, `LegacyModeration`, `Domains.ExtractDomain`, `Domains.AnySiteMatches`):
  - `backend/server.js` mounts `moderate.routes` and `child.routes`, not `routes/moderate.js` or `routes/child.js`, so these handlers and `childController.js` are not reachable in the deployed server and their findings below are latent;
  - the device-authenticated endpoints, with their block-list-first gate, time gate and threshold map;
  - the category/likelihood/threat classifiers behind an in-process cache with Base64 keys (`Encoding`);
  - chunked image batches.
- **Two-tier cache** (`TwoTierCache`):
  - a fast tier with per-entry time to live in front of a durable store with absolute expiry;
  - lazy deletion and re-population of the fast tier;
  - independent writes to both tiers.
- **Content script** (`Scanner`, `Extraction`): a state machine stepped by events (configuration reply, URL pre-check reply, page mutation, timer expiry, scan reply), together with:
  - text and image-URL extraction;
  - blurring and unblurring;
  - the block screen.
- **Background worker** (`Relay`): the message router that relays checks to the backend and fails open.
- **Profile management** (`Profiles`, `SiteLists`):
  - the child-profile schema;
  - profile creation, the partial update merge and the device configuration;
  - the parent dashboard's two site-list editors.

JavaScript values are modelled by `Json.Val`, with JavaScript truthiness, `||`, `??` and object spread. JavaScript's conversion of a value to a number, which the batch code applies to a reply entry's index, is `Numbers.ToNumber`. Outbound calls are oracles indexed by a call counter, so every operation is a pure function of the world it is given. These calls are:

- the generative classifier;
- the image download;
- the three legacy services;
- the backend as seen by the extension.

SHA-256, `JSON.parse` and URL host-name parsing are function parameters.

Where the design intent and the code differ, the model follows the code:
- The live endpoints do not let the `off` level skip classification (`LiveController.OffLevelStillClassified`).
- The live endpoints have no time gate.
- The legacy endpoint consults the block list before the allow list (`LegacyController.BlockListWins`).
- The live URL verdict is cached without the filtering level.
- The legacy image verdict is cached without the threshold, and the legacy text key reads only the first 200 characters.
- The site editor keeps `www.`, and the server-side profile editor keeps duplicate entries (`SiteLists.AddSiteRepeats`).
- Cache entries are overwritten in place (an upsert), not immutable.

## Model

| member | source | states |
|---|---|---|
| Domains.GetDomain | backend/controllers/moderate.controller.js:16-22 | Null exactly when the URL does not parse; otherwise the host name in lower case, with one leading `www.` removed |
| Domains.ExtractDomain | backend/controllers/moderationController.js:6-9 | An unparsable URL comes back unchanged; otherwise the host name with its first `www.` occurrence removed, wherever it occurs |
| Domains.AnySiteMatches | backend/controllers/moderationController.js:12-15 | True exactly when some list entry equals the domain or is a dot-separated parent domain of it |
| Domains.MatchesSiteList | backend/controllers/moderationController.js:12-15 | True exactly when some entry equals the extracted domain or is a dot-separated parent of it; an unparsable URL is compared as it is |
| Domains.SubdomainMatches | backend/controllers/moderationController.js:12-15 | Listing a site also matches every sub-domain of it |
| Domains.NoMatchWithoutDotBoundary | backend/controllers/moderationController.js:12-15 | A domain that merely ends with a listed site's text, with no dot before it, is not matched |
| Encoding.CharBytes | backend/utils/moderation.js:124 | The UTF-8 encoding of a character: one byte below 0x80, otherwise a lead byte of at least 0xC0, four bytes at most |
| Encoding.Utf8Append | backend/utils/moderation.js:124 | `Buffer.from` of a concatenation is the concatenation of the encodings |
| Encoding.Utf8OfAscii | backend/utils/moderation.js:124 | An ASCII string encodes to exactly one byte per character |
| Encoding.Base64Append | backend/utils/moderation.js:124 | Base64 of bytes prefixed by whole 3-byte groups is the prefix's encoding followed by the rest's |
| Encoding.Base64Length | backend/utils/moderation.js:124 | Base64 output has four characters per started group of three bytes |
| Gemini.ConfiguredTtl | backend/services/gemini.service.js:19 | The lifetime is never 0: a missing, unparsable or zero setting gives exactly 86400 seconds, any other number is taken as it is |
| Gemini.KeyDeterminesKind | backend/services/gemini.service.js:23-24 | Keys of different kinds (`text`, `image`, `url`) never collide, whatever the digests |
| Gemini.TextContentInjective | backend/services/gemini.service.js:88-89 | The hashed text-plus-level determines both the text and the level, so a verdict cached at one level is never served at another |
| Gemini.FailOpen | backend/services/gemini.service.js:132-135 | The error verdict is not blocked, SAFE, confidence 0, and carries the error message |
| Gemini.Shape | backend/services/gemini.service.js:124-129 | Reading `status` of null or undefined throws. Otherwise `blocked` is exactly `status === 'UNSAFE'`, an empty category or reason becomes null, confidence defaults to 50, and the result is cacheable |
| Gemini.GetCached | backend/services/gemini.service.js:57-70 | A hit exactly when the store answers and the entry is no older than the lifetime (equal age still hits); an older entry is deleted; nothing else changes |
| Gemini.SetCache | backend/services/gemini.service.js:72-82 | An upsert stamped with the current time, lost when the store does not answer; no other key changes |
| Gemini.Interpret | backend/services/gemini.service.js:119-135 | A failed call, an unparsable reply or a parsed null gives the not-blocked error verdict carrying the message. A reply that parses to anything else gives exactly its shaped verdict, marked for caching |
| Gemini.Settle | backend/services/gemini.service.js:130-135 | A fresh verdict is written under its key; an error verdict leaves the cache untouched |
| Gemini.Classify | backend/services/gemini.service.js:119-135 | Exactly one outbound call, answering the verdict read from that call's reply. An error verdict leaves the entry as it was; a success writes the verdict; only that key can change |
| Gemini.UnparseableFailsOpen | backend/services/gemini.service.js:34-55 | A reply that neither parses nor has a salvageable status fails open with the parse error |
| Gemini.Lookup | backend/services/gemini.service.js:90-91 | A hit is returned verbatim with no call. A miss makes exactly one call and answers the verdict read from its reply; a verdict without an error is written, stamped now, when the store answers; only that key can change |
| Gemini.ModerateText | backend/services/gemini.service.js:85-136 | Text shorter than 20 once trimmed gets the safe verdict with no lookup and no call. Otherwise a hit is returned verbatim; a miss makes one call, answers the verdict read from its reply and caches it when it has no error; at most the text key changes |
| Gemini.ModerateImage | backend/services/gemini.service.js:139-204 | A URL not starting with `http` is SAFE with no call; a hit is returned verbatim; a failed download gives `fetch_failed`; after a download, the verdict read from the second call's reply; at most two calls |
| Gemini.ModerateUrl | backend/services/gemini.service.js:207-239 | An empty URL is SAFE with reason null; the key carries no level; a hit is verbatim; a miss makes one call and answers the verdict read from its reply |
| Gemini.UnsafeReplyBlocksText | backend/services/gemini.service.js:119-131 | On a miss, a reply that parses to an object blocks the text exactly when its status is `UNSAFE`, carries that status and no error, and is cached stamped now when the store answers |
| Gemini.TextVerdictServedUntilExpiry | backend/services/gemini.service.js:57-70 | A cached text verdict is served again, with no call, for as long as its age does not exceed the lifetime |
| Gemini.TextVerdictExpires | backend/services/gemini.service.js:57-70 | Once the lifetime has passed, the same request misses and asks the classifier again |
| ReplyParser.CleanUnwrapsFencedReply | backend/services/gemini.service.js:36-40 | A reply wrapped in a json code fence reaches `JSON.parse` as the bare body |
| ReplyParser.CleanKeepsUnfencedReply | backend/services/gemini.service.js:36-40 | A trimmed reply without fences reaches `JSON.parse` unchanged |
| ReplyParser.FirstStatus | backend/services/gemini.service.js:43 | The leftmost case-insensitive `"status": "SAFE/UNSAFE"` capture, or none exactly when no position matches |
| ReplyParser.FirstCategory | backend/services/gemini.service.js:44-49 | The leftmost non-empty quoted category capture, or `Unknown` when there is none |
| ReplyParser.FirstConfidence | backend/services/gemini.service.js:45-50 | The leftmost digit-run confidence capture as a number, or 50 when there is none |
| ReplyParser.Salvage | backend/services/gemini.service.js:42-54 | An error exactly when no status matches. Otherwise an upper-cased `SAFE`/`UNSAFE` status with the salvaged category and confidence |
| ReplyParser.ParseReply | backend/services/gemini.service.js:34-55 | The strict parse when the cleaned reply parses, the regex salvage otherwise |
| ReplyParser.UpperOfSafeWord | backend/services/gemini.service.js:48 | Upper-casing a case-insensitive `safe`/`unsafe` capture gives exactly `SAFE` or `UNSAFE` |
| GeminiBatch.Keep | backend/services/gemini.service.js:245-247 | One flag per input, set exactly for snippets longer than 10 characters after trimming and cutting to 500 |
| GeminiBatch.Items | backend/services/gemini.service.js:245-247 | The surviving snippets in slot order, each pointing at its own slot and carrying its text and key; empty exactly when none survives |
| GeminiBatch.Gather | backend/services/gemini.service.js:254-259 | Cached verdicts land in their own slots tagged with the slot index, the rest are queued, and no call is made |
| GeminiBatch.Original | backend/services/gemini.service.js:292-293 | An entry index names a snippet exactly when JavaScript's number conversion gives an integer k with 1 <= k <= the queue length, and then it names the k-th queued snippet; a numeric index k does so exactly when 1 <= k <= the queue length |
| GeminiBatch.EntryPos | backend/services/gemini.service.js:292 | `p.index - 1` is defined exactly when the index converts to an integer, and is that integer less one; a numeric index k gives k - 1 |
| GeminiBatch.IndexSpellingsName | backend/services/gemini.service.js:292-293 | For a digit string with value k in range, the index spelled as that string, with a leading `+`, with a trailing `.0`, or as the one-element array holding that string names the k-th queued snippet |
| Numbers.ToNumber | backend/services/gemini.service.js:292 | A number converts to itself and a string as its numeral; a one-element array converts as its element unless that is a boolean, `null` or `undefined`; an array of two or more elements is NaN |
| Numbers.Shrink | backend/services/gemini.service.js:292 | A numeral's digits scaled down by a power of ten give an integer only when that integer times the power gives back the digits |
| Numbers.Scale | backend/services/gemini.service.js:292 | A non-negative exponent multiplies by that power of ten; a negative one divides, and a result is an integer that the power multiplies back to the digits |
| Numbers.DigitsReadDecimal | backend/services/gemini.service.js:292 | A string of decimal digits converts to its decimal value |
| Numbers.SignedDigitsRead | backend/services/gemini.service.js:292 | A leading `+` leaves a digit string's value unchanged and a leading `-` negates it |
| Numbers.ZeroFractionRead | backend/services/gemini.service.js:292 | Digits followed by a point and only zeros convert to the value of the digits, so `1.0` and `1.` both convert to 1 |
| Numbers.ExponentRead | backend/services/gemini.service.js:292 | Digits followed by `e` and an exponent convert to the digits' value times ten to that exponent, so `1e0` converts to 1 |
| Numbers.HexRead | backend/services/gemini.service.js:292 | `0x` followed by hexadecimal digits converts to their base-16 value, so `0x1` converts to 1 |
| Numbers.FractionReadsNone | backend/services/gemini.service.js:292 | A numeral whose fraction ends in a non-zero digit is not an integer, so no array element has it as index |
| Numbers.SpellingsRead | backend/services/gemini.service.js:292 | A digit string, the same with a leading `+` or a trailing `.0`, and the one-element array holding it all convert to the digit string's value |
| GeminiBatch.EntryVerdict | backend/services/gemini.service.js:294-300 | An entry's verdict is tagged with the snippet's slot, is cacheable, and is blocked exactly when its status is `UNSAFE` |
| GeminiBatch.ApplyEntries | backend/services/gemini.service.js:291-303 | Reply entries fill only slots of surviving snippets, each tagged with its slot; a null or undefined entry is reported as a throw |
| GeminiBatch.Reached | backend/services/gemini.service.js:291 | The entries the pass gets through: a prefix of the reply, free of null and undefined, that stops exactly at the first null or undefined entry |
| GeminiBatch.ApplyEntriesSlots | backend/services/gemini.service.js:291-303 | After the pass each slot holds the verdict of the last reached entry naming its snippet, tagged with the slot; a slot no reached entry names keeps what it held |
| GeminiBatch.ApplyEntriesCache | backend/services/gemini.service.js:291-303 | After the pass each key holds, when the store answers, the verdict of the last reached entry whose snippet has that key, stamped now; every other document is as it was |
| GeminiBatch.FillSafe | backend/services/gemini.service.js:305-309 | A slot becomes the safe verdict tagged with it exactly when a snippet is queued from it and it holds no truthy verdict; every other slot keeps what it held |
| GeminiBatch.Fallback | backend/services/gemini.service.js:282-288 | The per-snippet fallback makes at most one call per queued snippet and writes only slots of surviving snippets, each tagged with its slot |
| GeminiBatch.FallbackFills | backend/services/gemini.service.js:283-288 | After the fallback every queued snippet has a verdict, and none present before is lost |
| GeminiBatch.FallbackVerdicts | backend/services/gemini.service.js:283-288 | The slot of the last snippet queued from it holds `moderateText`'s verdict for its text at the filtering level, in the world the earlier steps left, tagged with the slot; slots no snippet is queued from keep what they held |
| GeminiBatch.FallbackStep | backend/services/gemini.service.js:284-286 | One fallback step answers `moderateText`'s verdict for the snippet, tagged with the snippet's slot, and makes at most one call |
| GeminiBatch.SafeSlots | backend/services/gemini.service.js:249 | When nothing survives the filter, one safe verdict per input, each tagged with its index |
| GeminiBatch.CachePass | backend/services/gemini.service.js:251-259 | Starting from all-null slots, with no call: every filled slot carries its own index, slots of filtered-out inputs stay null, and at most one snippet per input is queued |
| GeminiBatch.Answer | backend/services/gemini.service.js:275-310 | After the batch call, at most one more call per queued snippet; every filled slot keeps its index and filtered-out slots stay null |
| GeminiBatch.BatchWith | backend/services/gemini.service.js:242-313 | The output has the input's length, every verdict carries its own slot index, slots of filtered-out snippets stay null, and there are at most one call plus one per snippet |
| GeminiBatch.BatchArrayReply | backend/services/gemini.service.js:275-303 | A reply that parses to an array without null entries: every slot holds the verdict of the last entry naming its snippet, and a slot no entry names keeps what the cache pass left in it |
| GeminiBatch.BatchCallFailsOpen | backend/services/gemini.service.js:305-309 | A failed batch call: every queued slot still empty gets the safe verdict tagged with it, and every other slot keeps what the cache pass left in it |
| GeminiBatch.ItemKeyIsTextKey | backend/services/gemini.service.js:245-255 | A batch snippet is cached under exactly the key `moderateText` uses for that text |
| GeminiBatch.FallbackCachesFailure | backend/services/gemini.service.js:283-287 | As written, the fallback caches a fail-open error verdict, which is then served as a hit |
| GeminiBatch.CorrectedFallbackCachesNoFailure | backend/services/gemini.service.js:283-287 | When the cache write is skipped for an error verdict, the next request for that text misses and calls the classifier again |
| LiveController.LevelFor | backend/controllers/moderate.controller.js:180 | The profile's level name, or `moderate` when no profile resolved |
| LiveController.SiteGate | backend/controllers/moderate.controller.js:123-149 | Allow exactly when a profile and a non-empty domain resolve and the domain is allow-listed; deny exactly when it is block-listed and not allow-listed |
| LiveController.TextHandler | backend/controllers/moderate.controller.js:32-61 | A missing or empty text is 400 with no change. Otherwise the service's verdict, logged only for a resolved profile, a blocked verdict and a given url |
| LiveController.HttpStrings | backend/controllers/moderate.controller.js:76-77 | Keeps exactly the string entries starting with `http`, in order |
| LiveController.FirstHttp | backend/controllers/moderate.controller.js:210-212 | The first `n` `http` strings of the request, in order |
| LiveController.ImageAll | backend/controllers/moderate.controller.js:80-82 | One verdict per URL, at most two calls per URL |
| LiveController.Enrich | backend/controllers/moderate.controller.js:84 | Each verdict is labelled with the URL it was computed for and keeps its `blocked` flag |
| LiveController.BlockedOnly | backend/controllers/moderate.controller.js:85 | The blocked verdicts in order; empty exactly when none is blocked |
| LiveController.ImageReply | backend/controllers/moderate.controller.js:85-103 | `blocked` is true exactly when some result is blocked; `blockedImages` are the blocked results; `results` are all of them |
| LiveController.ImageHandler | backend/controllers/moderate.controller.js:65-108 | A missing, non-array or empty list is 400; at most 10 `http` strings are checked; the reply is `ImageReply` of the enriched results; one `image` record, with the first blocked image's category, is added exactly when a profile and a page URL are given and the reply is blocked |
| LiveController.UrlHandler | backend/controllers/moderate.controller.js:112-169 | A missing URL is 400. An allow-listed domain answers `allowlisted` before the block list; a block-listed one is blocked with a log record and no call; otherwise the service verdict |
| LiveController.Aggregate | backend/controllers/moderate.controller.js:218-232 | Blocked exactly when the URL, text or some image sub-result is. The reason is the URL's, else the text category, else the first blocked image's category, else null |
| LiveController.FirstBlockedUnique | backend/controllers/moderate.controller.js:218 | The image whose category becomes the reason is the leftmost blocked one |
| LiveController.FirstBlockedAt | backend/controllers/moderate.controller.js:218 | When entry `i` is blocked and none before it is, the blocked list starts with entry `i` |
| LiveController.ImageDetails | backend/controllers/moderate.controller.js:250-254 | One detail per classified image. As written, the URL is taken from the unfiltered request at the same index; corrected, it is the URL that was classified |
| LiveController.CheckedImages | backend/controllers/moderate.controller.js:208-215 | At most five image URLs are classified, all starting with `http` |
| LiveController.PageReply | backend/controllers/moderate.controller.js:244-256 | The reply's `blocked` and `reason` are the aggregate's; corrected details name the URL each verdict is for |
| LiveController.PageClassified | backend/controllers/moderate.controller.js:201-256 | A request the lists do not settle answers 200 and changes no profile; one `page` record with the reply's reason is added exactly when a profile is known and the reply is blocked, and the log is unchanged otherwise |
| LiveController.PageWith | backend/controllers/moderate.controller.js:173-261 | A missing URL is 400. Allow- and block-listed domains short-circuit as in the URL endpoint. A throwing input is 500 with no record, but the URL check, and the text check when the text is long enough, have already started, and their calls and cache writes stay |
| LiveController.PageHandler | backend/controllers/moderate.controller.js:173-261 | The page endpoint as written. A missing URL is 400 and changes nothing. No reply changes a profile. For a URL the lists do not settle, an input that makes the body throw is 500 "Page moderation error" with no record; any other input is 200, and one record is added exactly when a profile is known and the reply is blocked. An allow-listed domain is 200 with no record; a block-listed one is 200 with one record |
| LiveController.ObjectLengthAgrees | backend/controllers/moderate.controller.js:208-210 | For an object image list whose `length` converts to a number, the body throws exactly when that number is positive: the comparison `length > 0` passes and `filter` is missing |
| LiveController.FractionalLengthAnswers500 | backend/controllers/moderate.controller.js:208-259 | An object image list with a positive fractional string `length`, such as `"0.5"`, gets the 500 reply for any URL the lists do not settle |
| Numbers.PositiveAgrees | backend/controllers/moderate.controller.js:208 | Where a value converts to an integer, `value > 0` holds exactly when that integer is positive |
| Numbers.ConvertedDoesNotThrow | backend/controllers/moderate.controller.js:208 | A value that converts to a number converts without a `TypeError` |
| Numbers.FractionPositive | backend/controllers/moderate.controller.js:208 | A numeral `d.f` is above zero exactly when its whole part or its fraction has a non-zero digit, so `"0.5" > 0` holds and `"0.0" > 0` does not |
| Numbers.DecimalPositiveAgrees | backend/controllers/moderate.controller.js:208 | An unsigned decimal numeral that converts to an integer gives a non-negative value, and the value is positive exactly when the numeral has a non-zero digit |
| Numbers.ScaleSign | backend/controllers/moderate.controller.js:208 | Scaling digits by a power of ten keeps their sign: the result is positive exactly when the digits are |
| Numbers.NotInfinity | backend/controllers/moderate.controller.js:208 | `Infinity` and `+Infinity`, which compare above zero, are not integer numerals |
| LiveController.PageHandlerCorrected | backend/controllers/moderate.controller.js:250-254 | A classified page's details name, for each image verdict, the URL actually classified |
| LiveController.AllowListWins | backend/controllers/moderate.controller.js:124-131 | A domain on both lists is allowed, with no call and no log record |
| LiveController.OffLevelStillClassified | backend/controllers/moderate.controller.js:151 | Filtering level `off` does not skip the URL classifier |
| LiveController.PageDetailsMislabelImages | backend/controllers/moderate.controller.js:250-254 | When a non-`http` entry precedes an `http` one, the as-written details label the first verdict with the wrong URL |
| LegacyModeration.ConfiguredTtl | backend/utils/moderation.js:7 | The lifetime is never 0: an absent, unparsable or zero setting gives exactly 3600, any other number is taken as it is |
| LegacyModeration.Get | backend/utils/moderation.js:17-18 | A hit exactly when the key is present and has not expired |
| LegacyModeration.Set | backend/utils/moderation.js:55 | The key reads back as the written verdict; every other entry is unchanged |
| LegacyModeration.Flagged | backend/utils/moderation.js:37-47 | The listed categories the classifier flagged, and only those; empty exactly when none is flagged; a one-category list gives that category exactly when it is flagged |
| LegacyModeration.FlaggedAppend | backend/utils/moderation.js:43-47 | Filtering a concatenation is filtering each part in turn, so with the one-category case the result is the flagged categories in list order |
| LegacyModeration.FlaggedKeepsOrder | backend/utils/moderation.js:43-47 | Two flagged categories are reported in the order they stand in the list |
| LegacyModeration.ModerateText | backend/utils/moderation.js:12-62 | Text shorter than 10 once trimmed is clear with no call; a hit is returned; a miss makes one call; a failure is `API unavailable` and is not cached |
| LegacyModeration.Severity | backend/utils/moderation.js:75-76 | The index in UNKNOWN..VERY_LIKELY, or -1 exactly for a non-level name |
| LegacyModeration.IndexOf | backend/utils/moderation.js:76 | `indexOf`: the first position holding the value, or -1 exactly when it is absent |
| LegacyModeration.AtOrAbove | backend/utils/moderation.js:97-101 | Empty exactly when every checked category's severity is below the threshold index |
| LegacyModeration.Judge | backend/utils/moderation.js:94-108 | Blocked exactly when some checked category (adult, racy, violence) is at or above the threshold |
| LegacyModeration.ModerateImage | backend/utils/moderation.js:67-116 | An empty URL is clear with no call; a hit is returned; a miss makes one call; a reply without an annotation is plain clear, a failed call answers `API unavailable`, and neither is cached |
| LegacyModeration.ModerateUrl | backend/utils/moderation.js:121-156 | An empty URL is clear; a hit is returned; a miss makes one call; a threat answer is blocked exactly when there are matches and is cached; a failed call gives the unavailable verdict, not blocked, and writes nothing |
| LegacyModeration.Each | backend/utils/moderation.js:166-170 | One verdict per input, in input order |
| LegacyModeration.ModerateImageBatch | backend/utils/moderation.js:161-173 | One verdict per URL in input order, the same as one pass over all URLs; an empty URL is clear wherever it stands |
| LegacyModeration.EmptyUrlsClear | backend/utils/moderation.js:161-173 | An empty URL in a batch gets `{ blocked: false }` |
| LegacyModeration.EachAppend | backend/utils/moderation.js:166-170 | Processing two pieces in turn equals processing their concatenation |
| LegacyModeration.ChunkingIsTransparent | backend/utils/moderation.js:163-170 | Chunks of 16 answer exactly what one pass over all inputs answers |
| LegacyModeration.LowerThresholdBlocksMore | backend/utils/moderation.js:97-101 | A lower threshold blocks at least what a higher one blocks |
| LegacyModeration.UnknownThresholdBlocksEverything | backend/utils/moderation.js:76-99 | A threshold that is not a level name (index -1) blocks every annotated image |
| LegacyModeration.FailureIsNotCached | backend/utils/moderation.js:57-61 | After a failed call, the cache is as before and the next request calls again |
| LegacyModeration.TextKeyReadsPrefixOnly | backend/utils/moderation.js:16 | Texts agreeing on their first 200 characters share one cache key |
| LegacyModeration.UrlKeysCollide | backend/utils/moderation.js:124 | ASCII URLs agreeing on their first 75 characters share one as-written key |
| LegacyModeration.PrefixDigits | backend/utils/moderation.js:124 | The first 100 Base64 digits of an ASCII-prefixed string encode exactly its first 75 characters |
| LegacyModeration.PrefixEncodes | backend/utils/moderation.js:124 | An ASCII prefix of whole 3-character groups encodes on its own |
| LegacyModeration.DistinctUrlsShareKey | backend/utils/moderation.js:124 | Two concrete distinct URLs get one as-written key |
| LegacyModeration.CorrectedUrlKeysDistinct | backend/utils/moderation.js:124 | With the full encoding as key, distinct URLs never share a key |
| LegacyModeration.StrictRequestServedLenientVerdict | backend/utils/moderation.js:70 | A verdict cached for a `LIKELY` request is served to a `POSSIBLE` request that would have been blocked |
| LegacyModeration.PossibleBlocksOnlyStrictly | backend/utils/moderation.js:94-101 | Every category at POSSIBLE is blocked at threshold POSSIBLE and clear at LIKELY |
| LegacyModeration.CorrectedImageKeysSeparateThresholds | backend/utils/moderation.js:70 | With the threshold in the key, different thresholds never share an entry |
| LegacyController.CurrentTime | backend/controllers/moderationController.js:36 | `HH:MM`: five characters with a colon in the middle |
| LegacyController.FirstOn | backend/controllers/moderationController.js:38 | The first restriction for today, or none exactly when no restriction has today's day |
| LegacyController.FirstScheduled | backend/models/ChildProfile.js:26-30 | The first schedule entry for today, or none exactly when none has today's day |
| LegacyController.FromProfile | backend/controllers/moderationController.js:22 | The handler sees the stored lists and level; the stored restriction object has no array entries, so the handler sees none |
| LegacyController.UrlWith | backend/controllers/moderationController.js:18-54 | A missing URL is 400. The block list wins, then the allow list; an unlisted URL outside the allowed hours gets the time-restriction answer; otherwise `off` is clear with no call, and any other level answers exactly `moderateUrl`'s verdict and cache |
| LegacyController.UrlHandler | backend/controllers/moderationController.js:18-54 | The URL endpoint as written: a missing URL is 400, and at most one call |
| LegacyController.UrlHandlerCorrected | backend/controllers/moderationController.js:33-44 | With the gate reading the stored schedule, an enabled schedule outside its window blocks after the lists |
| LegacyController.TextHandler | backend/controllers/moderationController.js:57-66 | A missing text is 400; `off` is clear with no call; otherwise the service verdict |
| LegacyController.Threshold | backend/controllers/moderationController.js:76-81 | strict→POSSIBLE, moderate and off→LIKELY, custom→the custom threshold when it is non-empty, else LIKELY |
| LegacyController.ImageHandler | backend/controllers/moderationController.js:69-95 | `off` is clear with no call; an array is checked as a batch; a single URL otherwise |
| LegacyController.BlockListWins | backend/controllers/moderationController.js:25-30 | A domain on both lists is blocked, with no call |
| LegacyController.OffLevelSkipsOnlyTheService | backend/controllers/moderationController.js:47-49 | `off` does not lift the block list, and otherwise answers clear without a call |
| LegacyController.StoredScheduleIgnored | backend/controllers/moderationController.js:33-44 | For a stored profile, the as-written time gate never blocks |
| LegacyController.NightTimeNotBlocked | backend/controllers/moderationController.js:33-44 | Monday 22:30 with an enabled 08:00-20:00 Monday schedule: outside the stored window, yet not blocked |
| LegacyController.WindowIncludesEndpoints | backend/controllers/moderationController.js:40 | The start and end times themselves are inside the window |
| LegacyController.UnknownCustomThresholdBlocks | backend/controllers/moderationController.js:79-81 | A non-empty custom threshold that is not a level name blocks every annotated image |
| TwoTierCache.FastKey | backend/services/cache.service.js:5-12 | The fast-tier key is the prefix followed by the key itself |
| TwoTierCache.FastRead | backend/services/cache.service.js:10-16 | A fast answer exactly when the tier exists, the read does not fail and a live entry is present |
| TwoTierCache.RefillTtl | backend/services/cache.service.js:33 | At least one second, never outliving the durable entry by a full second, and within it when a second or more is left |
| TwoTierCache.DurableRead | backend/services/cache.service.js:19-41 | A missing tier, a failed read or a missing document is a miss; a hit is a truthy, unexpired value |
| TwoTierCache.Get | backend/services/cache.service.js:7-42 | The fast tier first, the durable tier only on a fast miss |
| TwoTierCache.Set | backend/services/cache.service.js:44-68 | Each tier is written unless it is absent or its write fails; the durable expiry is now plus ttl times 1000 |
| TwoTierCache.FastKeysDistinct | backend/services/cache.service.js:5 | Distinct keys have distinct fast-tier keys |
| TwoTierCache.FastHitIgnoresDurable | backend/services/cache.service.js:10-13 | A fast hit answers without reading or changing the durable tier |
| TwoTierCache.FastReadErrorFallsThrough | backend/services/cache.service.js:14-16 | A failed fast read answers as if the fast tier had no entry |
| TwoTierCache.ExpiredIsDeleted | backend/services/cache.service.js:26-30 | An entry whose expiry is reached is a miss and is deleted unless the delete fails |
| TwoTierCache.RefillBounds | backend/services/cache.service.js:32-35 | A durable hit re-populates the fast tier with an entry ending after now and within a second of the durable expiry |
| TwoTierCache.FalsyDurableValueMisses | backend/services/cache.service.js:37 | A stored falsy value reads as a miss |
| TwoTierCache.SetThenGet | backend/services/cache.service.js:44-68 | A written truthy value reads back at once from whichever tier took the write |
| TwoTierCache.StaleFastEntryShadowsWrite | backend/services/cache.service.js:44-54 | When the fast write fails, an older live fast entry keeps being served |
| TwoTierCache.DurableLifetime | backend/services/cache.service.js:27-45 | Without the fast tier, a write is readable for exactly its time to live |
| TwoTierCache.WritesIndependent | backend/services/cache.service.js:44-68 | Each tier's result depends only on that tier and its own fault |
| Extraction.Walk | extension/content.js:70-88 | Exactly the accepted text nodes, in document order |
| Extraction.Accepting | extension/content.js:70-88 | The positions of accepted nodes, strictly increasing |
| Extraction.WalkInDocumentOrder | extension/content.js:70-94 | The walk is the nodes at the accepted positions, taken in increasing position order |
| Extraction.AcceptingListsAll | extension/content.js:70-88 | Every accepted node's position is listed, so no accepted node is skipped |
| Extraction.Chunk | extension/content.js:95 | A node's chunk is its content with the white space at both ends removed: a trimmed infix of the content with only white space outside it |
| Strings.TrimDropsSpace | extension/content.js:95 | Every character `trim` drops, before or after the part it keeps, is white space |
| Strings.TrimSpec | extension/content.js:95 | `trim` yields a contiguous part of its input that starts and ends with a non-space character |
| Extraction.Texts | extension/content.js:94-95 | One trimmed text per walked node |
| Extraction.ChunksFromTexts | extension/content.js:94-100 | Every kept chunk is longer than 15 characters and is the text of a walked node |
| Extraction.ChunksUnderCap | extension/content.js:94-100 | Each chunk is taken while fewer than 3000 characters have been gathered |
| Extraction.LongOnly | extension/content.js:96 | The texts longer than 15 characters, each one a text of the walk |
| Extraction.ChunksAreLongPrefix | extension/content.js:94-100 | The loop keeps a leading run of the long texts, in order and skipping none, and stops short of the last only once 3000 characters are gathered |
| Extraction.Gather | extension/content.js:90-100 | The loop collects exactly the chunks the budget rule keeps |
| Extraction.ExtractText | extension/content.js:69-103 | The page text is the first n long texts of the walk joined by single spaces and cut to 3000 characters, each taken under the budget, with n short of all of them only when the budget is spent |
| Extraction.GatheredTextJoinsLeadingLong | extension/content.js:94-102 | What the loop gathers, joined and cut, is a leading run of the long texts as `ExtractText` states |
| Extraction.SourceOf | extension/content.js:117 | `src`, else `data-src`, else `data-lazy`, else empty |
| Extraction.ExtractImageUrls | extension/content.js:105-124 | At most 5 distinct URLs, all starting with `http`, each the source of an eligible image; fewer than 5 only when every eligible source is included |
| Extraction.ScanImages | extension/content.js:106-121 | The scan loop's URLs, with a witness image for each |
| Extraction.WitnessedSources | extension/content.js:117-120 | Every collected URL comes from a contributing image |
| Extraction.BlurOne | extension/content.js:127-135 | A wide enough image not yet blurred is blurred once with its filter saved; nothing else changes |
| Extraction.BlurAll | extension/content.js:126-137 | Blurring only adds to the blurred set |
| Extraction.Unblur | extension/content.js:139-145 | Every blurred image gets its saved filter back and the set is emptied |
| Extraction.BlurPreservesRestore | extension/content.js:126-145 | Blurring keeps every image's restorable filter and blurs every eligible image |
| Extraction.BlurThenUnblur | extension/content.js:126-145 | Blur followed by unblur puts every filter back as it was |
| Extraction.BlurAllIdempotent | extension/content.js:130 | Blurring twice is blurring once: no original is overwritten |
| Scanner.Label | extension/content.js:152-166 | A reason whose property key is a known name gets that name's label, a one-element array is labelled as its element, and every other reason gets `Suspicious Content Detected` |
| Scanner.LabelKey | extension/content.js:166 | The key a reason indexes the table with: a string itself, a one-element array its element's key; a key exists only for a string nested in one-element arrays |
| Scanner.WrappedReasonKeepsLabel | extension/content.js:166 | A reason wrapped in any number of one-element arrays, such as `["Nudity"]`, gets the same label as the bare reason |
| Scanner.ShownUrl | extension/content.js:167 | The first 90 characters of the address, then `...` only if it was longer |
| Scanner.Start | extension/content.js:16-40 | Start-up asks for the configuration; as written, the observer connects whenever there is a body |
| Scanner.Arm | extension/content.js:28-35 | A fresh timer holds the scan with the given delay; when cancelling, the previous scan's timer is removed and no other |
| Scanner.ShowBlock | extension/content.js:147-167 | Blocked for good, observer disconnected, pending scan cancelled, screen shows the label |
| Scanner.Scan | extension/content.js:42-67 | Blocked is a no-op; little text and no images unblurs with no request; otherwise one page request |
| Scanner.OnConfig | extension/content.js:17-22 | Disabled or without a device id, start-up stops; otherwise images are blurred and the URL check sent |
| Scanner.OnPrecheck | extension/content.js:22-28 | The pre-check reply ends start-up |
| Scanner.OnMutation | extension/content.js:31-36 | Without an observer, or once blocked, only the page changes; otherwise a new scan is armed |
| Scanner.OnScanReply | extension/content.js:62-66 | A scan reply settles one pending scan |
| Scanner.Step | extension/content.js:16-67 | Messages are only ever appended |
| Scanner.BlurBeforePrecheck | extension/content.js:20-22 | Every eligible image is blurred by the time the URL check is sent |
| Scanner.PrecheckBlockStops | extension/content.js:23-26 | A blocked pre-check shows the block screen (default `unsafe_url`) and arms no scan |
| Scanner.MutationReschedules | extension/content.js:31-36 | A mutation re-blurs, cancels the pending scan and arms exactly one new 3000 ms scan |
| Scanner.ScanReplyOutcomes | extension/content.js:62-66 | Blocked shows the screen (default `content_violation`); anything else, null included, unblurs |
| Scanner.BlockedIsTerminal | extension/content.js:147-150 | Once blocked after configuration, the script stays blocked and disconnected and sends nothing more |
| Scanner.DisabledStillReacts | extension/content.js:31-40 | As written, a disabled script still blurs and arms a scan on a mutation |
| Scanner.DisabledStaysInert | extension/content.js:18-40 | With the observer connected after the enable check, a disabled script does nothing, whatever happens |
| Scanner.StartupLeavesTwoScans | extension/content.js:28-35 | As written, a mutation before the pre-check reply leaves two scans pending |
| Scanner.SingleTimerRun | extension/content.js:28-35 | With start-up cancelling as a mutation does, at most one scan is ever pending |
| Relay.Slice | extension/background.js:73-74 | Strings and arrays are cut to length; null and undefined give undefined; anything else throws |
| Relay.PageBody | extension/background.js:71-76 | The body has exactly url, text (at most 3000 characters), imageUrls (at most 5; `[]` when absent) and deviceId |
| Relay.ModeratePage | extension/background.js:64-80 | A missing payload rejects; a disabled worker answers not blocked with no request; a result is the backend's JSON |
| Relay.ModerateUrl | extension/background.js:86-103 | Disabled answers not blocked with no request; a non-OK response rejects; a result is the backend's JSON |
| Relay.Route | extension/background.js:28-56 | `GET_CONFIG` answers exactly the stored config keys |
| Relay.FailsOpen | extension/background.js:32-46 | A check is answered with the backend's JSON or with `{ blocked: false }` |
| Relay.BlockedOnlyByBackend | extension/background.js:32-46 | A blocked answer was sent by the backend |
| Relay.DisabledMakesNoRequest | extension/background.js:66-88 | Disabled or without a device id, checks answer not blocked with no request |
| Relay.UrlCheckNonOkFailsOpen | extension/background.js:96-100 | A non-OK URL check answers not blocked |
| Relay.PagePayloadCapped | extension/background.js:73-74 | At most 3000 characters of text and 5 image URLs are forwarded |
| Relay.UnknownTypeRejected | extension/background.js:53-54 | Any other message type is answered with the error and makes no request |
| SiteLists.DropPrefix | frontend/src/pages/ChildDetailPage.js:12 | Removes the prefix when present; leaves the string alone otherwise |
| SiteLists.Normalise | frontend/src/pages/ChildDetailPage.js:12 | The normalised input has no capitals |
| SiteLists.StripScheme | frontend/src/pages/ChildrenPage.js:52 | Removes a leading `http://` or `https://`, nothing else |
| SiteLists.StripSchemeAndWww | frontend/src/pages/ChildDetailPage.js:12 | Without a scheme, nothing is stripped, `www.` included |
| SiteLists.TagValue | frontend/src/pages/ChildDetailPage.js:12 | The tag is lower-case and slash-free: what follows the scheme in the trimmed lower-cased input (and a `www.` only right after a scheme), up to the first slash |
| SiteLists.AddTag | frontend/src/pages/ChildDetailPage.js:11-17 | A new non-empty value is appended; an empty or present one changes nothing; the field is cleared either way |
| SiteLists.RemoveTag | frontend/src/pages/ChildDetailPage.js:38 | Every equal entry goes and every other entry keeps its count |
| SiteLists.AddTagKeepsDistinct | frontend/src/pages/ChildDetailPage.js:13-14 | The tag list stays free of duplicates and of empty additions |
| SiteLists.AddTagIdempotent | frontend/src/pages/ChildDetailPage.js:13 | Adding the same input twice adds it once |
| SiteLists.RemoveTagAppend | frontend/src/pages/ChildDetailPage.js:38 | Removal commutes with concatenation, so the rest keep their order |
| SiteLists.RemoveTagKeepsDistinct | frontend/src/pages/ChildDetailPage.js:38 | Removal keeps a duplicate-free list duplicate-free |
| SiteLists.DropTrailingSlash | frontend/src/pages/ChildrenPage.js:52 | At most one trailing slash is removed |
| SiteLists.AddSite | frontend/src/pages/ChildrenPage.js:51-57 | An empty site changes nothing; otherwise it is appended and the field cleared; the other list and field are unchanged |
| SiteLists.RemoveSite | frontend/src/pages/ChildrenPage.js:59-62 | Every equal entry leaves the chosen list; nothing else changes |
| SiteLists.AddSiteRepeats | frontend/src/pages/ChildrenPage.js:55 | A site already listed is appended again |
| SiteLists.WwwEntryMissesItsSite | frontend/src/pages/ChildDetailPage.js:12 | A bare `www.` host typed by the parent is stored with `www.`, but the server compares without it |
| SiteLists.TagValueCorrected | frontend/src/pages/ChildDetailPage.js:12 | What follows an optional scheme and an optional `www.` in the trimmed lower-cased input, up to the first slash |
| SiteLists.CutAtSlash | frontend/src/pages/ChildDetailPage.js:12 | Cutting at the first slash keeps exactly the slash-free text up to it |
| SiteLists.CorrectedValuesOfBareHost | frontend/src/pages/ChildDetailPage.js:12 | Both corrected editors store a bare host without its `www.` |
| SiteLists.CorrectedEntryMatchesDomain | frontend/src/pages/ChildDetailPage.js:12 | With the corrected editors, a typed bare host is stored exactly as the server's domain of it |
| Profiles.ParseLevel | backend/models/ChildProfile.js:7 | The enum validator accepts only the four level names |
| Profiles.LevelNameRoundTrip | backend/models/ChildProfile.js:7 | Level names and the validator are inverse, both ways |
| Profiles.LowerCaseAll | backend/models/ChildProfile.js:20-21 | Each stored site entry is its lower-cased input |
| Profiles.AddChild | backend/controllers/childController.js:8-46 | Refused at 10 profiles or on invalid input; otherwise every schema default, `moderate` unless given |
| Profiles.ApplyUpdate | backend/controllers/childController.js:84-91 | Only present fields change; custom settings merge key by key; rejected exactly on an invalid level or day |
| Profiles.ApplyUpdatePreservesValidity | backend/models/ChildProfile.js:1-35 | An accepted update keeps a valid profile valid |
| Profiles.FindOwned | backend/controllers/childController.js:81 | The position of the profile with this id and parent, or none exactly when there is none |
| Profiles.UpdateChild | backend/controllers/childController.js:77-96 | A missing or foreign profile is 404 with no change; the store keeps its size |
| Profiles.ConfigReflectsUpdate | backend/controllers/childController.js:113-124 | After an accepted update, each of the six policy fields in the device config is the updated value when the request gives one (sites lower-cased, settings merged key by key) and the stored value otherwise |
| Profiles.ResolveChild | backend/controllers/moderate.controller.js:11-14 | No device id gives none; a result is an active profile with that device id |
| Profiles.FirstActive | backend/controllers/moderate.controller.js:13 | The first active profile with the device id, or none exactly when there is none |

## Left out

- Prompts, the network, timeouts (`withTimeout`, `fetchWithTimeout`, the axios limits), SHA-256, `JSON.parse` and URL parsing are parameters or call oracles. A timeout is one more failed call.
- The `Promise.all` fan-outs are evaluated in order:
  - the live image and page endpoints;
  - a legacy batch chunk.

  Concurrent calls that would each miss the cache are modelled as consecutive, so a later one can hit what an earlier one wrote.
- `logActivity` is fire-and-forget; the model appends its record synchronously. The record's `moderationScore` (a float, confidence/100) and its time stamp are left out.
- `JSON.stringify` dropping `undefined` fields is not modelled: relay bodies keep them as `Json.Undef`.
- Case mapping is ASCII-only (`Strings.ToLower`, `Strings.ToUpper`); JavaScript's full Unicode case mapping is not modelled.
- Scanner.Label: a reason naming an `Object.prototype` property (`constructor`, `toString`) would yield that property in JavaScript; the model gives the generic label. Array reasons are modelled through their string conversion (`Scanner.LabelKey`).
- The block screen's HTML and the `style.transition` write are left out.
- The 500 replies of the live endpoints are modelled for the inputs that make the body throw (`LiveController.PageThrows`). For the page endpoint these are truthy text that is not a string, a non-empty string image list, and an object image list whose `length` either cannot be converted or converts to a positive number. The live service steps that run before their `try` accept the strings the live endpoints pass them. The page endpoint's `url` is modelled as a string.
- The legacy request fields (`text`, `url`, `imageUrl`, the site-list entries) are modelled as strings. A truthy non-string would make `text.trim()` (backend/utils/moderation.js:13), `domain.endsWith` (backend/controllers/moderationController.js:14) or `Buffer.from(imageUrl)` (backend/utils/moderation.js:70) throw before any `try`; those throws are not modelled.
- LegacyController.ImageHandler: the `catch` giving 500 `Image moderation failed.` (backend/controllers/moderationController.js:92-94) is not modelled. The code reaches it when an element of `imageUrls` is not a string, since `Buffer.from(5)` (backend/utils/moderation.js:70) throws; the model's image URLs are strings, so that 500 path is dropped.
- Lengths count characters (`seq<char>` elements), while JavaScript's `length` and `slice` count UTF-16 code units. The cut-offs named below therefore differ from the code for text outside the Basic Multilingual Plane, and the model cannot split a surrogate pair as `slice` can.
- LegacyModeration.ModerateText: the minimum of 10 and the 200-character key prefix count characters. `"😀😀😀😀😀"` is 10 code units, so the code calls the classifier, but 5 characters, so the model answers clear with no call; `slice(0, 200)` can cut a pair in half, the model cannot.
- Gemini.ModerateText: the minimum of 20 and the cut at 4000 count characters, not code units.
- GeminiBatch.Keep: the minimum of 10 and the cut at 500 count characters, not code units.
- LiveController.PageThrows: a `length` numeral is compared with 0 exactly, not as a double, so a tiny positive numeral such as `"1e-400"`, which rounds to 0 in JavaScript and leaves the body running, counts as positive here and gives the 500 reply.
- GeminiBatch.Items: snippets are modelled as strings. The code maps every entry of `textArray` through `String(t)`, so a number becomes its digits and `null` the word `null`; those conversions are not modelled. A `textArray` that is not an array throws at `.map`; that case is not modelled either.
- LiveController.PageClassified: the page-text minimum of 50 counts characters, not code units.
- Extraction.ExtractText: the chunk minimum of 15 and the cap of 3000 count characters, not code units.
- Scanner.Scan: the scan minimum of 30 counts characters, not code units.
- Relay.PageBody: the cut at 3000 counts characters, not code units.
- Profiles.AddChild: the name limit of 50 counts characters, not code units.
- JSON numbers are integers here (`Json.Num` holds an `int`); fractional numbers are not modelled.
- GeminiBatch.Original: a numeric index such as `1.5` cannot be expressed, since `Json.Num` holds an integer; in the code `uncachedItems[0.5]` is `undefined`, so such an entry names no snippet, and the string `"1.5"` is modelled and names none.
- GeminiBatch.Original: string indices are converted exactly, not rounded to a double. A numeral with more significant digits than a double holds, such as `1.0000000000000000001`, names the first snippet in JavaScript and none here; numerals of huge magnitude (`1e400` is `Infinity`) name no snippet either way.
- GeminiBatch.Original: an object index whose own `toString` key holds a non-function (`{"toString": 1}`), bare or inside a one-element array, makes the conversion throw a `TypeError`; the code's outer `catch` then fills every unfilled slot with the zero-confidence safe verdict, while the model reads such an index as naming no snippet and goes on with the next entry.
- GeminiBatch.EntryVerdict: a fractional `confidence` such as `85.5` cannot be expressed; integer confidences pass through as in the code.
- Gemini.Shape: a fractional `confidence` such as `85.5` cannot be expressed; integer confidences pass through as in the code.
- Mongoose strict mode is not modelled. It drops `customSettings.imageBlurThreshold`, which the schema does not declare, so stored profiles reach the threshold map with no custom threshold. The model keeps the field as an input of the legacy handler.
- The enum check on `customSettings.safeSearchLevel` is not modelled.
- Profiles.ApplyUpdate: the spread over a mongoose subdocument is modelled as a plain key-by-key merge.
- The fast tier's own expiry semantics are reduced to a deadline per entry. The `undefined` value that `JSON.stringify` would make of a missing value is stored as `Json.Undef`.
- `cache.service.js` is modelled on its own. Nothing in the modelled code calls it: the classification service uses its own document-store cache (`Gemini.GetCached`).
- The database's 30-day TTL index on the cache collection is left out; expiry is the read-time age check.
- The NodeCache `checkperiod` sweep is not modelled; entries expire at read time.
- `listChildren`, `getChild` and `removeChild` are not part of this model. The device-authentication middleware that sets `req.child` is not part of it either: the legacy handlers receive the profile.
- Hashing the profile pin with bcrypt, and generating the device id with `uuid`, are not modelled; the device id is a parameter.
- The extension's popup, the dashboard pages' rendering and the other routes are not part of this model.
- Profiles.GetChildConfig: the projection has no contract of its own; `Profiles.ConfigReflectsUpdate` states what it returns.

## Findings

| source | as written | input that shows it | evidently intended | confidence | as-written member | corrected member |
|---|---|---|---|---|---|---|
| backend/controllers/moderate.controller.js:250-254 | `details.images[i].url` is read from the unfiltered request list at index `i`, while verdict `i` is for the i-th `http` URL | `imageUrls = ["data:x", "http://a/1.png"]`: the verdict for `http://a/1.png` is labelled `data:x` | each detail names the URL that was classified | not executed | LiveController.PageDetailsMislabelImages | LiveController.PageHandlerCorrected |
| backend/controllers/moderationController.js:33-44 | the time gate reads an array of `{dayOfWeek, startTime, endTime}`, but the schema (backend/models/ChildProfile.js:24-32) stores an object with `enabled` and `schedule[].day`, so the gate never fires | Monday 22:30, schedule enabled with day 1 from 08:00 to 20:00: not blocked | enforce the stored schedule | not executed | LegacyController.NightTimeNotBlocked | LegacyController.UrlHandlerCorrected |
| extension/content.js:28 | start-up arms its scan without clearing `scanTimer` | enabled config, then a mutation, then a not-blocked pre-check reply: two scans are pending and the first cannot be cancelled | at most one pending scan | not executed | Scanner.StartupLeavesTwoScans | Scanner.SingleTimerRun |
| extension/content.js:31-40 | the observer is connected before the enable check | disabled config, then a mutation adding an image: the image is blurred and a scan armed | a disabled extension does nothing | not executed | Scanner.DisabledStillReacts | Scanner.DisabledStaysInert |
| backend/services/gemini.service.js:283-287 | the batch fallback writes every `moderateText` result to the cache, including the fail-open error verdict | a batch reply that does not parse, then a failed single call: the error verdict is served as a hit for the whole lifetime | failed verdicts are not cached, as in `moderateText` itself | not executed | GeminiBatch.FallbackCachesFailure | GeminiBatch.CorrectedFallbackCachesNoFailure |
| backend/utils/moderation.js:124 | the URL key keeps only the first 100 Base64 digits, so only the first 75 bytes count | two 76-character URLs differing only in the last character share one key and one verdict | distinct URLs have distinct keys | not executed | LegacyModeration.DistinctUrlsShareKey | LegacyModeration.CorrectedUrlKeysDistinct |
| backend/utils/moderation.js:70 | the image key has no threshold | every category POSSIBLE: a LIKELY request caches a clear verdict, then a POSSIBLE request is served it instead of being blocked | verdicts cached per threshold | not executed | LegacyModeration.StrictRequestServedLenientVerdict | LegacyModeration.CorrectedImageKeysSeparateThresholds |
| frontend/src/pages/ChildDetailPage.js:12 | `www.` is stripped only right after a scheme (also frontend/src/pages/ChildrenPage.js:52, which never strips it), while the server drops it (backend/controllers/moderate.controller.js:18) | typing `www.example.com` stores `www.example.com`, which never equals the domain `example.com` | stored entries match the server's domain | not executed | SiteLists.WwwEntryMissesItsSite | SiteLists.CorrectedEntryMatchesDomain |

=== FILE: base.dfy ===
/** Small shared vocabulary: optional values and results with an error message. */
module Base {

  /** A value that may be absent (JavaScript's `null`/`undefined` at a typed boundary). */
  datatype Option<+T> = None | Some(value: T) {

    /** The wrapped value, or `default` when absent (JavaScript's `x ?? d` on a typed value). */
    function GetOr(default: T): T {
      match this
      case Some(v) => v
      case None => default
    }
  }

  /** The outcome of an operation that can throw: a value, or the thrown error's message. */
  datatype Result<+T> = Ok(value: T) | Err(message: string)

  /** The smaller of two integers. */
  function Min(a: int, b: int): int {
    if a <= b then a else b
  }

  /** The larger of two integers. */
  function Max(a: int, b: int): int {
    if a >= b then a else b
  }
}

=== FILE: domains.dfy ===
/**
 * Domain keys compared against a profile's site lists.
 *
 * Both server generations read the host through `new URL(url).hostname`, which is
 * left uninterpreted: the parameter `hostname` returns the host, or None when the
 * URL constructor throws.
 */
module Domains {
  import opened Base
  import opened Strings

  /**
   * `getDomain` of the live controller: the host with one leading, case-sensitive
   * `www.` removed, then lower-cased; None for an unparsable URL.
   */
  function GetDomain(hostname: string -> Option<string>, url: string): (r: Option<string>)
    ensures hostname(url).None? <==> r.None?
    ensures r.Some? ==> IsLowerCased(r.value)
    ensures r.Some? && StartsWith(hostname(url).value, "www.") ==> r.value == ToLower(hostname(url).value[4..])
    ensures r.Some? && !StartsWith(hostname(url).value, "www.") ==> r.value == ToLower(hostname(url).value)
  {
    match hostname(url)
    case None => None
    case Some(h) => Some(ToLower(if StartsWith(h, "www.") then h[4..] else h))
  }

  /**
   * `extractDomain` of the legacy controller: the host with the first `www.`
   * removed wherever it occurs; an unparsable input comes back unchanged.
   */
  function ExtractDomain(hostname: string -> Option<string>, url: string): (r: string)
    ensures hostname(url).None? ==> r == url
    ensures hostname(url).Some? && FindFrom(hostname(url).value, "www.", 0).None? ==> r == hostname(url).value
    ensures hostname(url).Some? && FindFrom(hostname(url).value, "www.", 0).Some? ==>
              var h := hostname(url).value;
              var i := FindFrom(h, "www.", 0).value;
              r == h[..i] + h[i + 4..]
  {
    match hostname(url)
    case None => url
    case Some(h) => ReplaceFirst(h, "www.", "")
  }

  /** One site-list entry matches a domain when it is the domain or a parent domain of it. */
  predicate SiteMatches(domain: string, site: string) {
    domain == site || EndsWith(domain, "." + site)
  }

  /** `siteList.some(...)` over the entries of a list. */
  function AnySiteMatches(domain: string, sites: seq<string>): (r: bool)
    ensures r <==> exists i :: 0 <= i < |sites| && SiteMatches(domain, sites[i])
  {
    if |sites| == 0 then false
    else SiteMatches(domain, sites[0]) || AnySiteMatches(domain, sites[1..])
  }

  /** `matchesSiteList(url, siteList)` of the legacy controller. */
  function MatchesSiteList(hostname: string -> Option<string>, url: string, sites: seq<string>): (r: bool)
    ensures r <==> exists i :: 0 <= i < |sites| && SiteMatches(ExtractDomain(hostname, url), sites[i])
    ensures hostname(url).None? ==> (r <==> exists i :: 0 <= i < |sites| && SiteMatches(url, sites[i]))
  {
    AnySiteMatches(ExtractDomain(hostname, url), sites)
  }

  /** The legacy matcher also matches every sub-domain of a listed site, but never a mere textual suffix. */
  lemma SubdomainMatches(domain: string, sub: string, site: string, sites: seq<string>)
    requires site in sites
    requires domain == sub + "." + site
    ensures AnySiteMatches(domain, sites)
  {
    var i :| 0 <= i < |sites| && sites[i] == site;
    assert domain[|domain| - |"." + site|..] == "." + site;
    assert SiteMatches(domain, sites[i]);
  }

  /** A domain that merely ends with a listed site's text, without a dot boundary, does not match it. */
  lemma NoMatchWithoutDotBoundary(domain: string, site: string)
    requires domain != site
    requires |domain| > |site|
    requires domain[|domain| - |site| - 1] != '.'
    ensures !SiteMatches(domain, site)
  {
  }
}

=== FILE: encoding.dfy ===
/**
 * The byte encodings the legacy cache keys are built from: UTF-8, as
 * `Buffer.from(string)` produces it, and Base64 with padding, as
 * `buffer.toString('base64')` produces it (section 4 of RFC 4648).
 */
module Encoding {

  type Byte = b: int | 0 <= b < 256

  /** The UTF-8 encoding of one Unicode scalar value (section 3 of RFC 3629). */
  function CharBytes(c: char): (r: seq<Byte>)
    ensures 1 <= |r| <= 4
    ensures c as int < 0x80 ==> r == [c as int]
    ensures c as int >= 0x80 ==> |r| >= 2 && r[0] >= 0xC0
  {
    var n := c as int;
    if n < 0x80 then [n]
    else if n < 0x800 then [0xC0 + n / 64, 0x80 + n % 64]
    else if n < 0x10000 then [0xE0 + n / 4096, 0x80 + (n / 64) % 64, 0x80 + n % 64]
    else [0xF0 + n / 262144, 0x80 + (n / 4096) % 64, 0x80 + (n / 64) % 64, 0x80 + n % 64]
  }

  /** `Buffer.from(s)`: the UTF-8 encoding of a string. */
  function Utf8(s: string): (r: seq<Byte>)
    ensures |r| >= |s|
  {
    if s == [] then [] else CharBytes(s[0]) + Utf8(s[1..])
  }

  predicate IsAscii(s: string) {
    forall i :: 0 <= i < |s| ==> s[i] as int < 0x80
  }

  lemma {:induction false} Utf8Append(a: string, b: string)
    ensures Utf8(a + b) == Utf8(a) + Utf8(b)
  {
    if a == [] {
      assert a + b == b;
    } else {
      assert (a + b)[1..] == a[1..] + b;
      Utf8Append(a[1..], b);
    }
  }

  /** An ASCII string encodes to one byte per character. */
  lemma {:induction false} Utf8OfAscii(s: string)
    requires IsAscii(s)
    ensures |Utf8(s)| == |s|
  {
    if s != [] {
      Utf8OfAscii(s[1..]);
    }
  }

  const Alphabet: string := "ABCDEFGHIJKLMNOPQRSTUVWXYZabcdefghijklmnopqrstuvwxyz0123456789+/"

  function Digit64(n: int): char
    requires 0 <= n < 64
  {
    Alphabet[n]
  }

  /** The four characters of three bytes. */
  function Quad(x: Byte, y: Byte, z: Byte): (r: string)
    ensures |r| == 4
  {
    var a := x / 4;
    var b := x % 4 * 16 + y / 16;
    var c := y % 16 * 4 + z / 64;
    var d := z % 64;
    [Digit64(a), Digit64(b), Digit64(c), Digit64(d)]
  }

  /** The characters of a final group of one or two bytes, padded with `=`. */
  function Tail(b: seq<Byte>): (r: string)
    requires 1 <= |b| <= 2
    ensures |r| == 4
  {
    var q := Quad(b[0], if |b| == 2 then b[1] else 0, 0);
    if |b| == 1 then q[..2] + "==" else q[..3] + "="
  }

  /** Base64 with `=` padding: every three bytes become four characters. */
  function Base64(b: seq<Byte>): string {
    if |b| == 0 then []
    else if |b| < 3 then Tail(b)
    else Quad(b[0], b[1], b[2]) + Base64(b[3..])
  }

  /** Base64 works on three-byte groups, so a prefix of whole groups encodes on its own. */
  lemma {:induction false} Base64Append(a: seq<Byte>, b: seq<Byte>)
    requires |a| % 3 == 0
    ensures Base64(a + b) == Base64(a) + Base64(b)
    decreases |a|
  {
    if |a| == 0 {
      assert a + b == b;
    } else {
      assert (a + b)[3..] == a[3..] + b;
      Base64Append(a[3..], b);
    }
  }

  /** Four characters for every started group of three bytes. */
  lemma {:induction false} Base64Length(b: seq<Byte>)
    ensures |Base64(b)| == 4 * ((|b| + 2) / 3)
  {
    var n := |b|;
    if 0 < n < 3 {
      ShortLength(b);
      OneGroup(n);
    } else if n >= 3 {
      GroupLength(b);
      Base64Length(b[3..]);
      GroupStep(n - 3);
    }
  }

  lemma ShortLength(b: seq<Byte>)
    requires 0 < |b| < 3
    ensures |Base64(b)| == 4
  {
  }

  lemma GroupLength(b: seq<Byte>)
    requires |b| >= 3
    ensures |Base64(b)| == 4 + |Base64(b[3..])|
  {
  }

  lemma OneGroup(n: nat)
    requires 1 <= n <= 2
    ensures (n + 2) / 3 == 1
  {
  }

  lemma GroupStep(m: nat)
    ensures (m + 5) / 3 == (m + 2) / 3 + 1
    ensures 4 + 4 * ((m + 2) / 3) == 4 * ((m + 5) / 3)
  {
  }
}

=== FILE: extraction.dfy ===
/**
 * What the content script reads from a page and how it blurs images.
 *
 * The DOM is abstracted to records: a text node carries its parent's tag name and
 * bounding box, an image its natural size, bounding box and source attributes.
 * Document order is sequence order.
 */
module Extraction {
  import opened Base
  import opened Strings

  datatype Rect = Rect(top: int, bottom: int)

  /** A text node; `parentTag` and `rect` are `None` when the parent element does not supply them. */
  datatype TextNode = TextNode(parentTag: Option<string>, rect: Option<Rect>, content: string)

  /**
   * An image element. `src`, `dataSrc` and `dataLazy` are the `src`, `data-src` and
   * `data-lazy` attributes when present; `src` is already resolved to an absolute URL.
   */
  datatype Img = Img(id: nat, naturalWidth: int, naturalHeight: int, rect: Rect,
                     src: Option<string>, dataSrc: Option<string>, dataLazy: Option<string>)

  datatype Page = Page(href: string, innerHeight: int, texts: seq<TextNode>, imgs: seq<Img>)

  // ----- Text -----

  const HiddenTags: seq<string> := ["SCRIPT", "STYLE", "NOSCRIPT", "TEMPLATE", "META"]

  /** Text is collected until this many characters have been gathered, and cut to it. */
  const MaxText: nat := 3000

  /** Only chunks longer than this, after trimming, are kept. */
  const MinChunk: nat := 15

  /** Text nodes within this many pixels of the viewport are read. */
  const TextMargin: int := 300

  /** The tree walker's filter: not inside a hidden element, and near the viewport if the parent has a box. */
  predicate Accepted(n: TextNode, innerHeight: int) {
    (n.parentTag.None? || ToUpper(n.parentTag.value) !in HiddenTags)
    && (n.rect.None? || !(n.rect.value.bottom < -TextMargin || n.rect.value.top > innerHeight + TextMargin))
  }

  /** The text nodes the walker yields, in document order. */
  function Walk(nodes: seq<TextNode>, innerHeight: int): (r: seq<TextNode>)
    ensures |r| <= |nodes|
    ensures forall i :: 0 <= i < |r| ==> r[i] in nodes && Accepted(r[i], innerHeight)
    ensures forall n :: n in nodes && Accepted(n, innerHeight) ==> n in r
  {
    if nodes == [] then []
    else if Accepted(nodes[0], innerHeight) then [nodes[0]] + Walk(nodes[1..], innerHeight)
    else Walk(nodes[1..], innerHeight)
  }

  /** Each position moved one place right. */
  function Later(ix: seq<nat>): (r: seq<nat>)
    ensures |r| == |ix| && forall k :: 0 <= k < |ix| ==> r[k] == ix[k] + 1
  {
    seq(|ix|, k requires 0 <= k < |ix| => ix[k] + 1)
  }

  /** The positions of the nodes the filter accepts, in increasing order. */
  function Accepting(nodes: seq<TextNode>, innerHeight: int): (ix: seq<nat>)
    ensures forall k :: 0 <= k < |ix| ==> ix[k] < |nodes| && Accepted(nodes[ix[k]], innerHeight)
    ensures forall k, l :: 0 <= k < l < |ix| ==> ix[k] < ix[l]
    decreases |nodes|
  {
    if nodes == [] then []
    else
      var rest := Later(Accepting(nodes[1..], innerHeight));
      if Accepted(nodes[0], innerHeight) then [0] + rest else rest
  }

  /** The nodes at the given positions, in the order the positions are listed. */
  function At(nodes: seq<TextNode>, ix: seq<nat>): (r: seq<TextNode>)
    requires forall k :: 0 <= k < |ix| ==> ix[k] < |nodes|
    ensures |r| == |ix| && forall k :: 0 <= k < |ix| ==> r[k] == nodes[ix[k]]
  {
    seq(|ix|, k requires 0 <= k < |ix| => nodes[ix[k]])
  }

  /** Every accepted position is listed by `Accepting`. */
  lemma {:induction false} AcceptingComplete(nodes: seq<TextNode>, innerHeight: int, i: nat)
    requires i < |nodes| && Accepted(nodes[i], innerHeight)
    ensures i in Accepting(nodes, innerHeight)
    decreases |nodes|
  {
    var rest := Accepting(nodes[1..], innerHeight);
    var ix := Accepting(nodes, innerHeight);
    if i > 0 {
      assert nodes[1..][i - 1] == nodes[i];
      AcceptingComplete(nodes[1..], innerHeight, i - 1);
      var k :| 0 <= k < |rest| && rest[k] == i - 1;
      if Accepted(nodes[0], innerHeight) {
        assert ix[k + 1] == i;
      } else {
        assert ix[k] == i;
      }
    } else {
      assert ix[0] == 0;
    }
  }

  /**
   * The walk yields exactly the accepted nodes, in document order: the nodes at the
   * accepted positions, taken in increasing position order.
   */
  lemma {:induction false} WalkInDocumentOrder(nodes: seq<TextNode>, innerHeight: int)
    ensures Walk(nodes, innerHeight) == At(nodes, Accepting(nodes, innerHeight))
    decreases |nodes|
  {
    if nodes != [] {
      WalkInDocumentOrder(nodes[1..], innerHeight);
      WalkStep(nodes, innerHeight);
    }
  }

  /** One step of the walk, given the claim for the nodes after the first. */
  lemma WalkStep(nodes: seq<TextNode>, innerHeight: int)
    requires nodes != []
    requires Walk(nodes[1..], innerHeight) == At(nodes[1..], Accepting(nodes[1..], innerHeight))
    ensures Walk(nodes, innerHeight) == At(nodes, Accepting(nodes, innerHeight))
  {
    if Accepted(nodes[0], innerHeight) {
      AtKept(nodes, innerHeight);
    } else {
      AtSkipped(nodes, innerHeight);
    }
  }

  /** An accepted first node heads the nodes at the accepted positions. */
  lemma AtKept(nodes: seq<TextNode>, innerHeight: int)
    requires nodes != [] && Accepted(nodes[0], innerHeight)
    ensures At(nodes, Accepting(nodes, innerHeight)) == [nodes[0]] + At(nodes[1..], Accepting(nodes[1..], innerHeight))
  {
    AtFront(nodes, Accepting(nodes[1..], innerHeight));
  }

  /** A rejected first node leaves the nodes at the accepted positions to the rest. */
  lemma AtSkipped(nodes: seq<TextNode>, innerHeight: int)
    requires nodes != [] && !Accepted(nodes[0], innerHeight)
    ensures At(nodes, Accepting(nodes, innerHeight)) == At(nodes[1..], Accepting(nodes[1..], innerHeight))
  {
    AtLater(nodes, Accepting(nodes[1..], innerHeight));
  }

  lemma AtFront(nodes: seq<TextNode>, ix: seq<nat>)
    requires nodes != [] && forall k :: 0 <= k < |ix| ==> ix[k] < |nodes| - 1
    ensures At(nodes, [0] + Later(ix)) == [nodes[0]] + At(nodes[1..], ix)
  {
    var r := At(nodes, [0] + Later(ix));
    var w := At(nodes[1..], ix);
    forall k | 0 <= k < |r|
      ensures r[k] == ([nodes[0]] + w)[k]
    {
      if k > 0 {
        assert ([0] + Later(ix))[k] == ix[k - 1] + 1;
      }
    }
  }

  lemma AtLater(nodes: seq<TextNode>, ix: seq<nat>)
    requires nodes != [] && forall k :: 0 <= k < |ix| ==> ix[k] < |nodes| - 1
    ensures At(nodes, Later(ix)) == At(nodes[1..], ix)
  {
    var r := At(nodes, Later(ix));
    var w := At(nodes[1..], ix);
    forall k | 0 <= k < |r|
      ensures r[k] == w[k]
    {
      assert Later(ix)[k] == ix[k] + 1;
    }
  }

  /** Every accepted position is listed by `Accepting`. */
  lemma AcceptingListsAll(nodes: seq<TextNode>, innerHeight: int)
    ensures forall i :: 0 <= i < |nodes| && Accepted(nodes[i], innerHeight) ==> i in Accepting(nodes, innerHeight)
  {
    forall i | 0 <= i < |nodes| && Accepted(nodes[i], innerHeight)
      ensures i in Accepting(nodes, innerHeight)
    {
      AcceptingComplete(nodes, innerHeight, i);
    }
  }

  /** A node's text as the loop sees it: its content with the white space at both ends dropped. */
  function Chunk(n: TextNode): (c: string)
    ensures Trimmed(c) && |c| <= |n.content|
    ensures TrimOffset(n.content) + |c| <= |n.content|
    ensures c == n.content[TrimOffset(n.content)..TrimOffset(n.content) + |c|]
    ensures forall k :: 0 <= k < TrimOffset(n.content) ==> IsSpace(n.content[k])
    ensures forall k :: TrimOffset(n.content) + |c| <= k < |n.content| ==> IsSpace(n.content[k])
  {
    TrimSpec(n.content);
    TrimDropsSpace(n.content);
    Trim(n.content)
  }

  /** The trimmed texts of the walked nodes, one per node. */
  function Texts(nodes: seq<TextNode>): (r: seq<string>)
    ensures |r| == |nodes|
    ensures forall i :: 0 <= i < |nodes| ==> r[i] == Chunk(nodes[i])
  {
    seq(|nodes|, i requires 0 <= i < |nodes| => Chunk(nodes[i]))
  }

  /** The chunks the loop keeps from `texts` when `total` characters are already gathered. */
  function Chunks(texts: seq<string>, total: nat): seq<string>
    decreases |texts|
  {
    if texts == [] || total >= MaxText then []
    else if |texts[0]| > MinChunk then [texts[0]] + Chunks(texts[1..], total + |texts[0]|)
    else Chunks(texts[1..], total)
  }

  function SumLen(xs: seq<string>): nat {
    if xs == [] then 0 else SumLen(xs[..|xs| - 1]) + |xs[|xs| - 1]|
  }

  /** Every element of `r` is longer than 15 characters and occurs in `texts`. */
  predicate KeptFrom(r: seq<string>, texts: seq<string>) {
    forall k :: 0 <= k < |r| ==> |r[k]| > MinChunk && r[k] in texts
  }

  /** Each element of `r` was taken while fewer than 3000 characters had been gathered. */
  predicate UnderCap(r: seq<string>, total: nat) {
    forall k :: 0 <= k < |r| ==> total + SumLen(r[..k]) < MaxText
  }

  /** Every kept chunk is the trimmed text of one of the nodes, and longer than 15 characters. */
  lemma {:induction false} ChunksFromTexts(texts: seq<string>, total: nat)
    ensures KeptFrom(Chunks(texts, total), texts)
    decreases |texts|
  {
    if texts != [] && total < MaxText {
      var c := texts[0];
      var total' := if |c| > MinChunk then total + |c| else total;
      ChunksFromTexts(texts[1..], total');
      var rest := Chunks(texts[1..], total');
      var r := Chunks(texts, total);
      assert r == if |c| > MinChunk then [c] + rest else rest;
      forall k | 0 <= k < |r|
        ensures |r[k]| > MinChunk && r[k] in texts
      {
        if |c| > MinChunk && k == 0 {
        } else {
          var k' := if |c| > MinChunk then k - 1 else k;
          assert r[k] == rest[k'] && rest[k'] in texts[1..];
        }
      }
    }
  }

  /** The 3000-character budget is checked before each chunk is taken. */
  lemma {:induction false} ChunksUnderCap(texts: seq<string>, total: nat)
    ensures UnderCap(Chunks(texts, total), total)
    decreases |texts|
  {
    if texts != [] && total < MaxText {
      var c := texts[0];
      var total' := if |c| > MinChunk then total + |c| else total;
      ChunksUnderCap(texts[1..], total');
      var rest := Chunks(texts[1..], total');
      var r := Chunks(texts, total);
      if |c| > MinChunk {
        assert r == [c] + rest;
        forall k | 0 <= k < |r|
          ensures total + SumLen(r[..k]) < MaxText
        {
          if k == 0 {
            assert r[..0] == [];
          } else {
            assert r[..k] == [c] + rest[..k - 1];
            SumLenCons(c, rest[..k - 1]);
            assert total' + SumLen(rest[..k - 1]) < MaxText;
          }
        }
      } else {
        assert r == rest;
      }
    }
  }

  /** The texts longer than 15 characters, in order, with no budget. */
  function LongOnly(texts: seq<string>): (r: seq<string>)
    ensures forall k :: 0 <= k < |r| ==> |r[k]| > MinChunk && r[k] in texts
    ensures (forall i :: 0 <= i < |texts| ==> |texts[i]| <= MinChunk) ==> r == []
    decreases |texts|
  {
    if texts == [] then []
    else if |texts[0]| > MinChunk then [texts[0]] + LongOnly(texts[1..])
    else LongOnly(texts[1..])
  }

  /**
   * The loop keeps a leading run of the long texts, skipping none, and stops short of
   * the last one only when the budget is used up.
   */
  lemma {:induction false} ChunksAreLongPrefix(texts: seq<string>, total: nat)
    ensures |Chunks(texts, total)| <= |LongOnly(texts)|
    ensures Chunks(texts, total) == LongOnly(texts)[..|Chunks(texts, total)|]
    ensures |Chunks(texts, total)| < |LongOnly(texts)| ==> total + SumLen(Chunks(texts, total)) >= MaxText
    decreases |texts|
  {
    if texts != [] && total < MaxText {
      var t := texts[0];
      var total' := if |t| > MinChunk then total + |t| else total;
      ChunksAreLongPrefix(texts[1..], total');
      var c := Chunks(texts[1..], total');
      if |t| > MinChunk {
        SumLenCons(t, c);
        assert LongOnly(texts)[..|c| + 1] == [t] + LongOnly(texts[1..])[..|c|];
      }
    }
  }

  /** One iteration of the loop in terms of `Chunks`. */
  lemma ChunksStep(texts: seq<string>, i: nat, total: nat)
    requires i < |texts| && total < MaxText
    ensures Chunks(texts[i..], total)
         == if |texts[i]| > MinChunk then [texts[i]] + Chunks(texts[i + 1..], total + |texts[i]|)
            else Chunks(texts[i + 1..], total)
  {
    assert texts[i..][1..] == texts[i + 1..];
  }

  lemma {:induction false} SumLenCons(x: string, xs: seq<string>)
    ensures SumLen([x] + xs) == |x| + SumLen(xs)
    decreases |xs|
  {
    if xs != [] {
      var ys := [x] + xs;
      assert ys[..|ys| - 1] == [x] + xs[..|xs| - 1];
      SumLenCons(x, xs[..|xs| - 1]);
    }
  }

  lemma SumLenSnoc(xs: seq<string>, x: string)
    ensures SumLen(xs + [x]) == SumLen(xs) + |x|
  {
    assert (xs + [x])[..|xs|] == xs;
  }

  /** A long chunk is taken: the loop invariant survives appending it. */
  lemma GatherTake(texts: seq<string>, i: nat, total: nat, chunks: seq<string>)
    requires i < |texts| && total < MaxText && total == SumLen(chunks) && |texts[i]| > MinChunk
    requires chunks + Chunks(texts[i..], total) == Chunks(texts, 0)
    ensures total + |texts[i]| == SumLen(chunks + [texts[i]])
    ensures (chunks + [texts[i]]) + Chunks(texts[i + 1..], total + |texts[i]|) == Chunks(texts, 0)
  {
    ChunksStep(texts, i, total);
    SumLenSnoc(chunks, texts[i]);
  }

  /** A short chunk is skipped: the loop invariant survives moving past it. */
  lemma GatherSkip(texts: seq<string>, i: nat, total: nat, chunks: seq<string>)
    requires i < |texts| && total < MaxText && |texts[i]| <= MinChunk
    requires chunks + Chunks(texts[i..], total) == Chunks(texts, 0)
    ensures chunks + Chunks(texts[i + 1..], total) == Chunks(texts, 0)
  {
    ChunksStep(texts, i, total);
  }

  /** The chunk-gathering loop of `extractText`. */
  method Gather(texts: seq<string>) returns (chunks: seq<string>)
    ensures chunks == Chunks(texts, 0)
  {
    chunks := [];
    var total := 0;
    var i := 0;
    while i < |texts| && total < MaxText
      invariant 0 <= i <= |texts|
      invariant total == SumLen(chunks)
      invariant chunks + Chunks(texts[i..], total) == Chunks(texts, 0)
    {
      var chunk := texts[i];
      if |chunk| > MinChunk {
        GatherTake(texts, i, total, chunks);
        chunks := chunks + [chunk];
        total := total + |chunk|;
      } else {
        GatherSkip(texts, i, total, chunks);
      }
      i := i + 1;
    }
    assert Chunks(texts[i..], total) == [];
  }

  /** `extractText`: the kept chunks joined by one space, cut to 3000 characters. */
  method ExtractText(page: Page) returns (r: string)
    ensures |r| <= MaxText
    ensures r == PageText(page)
    ensures LeadingLongJoined(Texts(Walk(page.texts, page.innerHeight)), r)
  {
    var texts := Texts(Walk(page.texts, page.innerHeight));
    var chunks := Gather(texts);
    r := Take(Join(chunks, " "), MaxText);
    GatheredTextJoinsLeadingLong(texts);
  }

  /**
   * `r` is the leading `n` long texts joined by one space and cut to 3000 characters,
   * where each of them was taken under the budget and the run stops early only once
   * the budget is spent.
   */
  predicate LeadingLongJoined(texts: seq<string>, r: string) {
    var long := LongOnly(texts);
    exists n :: 0 <= n <= |long| && r == Take(Join(long[..n], " "), MaxText)
      && UnderCap(long[..n], 0) && (n < |long| ==> SumLen(long[..n]) >= MaxText)
  }

  lemma GatheredTextJoinsLeadingLong(texts: seq<string>)
    ensures LeadingLongJoined(texts, Take(Join(Chunks(texts, 0), " "), MaxText))
  {
    var chunks := Chunks(texts, 0);
    ChunksAreLongPrefix(texts, 0);
    ChunksUnderCap(texts, 0);
    var long := LongOnly(texts);
    var n := |chunks|;
    assert long[..n] == chunks;
  }

  // ----- Images -----

  /** At most this many image URLs are collected. */
  const MaxImages: nat := 5

  /** Images narrower or shorter than this (when the size is known) are ignored. */
  const MinImageSide: int := 100

  const ImageMargin: int := 600

  /** Matched by `img[src], img[data-src], img[data-lazy]`. */
  predicate Selected(img: Img) {
    img.src.Some? || img.dataSrc.Some? || img.dataLazy.Some?
  }

  /** `img.src || img.dataset.src || img.dataset.lazy || ''`. */
  function SourceOf(img: Img): (r: string)
    ensures r == [] || (img.src.Some? && r == img.src.value) || (img.dataSrc.Some? && r == img.dataSrc.value)
            || (img.dataLazy.Some? && r == img.dataLazy.value)
  {
    if img.src.Some? && img.src.value != [] then img.src.value
    else if img.dataSrc.Some? && img.dataSrc.value != [] then img.dataSrc.value
    else if img.dataLazy.Some? && img.dataLazy.value != [] then img.dataLazy.value
    else []
  }

  /** An image that is selected, not known to be small, and near the viewport. */
  predicate Eligible(img: Img, innerHeight: int) {
    Selected(img)
    && !(0 < img.naturalWidth < MinImageSide)
    && !(0 < img.naturalHeight < MinImageSide)
    && !(img.rect.bottom < -ImageMargin || img.rect.top > innerHeight + ImageMargin)
  }

  predicate Usable(src: string) {
    StartsWith(src, "http") && !StartsWith(src, "data:")
  }

  /** An eligible image whose source is usable contributes its source. */
  predicate Contributes(img: Img, innerHeight: int) {
    Eligible(img, innerHeight) && Usable(SourceOf(img))
  }

  /** The URLs the scan loop collects from `imgs`, given those already collected. */
  function Collect(imgs: seq<Img>, innerHeight: int, acc: seq<string>): seq<string>
    decreases |imgs|
  {
    if imgs == [] || |acc| >= MaxImages then acc
    else if Contributes(imgs[0], innerHeight) && SourceOf(imgs[0]) !in acc
    then Collect(imgs[1..], innerHeight, acc + [SourceOf(imgs[0])])
    else Collect(imgs[1..], innerHeight, acc)
  }

  /** The image URLs of a page, as `extractImageUrls` returns them. */
  function PageImageUrls(page: Page): seq<string> {
    Collect(page.imgs, page.innerHeight, [])
  }

  /** The text of a page, as `extractText` returns it. */
  function PageText(page: Page): string {
    Take(Join(Chunks(Texts(Walk(page.texts, page.innerHeight)), 0), " "), MaxText)
  }

  /** `url` is the source of some contributing image of the page. */
  predicate SourcedFrom(url: string, page: Page) {
    exists k :: 0 <= k < |page.imgs| && Contributes(page.imgs[k], page.innerHeight) && SourceOf(page.imgs[k]) == url
  }

  /** Each URL was taken from a contributing image, as the witnesses in `from` record. */
  predicate Witnessed(page: Page, urls: seq<string>, from: seq<nat>) {
    |from| == |urls|
    && forall a :: 0 <= a < |urls| ==>
         from[a] < |page.imgs| && Contributes(page.imgs[from[a]], page.innerHeight)
         && SourceOf(page.imgs[from[a]]) == urls[a]
  }

  lemma WitnessedSources(page: Page, urls: seq<string>, from: seq<nat>)
    requires Witnessed(page, urls, from)
    ensures forall a :: 0 <= a < |urls| ==> SourcedFrom(urls[a], page)
  {
    forall a | 0 <= a < |urls|
      ensures SourcedFrom(urls[a], page)
    {
      var k := from[a];
      assert 0 <= k < |page.imgs| && Contributes(page.imgs[k], page.innerHeight) && SourceOf(page.imgs[k]) == urls[a];
    }
  }

  /**
   * `extractImageUrls`: distinct `http` sources of eligible images, in document order,
   * at most five; when fewer than five are returned, none was missed.
   */
  method ExtractImageUrls(page: Page) returns (urls: seq<string>)
    ensures |urls| <= MaxImages
    ensures forall i :: 0 <= i < |urls| ==> StartsWith(urls[i], "http")
    ensures forall i, j :: 0 <= i < j < |urls| ==> urls[i] != urls[j]
    ensures forall i :: 0 <= i < |urls| ==> SourcedFrom(urls[i], page)
    ensures |urls| < MaxImages ==>
              forall k :: 0 <= k < |page.imgs| && Contributes(page.imgs[k], page.innerHeight) ==>
                SourceOf(page.imgs[k]) in urls
    ensures urls == PageImageUrls(page)
  {
    ghost var from;
    urls, from := ScanImages(page);
    WitnessedSources(page, urls, from);
  }

  predicate AllHttp(urls: seq<string>) {
    forall a :: 0 <= a < |urls| ==> StartsWith(urls[a], "http")
  }

  predicate NoRepeats(urls: seq<string>) {
    forall a, b :: 0 <= a < b < |urls| ==> urls[a] != urls[b]
  }

  /** Every contributing image before position `i` has its source among `urls`. */
  predicate SeenUpTo(page: Page, i: nat, urls: seq<string>) {
    forall k :: 0 <= k < i && k < |page.imgs| && Contributes(page.imgs[k], page.innerHeight) ==>
      SourceOf(page.imgs[k]) in urls
  }

  /** One image of the scan: its source is appended when it contributes and is new. */
  function ScanStep(img: Img, innerHeight: int, urls: seq<string>): seq<string> {
    if Contributes(img, innerHeight) && SourceOf(img) !in urls then urls + [SourceOf(img)] else urls
  }

  lemma CollectStep(imgs: seq<Img>, innerHeight: int, acc: seq<string>)
    requires imgs != [] && |acc| < MaxImages
    ensures Collect(imgs, innerHeight, acc) == Collect(imgs[1..], innerHeight, ScanStep(imgs[0], innerHeight, acc))
  {
  }

  /** Every witness points before position `i`. */
  predicate Before(from: seq<nat>, i: nat) {
    forall a :: 0 <= a < |from| ==> from[a] < i
  }

  /** What the scan loop knows about `urls` after the images before position `i`, apart from `Collect`. */
  predicate Scanned(page: Page, i: nat, urls: seq<string>, from: seq<nat>) {
    i <= |page.imgs| && |urls| <= MaxImages
    && AllHttp(urls) && NoRepeats(urls) && Witnessed(page, urls, from) && Before(from, i)
    && SeenUpTo(page, i, urls)
  }

  /** Appending a new usable source keeps the list `http`-only and repetition-free. */
  lemma AppendKeepsShape(urls: seq<string>, src: string)
    requires AllHttp(urls) && NoRepeats(urls) && StartsWith(src, "http") && src !in urls
    ensures AllHttp(urls + [src]) && NoRepeats(urls + [src])
  {
  }

  /** Appending the source of image `i` keeps every URL witnessed, the new one by `i`. */
  lemma AppendKeepsWitness(page: Page, i: nat, urls: seq<string>, from: seq<nat>)
    requires i < |page.imgs| && Contributes(page.imgs[i], page.innerHeight)
    requires Witnessed(page, urls, from) && Before(from, i)
    ensures Witnessed(page, urls + [SourceOf(page.imgs[i])], from + [i]) && Before(from + [i], i + 1)
  {
  }

  /** After image `i`, whose source is now in `next`, every earlier contributor is still covered. */
  lemma SeenExtends(page: Page, i: nat, urls: seq<string>, next: seq<string>)
    requires i < |page.imgs| && SeenUpTo(page, i, urls)
    requires forall u :: u in urls ==> u in next
    requires Contributes(page.imgs[i], page.innerHeight) ==> SourceOf(page.imgs[i]) in next
    ensures SeenUpTo(page, i + 1, next)
  {
    forall k | 0 <= k < i + 1 && k < |page.imgs| && Contributes(page.imgs[k], page.innerHeight)
      ensures SourceOf(page.imgs[k]) in next
    {
      if k < i {
        assert SourceOf(page.imgs[k]) in urls;
      }
    }
  }

  /** One scan step keeps everything the loop knows. */
  lemma ScanStepKeeps(page: Page, i: nat, urls: seq<string>, from: seq<nat>)
    requires i < |page.imgs| && |urls| < MaxImages && Scanned(page, i, urls, from)
    ensures Scanned(page, i + 1, ScanStep(page.imgs[i], page.innerHeight, urls),
                    NextFrom(from, urls, ScanStep(page.imgs[i], page.innerHeight, urls), i))
  {
    var img := page.imgs[i];
    if Contributes(img, page.innerHeight) && SourceOf(img) !in urls {
      var next := urls + [SourceOf(img)];
      assert ScanStep(img, page.innerHeight, urls) == next;
      assert NextFrom(from, urls, next, i) == from + [i];
      AppendKeepsShape(urls, SourceOf(img));
      AppendKeepsWitness(page, i, urls, from);
      SeenExtends(page, i, urls, next);
    } else {
      assert ScanStep(img, page.innerHeight, urls) == urls;
      SeenExtends(page, i, urls, urls);
    }
  }

  /** What the scan loop knows after the images before position `i`. */
  predicate ScanInv(page: Page, i: nat, urls: seq<string>, from: seq<nat>) {
    Scanned(page, i, urls, from)
    && Collect(page.imgs[i..], page.innerHeight, urls) == PageImageUrls(page)
  }

  /** The witness list after one scan step. */
  function NextFrom(from: seq<nat>, urls: seq<string>, next: seq<string>, i: nat): seq<nat> {
    if next == urls then from else from + [i]
  }

  lemma ScanAdvance(page: Page, i: nat, urls: seq<string>, from: seq<nat>)
    requires ScanInv(page, i, urls, from) && i < |page.imgs| && |urls| < MaxImages
    ensures ScanInv(page, i + 1, ScanStep(page.imgs[i], page.innerHeight, urls),
                    NextFrom(from, urls, ScanStep(page.imgs[i], page.innerHeight, urls), i))
  {
    CollectStep(page.imgs[i..], page.innerHeight, urls);
    assert page.imgs[i..][1..] == page.imgs[i + 1..];
    ScanStepKeeps(page, i, urls, from);
  }

  /** Before the loop nothing is collected and nothing is owed. */
  lemma ScanStart(page: Page)
    ensures ScanInv(page, 0, [], [])
  {
    assert page.imgs[0..] == page.imgs;
  }

  /** When the loop stops, the collected list is the whole answer. */
  lemma ScanDone(page: Page, i: nat, urls: seq<string>, from: seq<nat>)
    requires ScanInv(page, i, urls, from) && !(i < |page.imgs| && |urls| < MaxImages)
    ensures |urls| <= MaxImages
    ensures AllHttp(urls) && NoRepeats(urls)
    ensures Witnessed(page, urls, from)
    ensures |urls| < MaxImages ==> SeenUpTo(page, |page.imgs|, urls)
    ensures urls == PageImageUrls(page)
  {
    if |urls| < MaxImages {
      assert page.imgs[i..] == [];
    }
  }

  /** The scan loop of `extractImageUrls`, with the image each URL came from. */
  method ScanImages(page: Page) returns (urls: seq<string>, ghost from: seq<nat>)
    ensures |urls| <= MaxImages
    ensures AllHttp(urls) && NoRepeats(urls)
    ensures Witnessed(page, urls, from)
    ensures |urls| < MaxImages ==> SeenUpTo(page, |page.imgs|, urls)
    ensures urls == PageImageUrls(page)
  {
    urls := [];
    from := [];
    var i := 0;
    ScanStart(page);
    while i < |page.imgs| && |urls| < MaxImages
      invariant ScanInv(page, i, urls, from)
    {
      var next := ScanStep(page.imgs[i], page.innerHeight, urls);
      ScanAdvance(page, i, urls, from);
      urls, from, i := next, NextFrom(from, urls, next, i), i + 1;
    }
    ScanDone(page, i, urls, from);
  }

  // ----- Blurring -----

  /**
   * The blur bookkeeping: each image's inline filter, the saved original filter
   * (`data-pg-orig-filter`), and the set of images currently blurred.
   */
  datatype Blur = Blur(filters: map<nat, string>, orig: map<nat, string>, blurred: set<nat>)

  const NoBlur := Blur(map[], map[], {})

  const BlurFilter: string := "blur(24px)"

  /** Images narrower than this (when known) are never blurred. */
  const MinBlurWidth: int := 80

  /** A saved original exists exactly for the blurred images. */
  predicate Consistent(b: Blur) {
    b.orig.Keys == b.blurred
  }

  /** `img.style.filter`, empty when unset. */
  function FilterOf(b: Blur, id: nat): string {
    if id in b.filters then b.filters[id] else []
  }

  /** `img.dataset.pgOrigFilter || ''`. */
  function OrigOf(b: Blur, id: nat): string {
    if id in b.orig then b.orig[id] else []
  }

  /** The filter an image shows once unblurred. */
  function Restored(b: Blur, id: nat): string {
    if id in b.blurred then OrigOf(b, id) else FilterOf(b, id)
  }

  /** `blurVisibleImages` considers `img[src]` that are not known to be narrow. */
  predicate Blurrable(img: Img) {
    img.src.Some? && !(0 < img.naturalWidth < MinBlurWidth)
  }

  /** One image of `blurVisibleImages`: blurred once, its original filter saved. */
  function BlurOne(img: Img, b: Blur): (r: Blur)
    ensures Blurrable(img) ==> img.id in r.blurred
    ensures r.blurred == b.blurred || (Blurrable(img) && r.blurred == b.blurred + {img.id})
    ensures Blurrable(img) && img.id !in b.blurred ==>
              FilterOf(r, img.id) == BlurFilter && OrigOf(r, img.id) == FilterOf(b, img.id)
    ensures !Blurrable(img) || img.id in b.blurred ==> r == b
    ensures forall id :: id != img.id ==> FilterOf(r, id) == FilterOf(b, id) && OrigOf(r, id) == OrigOf(b, id)
  {
    if Blurrable(img) && img.id !in b.blurred then
      Blur(b.filters[img.id := BlurFilter], b.orig[img.id := FilterOf(b, img.id)], b.blurred + {img.id})
    else b
  }

  /** `blurVisibleImages`, in document order. */
  function BlurAll(imgs: seq<Img>, b: Blur): (r: Blur)
    ensures b.blurred <= r.blurred
    decreases |imgs|
  {
    if imgs == [] then b else BlurAll(imgs[1..], BlurOne(imgs[0], b))
  }

  /** `unblurImages`: every blurred image gets its saved filter back and the set is emptied. */
  function Unblur(b: Blur): (r: Blur)
    ensures r.blurred == {} && r.orig.Keys == b.orig.Keys - b.blurred
    ensures forall id :: FilterOf(r, id) == Restored(b, id)
    ensures forall id :: id !in b.blurred ==> OrigOf(r, id) == OrigOf(b, id)
  {
    var filters := map id | id in b.filters.Keys + b.blurred :: Restored(b, id);
    Blur(filters, b.orig - b.blurred, {})
  }

  /**
   * Blurring never changes what unblurring restores: an image blurred now gets back
   * the filter it had before it was first blurred.
   */
  lemma {:induction false} BlurPreservesRestore(imgs: seq<Img>, b: Blur)
    requires Consistent(b)
    ensures Consistent(BlurAll(imgs, b))
    ensures forall id :: Restored(BlurAll(imgs, b), id) == Restored(b, id)
    ensures forall i :: 0 <= i < |imgs| && Blurrable(imgs[i]) ==> imgs[i].id in BlurAll(imgs, b).blurred
    decreases |imgs|
  {
    if imgs != [] {
      var c := BlurOne(imgs[0], b);
      assert Consistent(c);
      assert forall id :: Restored(c, id) == Restored(b, id);
      BlurPreservesRestore(imgs[1..], c);
      assert BlurAll(imgs, b) == BlurAll(imgs[1..], c);
      forall i | 0 <= i < |imgs| && Blurrable(imgs[i])
        ensures imgs[i].id in BlurAll(imgs, b).blurred
      {
        if i > 0 {
          assert imgs[i] == imgs[1..][i - 1];
        }
      }
    }
  }

  /** Blur then unblur puts every filter back as it was. */
  lemma BlurThenUnblur(imgs: seq<Img>, b: Blur)
    requires Consistent(b) && b.blurred == {}
    ensures forall id :: FilterOf(Unblur(BlurAll(imgs, b)), id) == FilterOf(b, id)
  {
    BlurPreservesRestore(imgs, b);
  }

  /** Blurring twice is blurring once: no image is blurred, or has its original overwritten, twice. */
  lemma {:induction false} BlurAllIdempotent(imgs: seq<Img>, b: Blur)
    requires Consistent(b)
    ensures BlurAll(imgs, BlurAll(imgs, b)) == BlurAll(imgs, b)
  {
    BlurPreservesRestore(imgs, b);
    BlurAllOfBlurred(imgs, BlurAll(imgs, b));
  }

  lemma {:induction false} BlurAllOfBlurred(imgs: seq<Img>, b: Blur)
    requires forall i :: 0 <= i < |imgs| && Blurrable(imgs[i]) ==> imgs[i].id in b.blurred
    ensures BlurAll(imgs, b) == b
    decreases |imgs|
  {
    if imgs != [] {
      assert BlurOne(imgs[0], b) == b;
      BlurAllOfBlurred(imgs[1..], b);
    }
  }
}

=== FILE: gemini.dfy ===
/**
 * The live classification service: text, image and URL verdicts from the
 * generative classifier, memoised in the document-store cache under a kind-tagged
 * content hash and failing open on every error.
 *
 * The world a call sees is explicit: the cache collection (and whether the store
 * answers), the clock, and a counter of outbound calls. Every outbound call (the
 * classifier, or the download of an image) answers `env.svc(n)` for the n-th call,
 * so the model is deterministic in the world it is given.
 */
module Gemini {
  import opened Base
  import opened Strings
  import opened Json
  import opened ReplyParser

  /** What an outbound call gives back: an error (including the 15 s timeout) or the reply text. */
  datatype Outcome = Down(message: string) | Up(reply: string)

  /** A document of the cache collection: the stored verdict and its write time in ms. */
  datatype Row = Row(result: Val, createdAt: int)

  datatype World = World(store: map<string, Row>, storeUp: bool, now: int, calls: nat)

  /**
   * `sha` is the hex SHA-256 digest, `parse` is `JSON.parse`, `svc` answers the
   * outbound calls, `ttlSec` is the configured cache lifetime in seconds.
   */
  datatype Env = Env(sha: string -> string, parse: string -> Option<Val>, svc: nat -> Outcome, ttlSec: int)

  const DefaultTtlSec: int := 86400
  const TextLimit: nat := 4000
  const MinTextLength: nat := 20
  const HashLength: nat := 24

  /** `parseInt(MODERATION_CACHE_TTL, 10) || 86400`: None stands for NaN. */
  function ConfiguredTtl(parsed: Option<int>): (t: int)
    ensures t != 0
    ensures parsed.Some? && parsed.value != 0 ==> t == parsed.value
    ensures parsed.None? || parsed.value == 0 ==> t == 86400
  {
    match parsed
    case Some(n) => if n != 0 then n else DefaultTtlSec
    case None => DefaultTtlSec
  }

  // ----- Cache keys -----

  /** `makeHash(type, content)`: the kind, a colon, the first 24 hex digits of the digest. */
  function MakeHash(sha: string -> string, kind: string, content: string): string {
    kind + ":" + Take(sha(content), HashLength)
  }

  predicate IsKindName(k: string) {
    k == "text" || k == "image" || k == "url"
  }

  function TextContent(text: string, level: string): string {
    Take(Trim(text), TextLimit) + level
  }

  function TextKey(sha: string -> string, text: string, level: string): string {
    MakeHash(sha, "text", TextContent(text, level))
  }

  function ImageKey(sha: string -> string, url: string, level: string): string {
    MakeHash(sha, "image", url + level)
  }

  function UrlKey(sha: string -> string, url: string): string {
    MakeHash(sha, "url", url)
  }

  /** Keys of different kinds never collide, whatever the digests. */
  lemma KeyDeterminesKind(sha1: string -> string, k1: string, c1: string,
                          sha2: string -> string, k2: string, c2: string)
    requires IsKindName(k1) && IsKindName(k2)
    requires MakeHash(sha1, k1, c1) == MakeHash(sha2, k2, c2)
    ensures k1 == k2
  {
    var h := MakeHash(sha1, k1, c1);
    assert h == k1 + ":" + Take(sha1(c1), HashLength);
    assert h == k2 + ":" + Take(sha2(c2), HashLength);
    assert h[..|k1|] == k1 && h[|k1|] == ':';
    assert h[..|k2|] == k2 && h[|k2|] == ':';
  }

  /** The level names end in pairwise different letters. */
  predicate IsLevelName(l: string) {
    l == "strict" || l == "moderate" || l == "custom" || l == "off"
  }

  /**
   * The text key separates filtering levels: the hashed content determines both the
   * truncated text and the level, so a verdict cached for one level is never
   * served to a request at another level (short of a digest collision).
   */
  lemma TextContentInjective(a1: string, l1: string, a2: string, l2: string)
    requires IsLevelName(l1) && IsLevelName(l2)
    requires a1 + l1 == a2 + l2
    ensures a1 == a2 && l1 == l2
  {
    var c := a1 + l1;
    assert c[|c| - 1] == l1[|l1| - 1];
    assert c[|c| - 1] == l2[|l2| - 1];
    assert l1 == l2;
    assert a1 == c[..|a1|] == a2;
  }

  // ----- Verdict objects -----

  datatype Kind = TextKind | ImageKind | UrlKind

  /** `{ blocked: false, status: 'SAFE', category: null, confidence: 0 }`. */
  const SafeVerdict: Val :=
    Obj(map["blocked" := Bool(false), "status" := Str("SAFE"), "category" := Null, "confidence" := Num(0)])

  /** `{ blocked: false, status: 'SAFE', reason: null }`: the URL verdict for an empty URL. */
  const SafeUrlVerdict: Val :=
    Obj(map["blocked" := Bool(false), "status" := Str("SAFE"), "reason" := Null])

  /** The message of the TypeError raised by reading `status` of a parsed `null`. */
  const NullStatusError: string := "Cannot read properties of null (reading 'status')"

  /** The fail-open verdict carrying the error message. */
  function FailOpen(kind: Kind, message: string): (v: Val)
    ensures Field(v, "blocked") == Bool(false) && Field(v, "status") == Str("SAFE")
    ensures Field(v, "confidence") == Num(0) && Field(v, "error") == Str(message)
    ensures Coherent(v) && "error" in v.fields
  {
    match kind
    case UrlKind =>
      Obj(map["blocked" := Bool(false), "status" := Str("SAFE"), "reason" := Null,
              "confidence" := Num(0), "error" := Str(message)])
    case _ => Obj(SafeVerdict.fields["error" := Str(message)])
  }

  /**
   * The verdict built from a parsed reply: `blocked` is strict equality of `status`
   * with 'UNSAFE', the category (or reason) falls back to null when falsy and the
   * confidence to 50 when nullish. None where reading `status` throws.
   */
  function Shape(kind: Kind, parsed: Val): (r: Option<Val>)
    ensures r.None? <==> parsed == Undef || parsed == Null
    ensures r.Some? ==> Cacheable(r.value)
    ensures r.Some? ==> Field(r.value, "blocked") == Bool(Field(parsed, "status") == Str("UNSAFE"))
    ensures r.Some? ==> Field(r.value, "status") == Field(parsed, "status")
    ensures r.Some? ==> Field(r.value, "confidence") == Coalesce(Field(parsed, "confidence"), Num(50))
    ensures r.Some? && kind != UrlKind ==> Field(r.value, "category") == Or(Field(parsed, "category"), Null)
    ensures r.Some? && kind == UrlKind ==> Field(r.value, "reason") == Or(Field(parsed, "reason"), Null)
  {
    match Prop(parsed, "status")
    case None => None
    case Some(st) =>
      var base := map["blocked" := Bool(st == Str("UNSAFE")), "status" := st,
                      "confidence" := Coalesce(Field(parsed, "confidence"), Num(50))];
      Some(Obj(match kind
        case TextKind => base["category" := Or(Field(parsed, "category"), Null)]
        case ImageKind =>
          base["category" := Or(Field(parsed, "category"), Null)]
              ["detectedText" := Or(Field(parsed, "detectedText"), Null)]
        case UrlKind => base["reason" := Or(Field(parsed, "reason"), Null)]))
  }

  /** A verdict whose `blocked` flag agrees with its status and that blocks nothing when it carries an error. */
  predicate Coherent(v: Val) {
    v.Obj? && "blocked" in v.fields
    && v.fields["blocked"] == Bool(Field(v, "status") == Str("UNSAFE"))
    && ("error" in v.fields ==> v.fields["blocked"] == Bool(false))
  }

  /** What the service itself writes to the cache: coherent and free of errors. */
  predicate Cacheable(v: Val) {
    Coherent(v) && "error" !in v.fields
  }

  predicate StoreOk(w: World) {
    forall k :: k in w.store ==> Cacheable(w.store[k].result)
  }

  // ----- The cache collection -----

  function At(w: World, key: string): Option<Row> {
    if key in w.store then Some(w.store[key]) else None
  }

  /** Older than the lifetime: the age in ms strictly exceeds `ttlSec` seconds. */
  predicate Expired(env: Env, w: World, key: string)
    requires key in w.store
  {
    w.now - w.store[key].createdAt > env.ttlSec * 1000
  }

  /** A lookup that `moderateText`/`moderateImage`/`moderateUrl` return straight away. */
  predicate Hit(env: Env, w: World, key: string) {
    w.storeUp && key in w.store && !Expired(env, w, key) && Truthy(w.store[key].result)
  }

  /**
   * `getCached(hash)`: the stored result while it is fresh, `null` otherwise; an
   * expired document is deleted; a store that does not answer is a miss.
   */
  function GetCached(env: Env, w: World, key: string): (r: (Val, World))
    ensures r.1 == w || (w.storeUp && key in w.store && Expired(env, w, key) && r.1 == w.(store := w.store - {key}))
    ensures Truthy(r.0) <==> Hit(env, w, key)
    ensures Hit(env, w, key) ==> r == (w.store[key].result, w)
    ensures StoreOk(w) ==> StoreOk(r.1)
  {
    if !w.storeUp || key !in w.store then (Null, w)
    else if Expired(env, w, key) then (Null, w.(store := w.store - {key}))
    else (w.store[key].result, w)
  }

  /** `setCache(hash, result)`: an upsert stamped with the current time; lost when the store does not answer. */
  function SetCache(w: World, key: string, v: Val): (w': World)
    ensures w.storeUp ==> w'.store == w.store[key := Row(v, w.now)]
    ensures !w.storeUp ==> w' == w
    ensures w'.storeUp == w.storeUp && w'.now == w.now && w'.calls == w.calls
    ensures OnlyKeyChanged(w, w', key)
    ensures StoreOk(w) && Cacheable(v) ==> StoreOk(w')
    ensures w.storeUp ==> At(w', key) == Some(Row(v, w.now))
  {
    if w.storeUp then w.(store := w.store[key := Row(v, w.now)]) else w
  }

  /** The next outbound call and the world after it. */
  function Call(env: Env, w: World): (r: (Outcome, World)) {
    (env.svc(w.calls), w.(calls := w.calls + 1))
  }

  /** Nothing in the cache changes except, possibly, the document under `key`. */
  ghost predicate OnlyKeyChanged(w: World, w': World, key: string) {
    w'.storeUp == w.storeUp && w'.now == w.now
    && forall k :: k != key ==> At(w', k) == At(w, k)
  }

  /** The document under `key` was rewritten, and then with the fresh verdict. */
  predicate WroteFresh(w: World, w': World, key: string, v: Val) {
    key in w'.store && w'.store[key] == Row(v, w.now) && Cacheable(v)
  }

  /**
   * One classifier call after a cache miss: parse, shape, cache, or fail open
   * without touching the cache.
   */
  function Classify(env: Env, w: World, kind: Kind, key: string): (r: (Val, World))
    ensures r.1.calls == w.calls + 1
    ensures r.0 == Interpret(env.parse, kind, env.svc(w.calls)).verdict
    ensures OnlyKeyChanged(w, r.1, key)
    ensures Coherent(r.0)
    ensures "error" in r.0.fields ==> At(r.1, key) == At(w, key)
    ensures "error" !in r.0.fields && w.storeUp ==> WroteFresh(w, r.1, key, r.0)
    ensures StoreOk(w) ==> StoreOk(r.1)
  {
    var v := Interpret(env.parse, kind, env.svc(w.calls));
    var r := Settle(w.(calls := w.calls + 1), key, v);
    assert r.0 == v.verdict;
    r
  }

  /** Write a fresh verdict to the cache; leave the cache alone for a failed one. */
  function Settle(w: World, key: string, v: Interpreted): (r: (Val, World))
    requires v.Fresh? ==> Cacheable(v.verdict)
    requires v.Failed? ==> Coherent(v.verdict) && "error" in v.verdict.fields
    ensures r.0 == v.verdict && r.1.calls == w.calls
    ensures OnlyKeyChanged(w, r.1, key)
    ensures Coherent(r.0)
    ensures "error" in r.0.fields ==> r.1 == w
    ensures "error" !in r.0.fields && w.storeUp ==> WroteFresh(w, r.1, key, r.0)
    ensures StoreOk(w) ==> StoreOk(r.1)
  {
    match v
    case Fresh(x) => (x, SetCache(w, key, x))
    case Failed(x) => (x, w)
  }

  /** A verdict from the classifier's answer, and whether it is written to the cache. */
  datatype Interpreted = Fresh(verdict: Val) | Failed(verdict: Val)

  /**
   * How a reply that arrived is read: a parse error fails open with its message, a
   * parsed `null` fails open with the TypeError, and any other parsed value is shaped
   * into the fresh verdict that is cached.
   */
  predicate ReadsReply(kind: Kind, parsed: Result<Val>, r: Interpreted) {
    match parsed
    case Err(m) => r == Failed(FailOpen(kind, m))
    case Ok(p) =>
      if Shape(kind, p).None? then r == Failed(FailOpen(kind, NullStatusError))
      else r == Fresh(Shape(kind, p).value)
  }

  /** Parse and shape a classifier answer; any error becomes the fail-open verdict. */
  function Interpret(parse: string -> Option<Val>, kind: Kind, o: Outcome): (r: Interpreted)
    ensures r.Fresh? ==> Cacheable(r.verdict)
    ensures r.Failed? ==> Coherent(r.verdict) && "error" in r.verdict.fields
    ensures r.Failed? ==> Field(r.verdict, "blocked") == Bool(false)
    ensures o.Down? ==> r == Failed(FailOpen(kind, o.message))
    ensures o.Up? ==> ReadsReply(kind, ParseReply(parse, o.reply), r)
  {
    match o
    case Down(m) => Failed(FailOpen(kind, m))
    case Up(reply) =>
      match ParseReply(parse, reply)
      case Err(m) => Failed(FailOpen(kind, m))
      case Ok(p) =>
        match Shape(kind, p)
        case None => Failed(FailOpen(kind, NullStatusError))
        case Some(v) => Fresh(v)
  }

  /** A classifier reply that neither parses nor can be salvaged fails open with the parse error. */
  lemma UnparseableFailsOpen(parse: string -> Option<Val>, kind: Kind, reply: string)
    requires parse(Clean(reply)).None? && FirstStatus(reply).None?
    ensures Interpret(parse, kind, Up(reply)) == Failed(FailOpen(kind, ParseReply(parse, reply).message))
    ensures Field(Interpret(parse, kind, Up(reply)).verdict, "blocked") == Bool(false)
  {
  }

  // ----- The three entry points -----

  /** The cache lookup and, on a miss, the classifier call shared by text and URL verdicts. */
  function Lookup(env: Env, w: World, kind: Kind, key: string): (r: (Val, World))
    ensures Hit(env, w, key) ==> r == (w.store[key].result, w)
    ensures !Hit(env, w, key) ==> r.1.calls == w.calls + 1
    ensures !Hit(env, w, key) ==> r.0 == Interpret(env.parse, kind, env.svc(w.calls)).verdict
    ensures r.1.calls <= w.calls + 1
    ensures OnlyKeyChanged(w, r.1, key)
    ensures Hit(env, w, key) || At(r.1, key) == At(w, key) || At(r.1, key).None? || WroteFresh(w, r.1, key, r.0)
    ensures !Hit(env, w, key) && "error" !in r.0.fields && w.storeUp ==> WroteFresh(w, r.1, key, r.0)
    ensures StoreOk(w) ==> StoreOk(r.1) && Coherent(r.0)
  {
    var g := GetCached(env, w, key);
    if Truthy(g.0) then
      assert Hit(env, w, key);
      g
    else
      var w1 := g.1;
      assert !Hit(env, w, key) && w1.calls == w.calls && OnlyKeyChanged(w, w1, key);
      assert env.svc(w1.calls) == env.svc(w.calls);
      var r := Classify(env, w1, kind, key);
      assert "error" !in r.0.fields && w.storeUp ==> WroteFresh(w1, r.1, key, r.0);
      OnlyKeyChangedTwice(w, w1, r.1, key);
      r
  }

  /** Text shorter than this once trimmed is not worth classifying. */
  predicate TooShort(text: string) {
    |Trim(text)| < MinTextLength
  }

  /** `moderateText(text, filteringLevel)`. */
  function ModerateText(env: Env, w: World, text: string, level: string): (r: (Val, World))
    ensures TooShort(text) ==> r == (SafeVerdict, w)
    ensures !TooShort(text) && Hit(env, w, TextKey(env.sha, text, level)) ==>
      r == (w.store[TextKey(env.sha, text, level)].result, w)
    ensures !TooShort(text) && !Hit(env, w, TextKey(env.sha, text, level)) ==>
      r.1.calls == w.calls + 1
              && r.0 == Interpret(env.parse, TextKind, env.svc(w.calls)).verdict
    ensures !TooShort(text) && !Hit(env, w, TextKey(env.sha, text, level)) && "error" !in r.0.fields && w.storeUp ==>
      WroteFresh(w, r.1, TextKey(env.sha, text, level), r.0)
    ensures r.1.calls <= w.calls + 1
    ensures OnlyKeyChanged(w, r.1, TextKey(env.sha, text, level))
    ensures StoreOk(w) ==> StoreOk(r.1) && Coherent(r.0)
  {
    if TooShort(text) then (SafeVerdict, w)
    else
      Lookup(env, w, TextKind, TextKey(env.sha, text, level))
  }

  /** `moderateImage(imageUrl, filteringLevel)`: the image is downloaded before it is classified. */
  function ModerateImage(env: Env, w: World, url: string, level: string): (r: (Val, World))
    ensures !StartsWith(url, "http") ==> r == (SafeVerdict, w)
    ensures StartsWith(url, "http") && Hit(env, w, ImageKey(env.sha, url, level)) ==>
      r == (w.store[ImageKey(env.sha, url, level)].result, w)
    ensures StartsWith(url, "http") && !Hit(env, w, ImageKey(env.sha, url, level)) && env.svc(w.calls).Down? ==>
      r.0 == FailOpen(ImageKind, "fetch_failed") && r.1.calls == w.calls + 1
    ensures StartsWith(url, "http") && !Hit(env, w, ImageKey(env.sha, url, level)) && env.svc(w.calls).Up? ==>
      r.0 == Interpret(env.parse, ImageKind, env.svc(w.calls + 1)).verdict && r.1.calls == w.calls + 2
    ensures r.1.calls <= w.calls + 2
    ensures OnlyKeyChanged(w, r.1, ImageKey(env.sha, url, level))
    ensures StoreOk(w) ==> StoreOk(r.1) && Coherent(r.0)
  {
    if !StartsWith(url, "http") then (SafeVerdict, w)
    else ImageLookup(env, w, ImageKey(env.sha, url, level))
  }

  /** The cache read of `moderateImage`, then the download and the classification on a miss. */
  function ImageLookup(env: Env, w: World, key: string): (r: (Val, World))
    ensures Hit(env, w, key) ==> r == (w.store[key].result, w)
    ensures !Hit(env, w, key) && env.svc(w.calls).Down? ==>
      r.0 == FailOpen(ImageKind, "fetch_failed") && r.1.calls == w.calls + 1
    ensures !Hit(env, w, key) && env.svc(w.calls).Up? ==>
      r.0 == Interpret(env.parse, ImageKind, env.svc(w.calls + 1)).verdict && r.1.calls == w.calls + 2
    ensures r.1.calls <= w.calls + 2
    ensures OnlyKeyChanged(w, r.1, key)
    ensures StoreOk(w) ==> StoreOk(r.1) && Coherent(r.0)
  {
    var g := GetCached(env, w, key);
    if Truthy(g.0) then
      assert Hit(env, w, key);
      g
    else
      var w1 := g.1;
      assert !Hit(env, w, key) && w1.calls == w.calls && OnlyKeyChanged(w, w1, key);
      assert env.svc(w1.calls) == env.svc(w.calls) && env.svc(w1.calls + 1) == env.svc(w.calls + 1);
      var r := FetchAndClassify(env, w1, key);
      OnlyKeyChangedTwice(w, w1, r.1, key);
      r
  }

  /** After an image miss: download the image, then classify it, failing open when the download fails. */
  function FetchAndClassify(env: Env, w: World, key: string): (r: (Val, World))
    ensures env.svc(w.calls).Down? ==> r.0 == FailOpen(ImageKind, "fetch_failed") && r.1.calls == w.calls + 1
    ensures env.svc(w.calls).Up? ==>
      r.0 == Interpret(env.parse, ImageKind, env.svc(w.calls + 1)).verdict && r.1.calls == w.calls + 2
    ensures OnlyKeyChanged(w, r.1, key)
    ensures StoreOk(w) ==> StoreOk(r.1) && Coherent(r.0)
  {
    var (fetched, w2) := Call(env, w);
    if fetched.Down? then (FailOpen(ImageKind, "fetch_failed"), w2)
    else
      var r := Classify(env, w2, ImageKind, key);
      OnlyKeyChangedTwice(w, w2, r.1, key);
      r
  }

  /** Two steps that each change only the document under `key` change only that document. */
  lemma OnlyKeyChangedTwice(w: World, w1: World, w2: World, key: string)
    requires OnlyKeyChanged(w, w1, key) && OnlyKeyChanged(w1, w2, key)
    ensures OnlyKeyChanged(w, w2, key)
  {
  }

  /** `moderateUrl(url)`: the key carries no filtering level. */
  function ModerateUrl(env: Env, w: World, url: string): (r: (Val, World))
    ensures url == [] ==> r == (SafeUrlVerdict, w)
    ensures url != [] && Hit(env, w, UrlKey(env.sha, url)) ==> r == (w.store[UrlKey(env.sha, url)].result, w)
    ensures url != [] && !Hit(env, w, UrlKey(env.sha, url)) ==>
      r.1.calls == w.calls + 1 && r.0 == Interpret(env.parse, UrlKind, env.svc(w.calls)).verdict
    ensures r.1.calls <= w.calls + 1
    ensures OnlyKeyChanged(w, r.1, UrlKey(env.sha, url))
    ensures StoreOk(w) ==> StoreOk(r.1) && Coherent(r.0)
  {
    if url == [] then (SafeUrlVerdict, w)
    else Lookup(env, w, UrlKind, UrlKey(env.sha, url))
  }

  /**
   * End to end: on a cache miss, a classifier reply that parses to an object blocks
   * the text exactly when its status is 'UNSAFE', carries that status, and is cached.
   */
  lemma UnsafeReplyBlocksText(env: Env, w: World, text: string, level: string, p: Val)
    requires !TooShort(text) && !Hit(env, w, TextKey(env.sha, text, level))
    requires env.svc(w.calls).Up? && ParseReply(env.parse, env.svc(w.calls).reply) == Ok(p)
    requires p.Obj?
    ensures var (v, w1) := ModerateText(env, w, text, level);
            Field(v, "blocked") == Bool(Field(p, "status") == Str("UNSAFE"))
            && Field(v, "status") == Field(p, "status")
            && "error" !in v.fields
            && (w.storeUp ==> At(w1, TextKey(env.sha, text, level)) == Some(Row(v, w.now)))
  {
    InterpretObjectReply(env.parse, TextKind, env.svc(w.calls), p);
    var v := Shape(TextKind, p).value;
    var r := ModerateText(env, w, text, level);
    assert r.0 == v;
  }

  /** A reply that parses to an object reads as the fresh verdict shaped from it. */
  lemma InterpretObjectReply(parse: string -> Option<Val>, kind: Kind, o: Outcome, p: Val)
    requires o.Up? && ParseReply(parse, o.reply) == Ok(p) && p.Obj?
    ensures Interpret(parse, kind, o) == Fresh(Shape(kind, p).value)
  {
    assert ReadsReply(kind, Ok(p), Interpret(parse, kind, o));
  }

  // ----- Cache behaviour across calls -----

  /** The world some time later (the clock only moves forward). */
  function Later(w: World, elapsed: nat): World {
    w.(now := w.now + elapsed)
  }

  /**
   * A fresh text verdict is served from the cache, without a classifier call, to
   * the same request for as long as it is not older than the lifetime.
   */
  lemma TextVerdictServedUntilExpiry(env: Env, w: World, text: string, level: string, elapsed: nat)
    requires |Trim(text)| >= MinTextLength
    requires w.storeUp
    requires WroteFresh(w, ModerateText(env, w, text, level).1, TextKey(env.sha, text, level),
                        ModerateText(env, w, text, level).0)
    requires elapsed <= env.ttlSec * 1000
    ensures var (v, w1) := ModerateText(env, w, text, level);
            ModerateText(env, Later(w1, elapsed), text, level) == (v, Later(w1, elapsed))
  {
    var (v, w1) := ModerateText(env, w, text, level);
    var key := TextKey(env.sha, text, level);
    var w2 := Later(w1, elapsed);
    assert w2.store[key] == Row(v, w.now);
    assert w1.now == w.now;
    assert !Expired(env, w2, key);
    assert Truthy(v);
    assert Hit(env, w2, key);
  }

  /** Once the lifetime has passed, the cached text verdict is dropped and the classifier is asked again. */
  lemma TextVerdictExpires(env: Env, w: World, text: string, level: string, elapsed: nat)
    requires |Trim(text)| >= MinTextLength
    requires w.storeUp
    requires WroteFresh(w, ModerateText(env, w, text, level).1, TextKey(env.sha, text, level),
                        ModerateText(env, w, text, level).0)
    requires elapsed > env.ttlSec * 1000
    ensures var w2 := Later(ModerateText(env, w, text, level).1, elapsed);
            ModerateText(env, w2, text, level).1.calls == w2.calls + 1
  {
    var (v, w1) := ModerateText(env, w, text, level);
    var key := TextKey(env.sha, text, level);
    var w2 := Later(w1, elapsed);
    assert w1.now == w.now;
    assert Expired(env, w2, key);
  }
}

=== FILE: gemini_batch.dfy ===
/**
 * Batch text moderation (`moderateTextBatch`): one classifier call for every
 * snippet that is long enough and not cached, with per-snippet verdicts written
 * back to the slot the snippet came from.
 *
 * The result has one slot per input text; `Null` is a slot that received no verdict.
 * `fixed` selects the fallback path: false is the code as written, which caches the
 * per-snippet verdict even when it is a fail-open error verdict; true skips that write.
 */
module GeminiBatch {
  import opened Base
  import opened Strings
  import opened Json
  import opened ReplyParser
  import opened Gemini
  import opened Numbers

  const ItemLimit: nat := 500
  const MinItemLength: nat := 10

  /** `String(t).trim().slice(0, 500)`. */
  function ItemText(t: string): string {
    Take(Trim(t), ItemLimit)
  }

  predicate Survives(t: string) {
    |ItemText(t)| > MinItemLength
  }

  function ItemKey(sha: string -> string, t: string, level: string): string {
    MakeHash(sha, "text", ItemText(t) + level)
  }

  /** A snippet that survived the length filter: its slot, its text and its cache key. */
  datatype Item = Item(index: nat, text: string, key: string)

  /** Which slots survive the length filter. */
  function Keep(texts: seq<string>): (keep: seq<bool>)
    ensures |keep| == |texts|
    ensures forall i :: 0 <= i < |texts| ==> keep[i] == Survives(texts[i])
  {
    seq(|texts|, i requires 0 <= i < |texts| => Survives(texts[i]))
  }

  /** Every item points at a surviving slot. */
  predicate ValidItems(keep: seq<bool>, items: seq<Item>) {
    forall j :: 0 <= j < |items| ==> items[j].index < |keep| && keep[items[j].index]
  }

  /** The surviving slots from position `from` on, in increasing order. */
  function Slots(keep: seq<bool>, from: nat): (r: seq<nat>)
    requires from <= |keep|
    ensures forall j :: 0 <= j < |r| ==> from <= r[j] < |keep| && keep[r[j]]
    ensures forall j, k :: 0 <= j < k < |r| ==> r[j] < r[k]
    ensures |r| <= |keep| - from
    ensures r == [] <==> forall i :: from <= i < |keep| ==> !keep[i]
    decreases |keep| - from
  {
    if from == |keep| then []
    else if keep[from] then [from] + Slots(keep, from + 1)
    else Slots(keep, from + 1)
  }

  /** `textArray.map(...).filter(...)`: the surviving snippets with their texts and keys, in slot order. */
  function Items(sha: string -> string, texts: seq<string>, level: string): (r: seq<Item>)
    ensures ValidItems(Keep(texts), r)
    ensures |r| <= |texts|
    ensures r == [] <==> forall i :: 0 <= i < |texts| ==> !Survives(texts[i])
    ensures forall j :: 0 <= j < |r| ==>
      r[j].text == ItemText(texts[r[j].index]) && r[j].key == ItemKey(sha, texts[r[j].index], level)
  {
    var keep := Keep(texts);
    var slots := Slots(keep, 0);
    seq(|slots|, j requires 0 <= j < |slots| =>
      Item(slots[j], ItemText(texts[slots[j]]), ItemKey(sha, texts[slots[j]], level)))
  }

  /** Every verdict slot is empty or an object carrying its own slot number as `index`. */
  predicate Indexed(results: seq<Val>) {
    forall i :: 0 <= i < |results| ==> results[i] == Null || (results[i].Obj? && Field(results[i], "index") == Num(i))
  }

  /** Slots of texts that did not survive the filter hold no verdict. */
  predicate EmptyOutside(keep: seq<bool>, results: seq<Val>) {
    |results| == |keep| && forall i :: 0 <= i < |keep| && !keep[i] ==> results[i] == Null
  }

  /** The slot's verdict with `index` set to the slot. */
  function Tag(v: Val, i: nat): (r: Val)
    ensures r.Obj? && Field(r, "index") == Num(i)
  {
    Extend(v, "index", Num(i))
  }

  /** `results[i] = v` for a surviving slot `i` and a verdict tagged with it. */
  function Place(keep: seq<bool>, results: seq<Val>, i: nat, v: Val): (r: seq<Val>)
    requires i < |keep| && keep[i]
    requires Indexed(results) && EmptyOutside(keep, results)
    requires v.Obj? && Field(v, "index") == Num(i)
    ensures Indexed(r) && EmptyOutside(keep, r)
    ensures r[i] == v
    ensures forall j :: 0 <= j < |r| && j != i ==> r[j] == results[j]
  {
    results[i := v]
  }

  /** The cache pass: cached verdicts go into their slots, the rest are queued for the classifier. */
  function Gather(env: Env, w: World, keep: seq<bool>, items: seq<Item>,
                  results: seq<Val>, queued: seq<Item>): (r: (seq<Val>, seq<Item>, World))
    requires ValidItems(keep, items) && ValidItems(keep, queued)
    requires Indexed(results) && EmptyOutside(keep, results)
    ensures Indexed(r.0) && EmptyOutside(keep, r.0)
    ensures ValidItems(keep, r.1)
    ensures |r.1| <= |queued| + |items|
    ensures r.2.calls == w.calls && r.2.storeUp == w.storeUp && r.2.now == w.now
    ensures StoreOk(w) ==> StoreOk(r.2)
    decreases |items|
  {
    if items == [] then (results, queued, w)
    else
      var it := items[0];
      var (c, w1) := GetCached(env, w, it.key);
      if Truthy(c) then Gather(env, w1, keep, items[1..], Place(keep, results, it.index, Tag(c, it.index)), queued)
      else Gather(env, w1, keep, items[1..], results, queued + [it])
  }

  /** `{ blocked: false, status: 'SAFE', category: null, confidence: 0, index }`. */
  function SafeAt(i: nat): (v: Val)
    ensures v.Obj? && Field(v, "index") == Num(i) && Field(v, "blocked") == Bool(false)
  {
    Obj(SafeVerdict.fields["index" := Num(i)])
  }

  /** Some queued snippet comes from slot `i`. */
  predicate InQueue(queued: seq<Item>, i: nat) {
    exists j :: 0 <= j < |queued| && queued[j].index == i
  }

  /** The catch block: every queued slot still without a verdict gets the safe verdict. */
  function FillSafe(keep: seq<bool>, results: seq<Val>, queued: seq<Item>): (r: seq<Val>)
    requires ValidItems(keep, queued)
    requires Indexed(results) && EmptyOutside(keep, results)
    ensures Indexed(r) && EmptyOutside(keep, r)
    ensures forall j :: 0 <= j < |queued| ==> r[queued[j].index] != Null
    ensures forall i :: 0 <= i < |r| ==>
              r[i] == (if InQueue(queued, i) && !Truthy(results[i]) then SafeAt(i) else results[i])
    decreases |queued|
  {
    if queued == [] then results
    else
      var i := queued[0].index;
      var next := if Truthy(results[i]) then results else results[i := SafeAt(i)];
      assert forall j :: 1 <= j < |queued| ==> queued[j] == queued[1..][j - 1];
      FillSafe(keep, next, queued[1..])
  }

  /**
   * `parsed.index - 1`: the subtraction converts the index with JavaScript's `ToNumber`,
   * so None stands for NaN, or for a value that is not an integer and so names no element.
   */
  function EntryPos(ix: Val): (r: Option<int>)
    ensures ix.Num? ==> r == Some(ix.n - 1)
    ensures r.Some? <==> ToNumber(ix).Some?
    ensures r.Some? ==> r.value + 1 == ToNumber(ix).value
  {
    match ToNumber(ix)
    case Some(n) => Some(n - 1)
    case None => None
  }

  /**
   * `uncachedItems[p.index - 1]`: entries are numbered from 1, so an index that converts
   * to the number k names the k-th queued snippet, and any other index names none.
   */
  function Original(queued: seq<Item>, ix: Val): (r: Option<Item>)
    ensures r.Some? <==> EntryPos(ix).Some? && 0 <= EntryPos(ix).value < |queued|
    ensures r.Some? ==> r.value == queued[EntryPos(ix).value]
    ensures ix.Num? ==> (r.Some? <==> 1 <= ix.n <= |queued|)
    ensures ix.Num? && r.Some? ==> r.value == queued[ix.n - 1]
  {
    match EntryPos(ix)
    case Some(k) => if 0 <= k < |queued| then Some(queued[k]) else None
    case None => None
  }

  /** Any index that converts to the number k names the k-th queued snippet. */
  lemma ConvertedIndexNames(queued: seq<Item>, ix: Val, k: int)
    requires ToNumber(ix) == Some(k) && 1 <= k <= |queued|
    ensures Original(queued, ix) == Some(queued[k - 1])
  {
  }

  /**
   * The index is converted, not compared: for a digit string `d` with value k, the strings
   * `d`, `+d` and `d.0` and the one-element array `[d]` all name the k-th queued snippet.
   */
  lemma IndexSpellingsName(queued: seq<Item>, d: string, ix: Val)
    requires d != [] && Digits(d) && 1 <= DecimalValue(d) <= |queued| && ix in Spellings(d)
    ensures Original(queued, ix) == Some(queued[DecimalValue(d) - 1])
  {
    SpellingsRead(d);
    ConvertedIndexNames(queued, ix, DecimalValue(d));
  }

  /** The verdict built from one array entry. */
  function EntryVerdict(e: Val, i: nat): (v: Val)
    ensures v.Obj? && Field(v, "index") == Num(i)
    ensures Cacheable(v)
    ensures Field(v, "blocked") == Bool(Field(e, "status") == Str("UNSAFE"))
  {
    Obj(map["blocked" := Bool(Field(e, "status") == Str("UNSAFE")), "status" := Field(e, "status"),
            "category" := Or(Field(e, "category"), Null),
            "confidence" := Coalesce(Field(e, "confidence"), Num(50)), "index" := Num(i)])
  }

  /**
   * `parsed.forEach(...)`: each entry that names a queued snippet fills its slot and is
   * cached; reading `index` of a `null` entry throws and ends the pass (`true`).
   */
  function ApplyEntries(w: World, keep: seq<bool>, queued: seq<Item>, entries: seq<Val>,
                        results: seq<Val>): (r: (seq<Val>, World, bool))
    requires ValidItems(keep, queued)
    requires Indexed(results) && EmptyOutside(keep, results)
    ensures Indexed(r.0) && EmptyOutside(keep, r.0)
    ensures r.1.calls == w.calls && r.1.storeUp == w.storeUp && r.1.now == w.now
    ensures StoreOk(w) ==> StoreOk(r.1)
    ensures r.2 <==> exists j :: 0 <= j < |entries| && (entries[j] == Null || entries[j] == Undef)
    decreases |entries|
  {
    if entries == [] then (results, w, false)
    else
      match Prop(entries[0], "index")
      case None => (results, w, true)
      case Some(ix) =>
        assert forall j :: 1 <= j < |entries| ==> entries[j] == entries[1..][j - 1];
        match Original(queued, ix)
        case None => ApplyEntries(w, keep, queued, entries[1..], results)
        case Some(it) =>
          var v := EntryVerdict(entries[0], it.index);
          ApplyEntries(SetCache(w, it.key, v), keep, queued, entries[1..], Place(keep, results, it.index, v))
  }

  // ----- What the reply's entries do, stated independently of the pass -----

  /** What an entry can address: a result slot, or a cache key. */
  datatype Target = SlotOf(i: nat) | KeyOf(k: string)

  /** The entry names a queued snippet sitting at the target (its slot, or its cache key). */
  predicate Names(queued: seq<Item>, e: Val, t: Target) {
    var o := Original(queued, Field(e, "index"));
    o.Some? && match t
      case SlotOf(i) => o.value.index == i
      case KeyOf(k) => o.value.key == k
  }

  /** Which entries name the target. */
  function Namings(queued: seq<Item>, entries: seq<Val>, t: Target): (f: seq<bool>)
    ensures |f| == |entries|
    ensures forall j {:trigger f[j]} :: 0 <= j < |entries| ==> f[j] == Names(queued, entries[j], t)
  {
    seq(|entries|, j requires 0 <= j < |entries| => Names(queued, entries[j], t))
  }

  /** The last position holding `true`. */
  function LastTrue(flags: seq<bool>): (r: Option<nat>)
    ensures r.None? <==> forall j :: 0 <= j < |flags| ==> !flags[j]
    ensures r.Some? ==> r.value < |flags| && flags[r.value]
    ensures r.Some? ==> forall j :: r.value < j < |flags| ==> !flags[j]
    decreases |flags|
  {
    if flags == [] then None
    else if flags[|flags| - 1] then Some(|flags| - 1)
    else LastTrue(flags[..|flags| - 1])
  }

  /** The position of the last entry naming the target: later entries overwrite earlier ones. */
  function LastNaming(queued: seq<Item>, entries: seq<Val>, t: Target): (r: Option<nat>)
    ensures r.Some? ==> r.value < |entries|
  {
    LastTrue(Namings(queued, entries, t))
  }

  /** The entries `forEach` gets through: those before the first `null` or `undefined`. */
  function Reached(entries: seq<Val>): (r: seq<Val>)
    ensures r <= entries
    ensures forall j :: 0 <= j < |r| ==> r[j] != Null && r[j] != Undef
    ensures |r| < |entries| ==> entries[|r|] == Null || entries[|r|] == Undef
  {
    if entries == [] || entries[0] == Null || entries[0] == Undef then []
    else [entries[0]] + Reached(entries[1..])
  }

  /** Entries the pass reaches, one at a time. */
  lemma ReachedCons(entries: seq<Val>)
    requires entries != [] && entries[0] != Null && entries[0] != Undef
    ensures Reached(entries) == [entries[0]] + Reached(entries[1..])
  {
  }

  /** The verdict entry `e` writes, for the snippet it names. */
  function Written(queued: seq<Item>, e: Val): Val
    requires Original(queued, Field(e, "index")).Some?
  {
    EntryVerdict(e, Original(queued, Field(e, "index")).value.index)
  }

  /** Slot `i` after the entries: the verdict of the last entry naming it, or what it held. */
  function SlotAfter(queued: seq<Item>, entries: seq<Val>, results: seq<Val>, i: nat): Val
    requires i < |results|
  {
    match LastNaming(queued, entries, SlotOf(i))
    case Some(j) => if Names(queued, entries[j], SlotOf(i)) then Written(queued, entries[j]) else results[i]
    case None => results[i]
  }

  /** The cache document under `k` after the entries: the last verdict written for a snippet with that key. */
  function KeyAfter(queued: seq<Item>, entries: seq<Val>, w: World, k: string): Option<Row> {
    match LastNaming(queued, entries, KeyOf(k))
    case Some(j) =>
      if w.storeUp && Names(queued, entries[j], KeyOf(k)) then Some(Row(Written(queued, entries[j]), w.now))
      else At(w, k)
    case None => At(w, k)
  }

  /** A last position after one more element in front, which is itself set or not. */
  function Shift(last: Option<nat>, front: bool): Option<nat> {
    match last
    case Some(j) => Some(j + 1)
    case None => if front then Some(0) else None
  }

  /** Putting a flag in front shifts the last position, or makes it the front when nothing later is set. */
  lemma {:induction false} LastTrueCons(b: bool, flags: seq<bool>)
    ensures LastTrue([b] + flags) == Shift(LastTrue(flags), b)
    decreases |flags|
  {
    if flags != [] {
      var n := |flags|;
      assert ([b] + flags)[n] == flags[n - 1];
      if !flags[n - 1] {
        assert ([b] + flags)[..n] == [b] + flags[..n - 1];
        LastTrueCons(b, flags[..n - 1]);
      }
    } else {
      assert [b] + flags == [b];
    }
  }

  lemma NamingsCons(queued: seq<Item>, e: Val, rest: seq<Val>, t: Target)
    ensures Namings(queued, [e] + rest, t) == [Names(queued, e, t)] + Namings(queued, rest, t)
  {
    var all := [e] + rest;
    var lhs, rhs := Namings(queued, all, t), [Names(queued, e, t)] + Namings(queued, rest, t);
    forall j | 0 <= j < |all|
      ensures lhs[j] == rhs[j]
    {
      if j > 0 {
        assert all[j] == rest[j - 1];
      }
    }
  }

  /** The last entry naming a target, with one more entry in front. */
  lemma LastNamingCons(queued: seq<Item>, e: Val, rest: seq<Val>, t: Target)
    ensures LastNaming(queued, [e] + rest, t) == Shift(LastNaming(queued, rest, t), Names(queued, e, t))
  {
    NamingsCons(queued, e, rest, t);
    LastTrueCons(Names(queued, e, t), Namings(queued, rest, t));
  }

  /** The last entry naming a target does name it. */
  lemma LastNamingNames(queued: seq<Item>, entries: seq<Val>, t: Target)
    requires LastNaming(queued, entries, t).Some?
    ensures Names(queued, entries[LastNaming(queued, entries, t).value], t)
  {
    var j := LastNaming(queued, entries, t).value;
    assert Namings(queued, entries, t)[j];
  }

  /** The last entry naming a target among the rest is the same entry once `e` is put in front. */
  lemma LaterEntry(queued: seq<Item>, e: Val, rest: seq<Val>, t: Target, j: nat)
    requires LastNaming(queued, rest, t) == Some(j)
    ensures j < |rest| && ([e] + rest)[j + 1] == rest[j] && Names(queued, rest[j], t)
  {
    assert j < |rest|;
    assert ([e] + rest)[j + 1] == rest[j];
    LastNamingNames(queued, rest, t);
  }

  /** Slot `i` after an entry in front of the rest. */
  lemma SlotAfterCons(queued: seq<Item>, e: Val, rest: seq<Val>, results: seq<Val>, next: seq<Val>, i: nat)
    requires i < |results| == |next|
    requires Names(queued, e, SlotOf(i)) ==> next[i] == Written(queued, e)
    requires !Names(queued, e, SlotOf(i)) ==> next[i] == results[i]
    ensures SlotAfter(queued, [e] + rest, results, i) == SlotAfter(queued, rest, next, i)
  {
    var last := LastNaming(queued, rest, SlotOf(i));
    if last.Some? {
      SlotAfterLater(queued, e, rest, results, next, i, last.value);
    } else if Names(queued, e, SlotOf(i)) {
      SlotAfterFront(queued, e, rest, results, next, i);
    } else {
      SlotAfterNone(queued, e, rest, results, next, i);
    }
  }

  /** No entry names slot `i`: it keeps what it held. */
  lemma SlotAfterNone(queued: seq<Item>, e: Val, rest: seq<Val>, results: seq<Val>, next: seq<Val>, i: nat)
    requires i < |results| == |next| && next[i] == results[i]
    requires LastNaming(queued, rest, SlotOf(i)).None? && !Names(queued, e, SlotOf(i))
    ensures SlotAfter(queued, [e] + rest, results, i) == SlotAfter(queued, rest, next, i)
  {
    LastNamingCons(queued, e, rest, SlotOf(i));
  }

  /** A later entry names slot `i`: the entry in front does not matter. */
  lemma SlotAfterLater(queued: seq<Item>, e: Val, rest: seq<Val>, results: seq<Val>, next: seq<Val>, i: nat, j: nat)
    requires i < |results| == |next|
    requires LastNaming(queued, rest, SlotOf(i)) == Some(j)
    ensures SlotAfter(queued, [e] + rest, results, i) == SlotAfter(queued, rest, next, i)
  {
    LastNamingCons(queued, e, rest, SlotOf(i));
    LaterEntry(queued, e, rest, SlotOf(i), j);
    var it := rest[j];
    assert SlotAfter(queued, rest, next, i) == Written(queued, it);
  }

  /** Only the entry in front names slot `i`: its verdict stays. */
  lemma SlotAfterFront(queued: seq<Item>, e: Val, rest: seq<Val>, results: seq<Val>, next: seq<Val>, i: nat)
    requires i < |results| == |next|
    requires LastNaming(queued, rest, SlotOf(i)).None?
    requires Names(queued, e, SlotOf(i)) && next[i] == Written(queued, e)
    ensures SlotAfter(queued, [e] + rest, results, i) == SlotAfter(queued, rest, next, i)
  {
    LastNamingCons(queued, e, rest, SlotOf(i));
    assert ([e] + rest)[0] == e;
  }

  /** The cache document under `k` after an entry in front of the rest. */
  lemma KeyAfterCons(queued: seq<Item>, e: Val, rest: seq<Val>, w: World, w1: World, k: string)
    requires w1.storeUp == w.storeUp && w1.now == w.now
    requires Names(queued, e, KeyOf(k)) && w.storeUp ==> At(w1, k) == Some(Row(Written(queued, e), w.now))
    requires !(Names(queued, e, KeyOf(k)) && w.storeUp) ==> At(w1, k) == At(w, k)
    ensures KeyAfter(queued, [e] + rest, w, k) == KeyAfter(queued, rest, w1, k)
  {
    var last := LastNaming(queued, rest, KeyOf(k));
    if last.Some? {
      KeyAfterLater(queued, e, rest, w, w1, k, last.value);
    } else if Names(queued, e, KeyOf(k)) {
      KeyAfterFront(queued, e, rest, w, w1, k);
    } else {
      KeyAfterNone(queued, e, rest, w, w1, k);
    }
  }

  /** No entry names key `k`: its document stays. */
  lemma KeyAfterNone(queued: seq<Item>, e: Val, rest: seq<Val>, w: World, w1: World, k: string)
    requires At(w1, k) == At(w, k)
    requires LastNaming(queued, rest, KeyOf(k)).None? && !Names(queued, e, KeyOf(k))
    ensures KeyAfter(queued, [e] + rest, w, k) == KeyAfter(queued, rest, w1, k)
  {
    LastNamingCons(queued, e, rest, KeyOf(k));
  }

  /** A later entry names key `k`: the entry in front does not matter. */
  lemma KeyAfterLater(queued: seq<Item>, e: Val, rest: seq<Val>, w: World, w1: World, k: string, j: nat)
    requires w1.storeUp == w.storeUp && w1.now == w.now
    requires LastNaming(queued, rest, KeyOf(k)) == Some(j)
    requires !w.storeUp ==> At(w1, k) == At(w, k)
    ensures KeyAfter(queued, [e] + rest, w, k) == KeyAfter(queued, rest, w1, k)
  {
    var l := [e] + rest;
    LastNamingCons(queued, e, rest, KeyOf(k));
    LaterEntry(queued, e, rest, KeyOf(k), j);
    assert LastNaming(queued, l, KeyOf(k)) == Some(j + 1);
    assert l[j + 1] == rest[j];
  }

  /** Only the entry in front names key `k`: its write stays. */
  lemma KeyAfterFront(queued: seq<Item>, e: Val, rest: seq<Val>, w: World, w1: World, k: string)
    requires w1.storeUp == w.storeUp && w1.now == w.now
    requires LastNaming(queued, rest, KeyOf(k)).None? && Names(queued, e, KeyOf(k))
    requires w.storeUp ==> At(w1, k) == Some(Row(Written(queued, e), w.now))
    requires !w.storeUp ==> At(w1, k) == At(w, k)
    ensures KeyAfter(queued, [e] + rest, w, k) == KeyAfter(queued, rest, w1, k)
  {
    LastNamingCons(queued, e, rest, KeyOf(k));
    assert ([e] + rest)[0] == e;
  }

  /** One entry of the pass that names a snippet. */
  lemma ApplyStepNamed(w: World, keep: seq<bool>, queued: seq<Item>, e: Val, rest: seq<Val>, results: seq<Val>)
    requires ValidItems(keep, queued)
    requires Indexed(results) && EmptyOutside(keep, results)
    requires e != Null && e != Undef && Original(queued, Field(e, "index")).Some?
    ensures var it := Original(queued, Field(e, "index")).value;
            var v := EntryVerdict(e, it.index);
            ApplyEntries(w, keep, queued, [e] + rest, results)
              == ApplyEntries(SetCache(w, it.key, v), keep, queued, rest, Place(keep, results, it.index, v))
  {
    assert ([e] + rest)[1..] == rest;
  }

  /** One entry of the pass that names nothing. */
  lemma ApplyStepUnnamed(w: World, keep: seq<bool>, queued: seq<Item>, e: Val, rest: seq<Val>, results: seq<Val>)
    requires ValidItems(keep, queued)
    requires Indexed(results) && EmptyOutside(keep, results)
    requires e != Null && e != Undef && Original(queued, Field(e, "index")).None?
    ensures ApplyEntries(w, keep, queued, [e] + rest, results) == ApplyEntries(w, keep, queued, rest, results)
  {
    assert ([e] + rest)[1..] == rest;
  }

  /**
   * After the pass, every slot holds the verdict of the last reached entry that
   * names it, and every other slot keeps what it held.
   */
  lemma {:induction false} ApplyEntriesSlots(w: World, keep: seq<bool>, queued: seq<Item>, entries: seq<Val>,
                                             results: seq<Val>)
    requires ValidItems(keep, queued)
    requires Indexed(results) && EmptyOutside(keep, results)
    ensures var r := ApplyEntries(w, keep, queued, entries, results).0;
            forall i :: 0 <= i < |results| ==> r[i] == SlotAfter(queued, Reached(entries), results, i)
    decreases |entries|
  {
    if entries == [] || entries[0] == Null || entries[0] == Undef {
      assert Reached(entries) == [];
    } else {
      var e, rest := entries[0], entries[1..];
      assert entries == [e] + rest;
      ReachedCons(entries);
      var pre := Reached(rest);
      var r := ApplyEntries(w, keep, queued, entries, results).0;
      if Original(queued, Field(e, "index")).None? {
        ApplyStepUnnamed(w, keep, queued, e, rest, results);
        ApplyEntriesSlots(w, keep, queued, rest, results);
        forall i | 0 <= i < |results|
          ensures r[i] == SlotAfter(queued, [e] + pre, results, i)
        {
          SlotAfterCons(queued, e, pre, results, results, i);
        }
      } else {
        var it := Original(queued, Field(e, "index")).value;
        var v := EntryVerdict(e, it.index);
        var next := Place(keep, results, it.index, v);
        ApplyStepNamed(w, keep, queued, e, rest, results);
        ApplyEntriesSlots(SetCache(w, it.key, v), keep, queued, rest, next);
        forall i | 0 <= i < |results|
          ensures r[i] == SlotAfter(queued, [e] + pre, results, i)
        {
          SlotAfterCons(queued, e, pre, results, next, i);
        }
      }
    }
  }

  /**
   * After the pass, the cache document under each key is the verdict of the last
   * reached entry whose snippet has that key (when the store answers); every other
   * document is as it was.
   */
  lemma {:induction false} ApplyEntriesCache(w: World, keep: seq<bool>, queued: seq<Item>, entries: seq<Val>,
                                             results: seq<Val>)
    requires ValidItems(keep, queued)
    requires Indexed(results) && EmptyOutside(keep, results)
    ensures var w' := ApplyEntries(w, keep, queued, entries, results).1;
            forall k :: At(w', k) == KeyAfter(queued, Reached(entries), w, k)
    decreases |entries|
  {
    if entries == [] || entries[0] == Null || entries[0] == Undef {
      assert Reached(entries) == [];
    } else {
      var e, rest := entries[0], entries[1..];
      assert entries == [e] + rest;
      ReachedCons(entries);
      var pre := Reached(rest);
      var w' := ApplyEntries(w, keep, queued, entries, results).1;
      if Original(queued, Field(e, "index")).None? {
        ApplyStepUnnamed(w, keep, queued, e, rest, results);
        ApplyEntriesCache(w, keep, queued, rest, results);
        forall k
          ensures At(w', k) == KeyAfter(queued, [e] + pre, w, k)
        {
          KeyAfterCons(queued, e, pre, w, w, k);
        }
      } else {
        var it := Original(queued, Field(e, "index")).value;
        var v := EntryVerdict(e, it.index);
        var w1 := SetCache(w, it.key, v);
        ApplyStepNamed(w, keep, queued, e, rest, results);
        ApplyEntriesCache(w1, keep, queued, rest, Place(keep, results, it.index, v));
        forall k
          ensures At(w', k) == KeyAfter(queued, [e] + pre, w, k)
        {
          KeyAfterCons(queued, e, pre, w, w1, k);
        }
      }
    }
  }

  /**
   * The fallback when the batch reply does not parse: one `moderateText` per queued
   * snippet, then `setCache(item.hash, r)`; `fixed` skips that write for error verdicts.
   */
  function Fallback(env: Env, w: World, keep: seq<bool>, level: string, queued: seq<Item>, k: nat,
                    results: seq<Val>, fixed: bool): (r: (seq<Val>, World))
    requires k <= |queued| && ValidItems(keep, queued)
    requires Indexed(results) && EmptyOutside(keep, results)
    ensures Indexed(r.0) && EmptyOutside(keep, r.0)
    ensures r.1.calls <= w.calls + (|queued| - k) && r.1.storeUp == w.storeUp && r.1.now == w.now
    ensures fixed && StoreOk(w) ==> StoreOk(r.1)
    decreases |queued| - k
  {
    if k == |queued| then (results, w)
    else
      var it := queued[k];
      var (v, w1) := FallbackStep(env, w, level, it, fixed);
      var next := Place(keep, results, it.index, v);
      Fallback(env, w1, keep, level, queued, k + 1, next, fixed)
  }

  /** Every snippet queued from position `k` on has a verdict in `r`. */
  predicate FilledFrom(queued: seq<Item>, k: nat, r: seq<Val>) {
    forall j :: k <= j < |queued| && queued[j].index < |r| ==> r[queued[j].index] != Null
  }

  /** Every slot holding a verdict in `before` still holds one in `after`. */
  predicate KeepsVerdicts(before: seq<Val>, after: seq<Val>) {
    |before| == |after| && forall i :: 0 <= i < |after| && before[i] != Null ==> after[i] != Null
  }

  /** The fallback gives every queued snippet a verdict and takes none away. */
  lemma {:induction false} FallbackFills(env: Env, w: World, keep: seq<bool>, level: string, queued: seq<Item>, k: nat,
                                         results: seq<Val>, fixed: bool)
    requires k <= |queued| && ValidItems(keep, queued)
    requires Indexed(results) && EmptyOutside(keep, results)
    ensures FilledFrom(queued, k, Fallback(env, w, keep, level, queued, k, results, fixed).0)
    ensures KeepsVerdicts(results, Fallback(env, w, keep, level, queued, k, results, fixed).0)
    decreases |queued| - k
  {
    if k < |queued| {
      var it := queued[k];
      var (v, w1) := FallbackStep(env, w, level, it, fixed);
      var next := Place(keep, results, it.index, v);
      FallbackFills(env, w1, keep, level, queued, k + 1, next, fixed);
      var r := Fallback(env, w1, keep, level, queued, k + 1, next, fixed).0;
      assert Fallback(env, w, keep, level, queued, k, results, fixed).0 == r;
      StepFilled(queued, k, results, next, r);
    }
  }

  /** One fallback step: the slot just filled stays filled, so the filled range grows by one. */
  lemma StepFilled(queued: seq<Item>, k: nat, results: seq<Val>, next: seq<Val>, r: seq<Val>)
    requires k < |queued| && queued[k].index < |next| && next[queued[k].index] != Null
    requires |next| == |results| && forall i :: 0 <= i < |next| && i != queued[k].index ==> next[i] == results[i]
    requires FilledFrom(queued, k + 1, r) && KeepsVerdicts(next, r)
    ensures FilledFrom(queued, k, r) && KeepsVerdicts(results, r)
  {
  }

  /** The world fallback step `j` runs in, when the steps from `k` on start in `w`. */
  function WorldBefore(env: Env, w: World, level: string, queued: seq<Item>, k: nat, j: nat, fixed: bool): World
    requires k <= j <= |queued|
    decreases j - k
  {
    if j == k then w
    else WorldBefore(env, FallbackStep(env, w, level, queued[k], fixed).1, level, queued, k + 1, j, fixed)
  }

  /** No snippet queued after position `j` comes from the same slot as the one at `j`. */
  predicate LastForSlot(queued: seq<Item>, j: nat)
    requires j < |queued|
  {
    forall j' :: j < j' < |queued| ==> queued[j'].index != queued[j].index
  }

  /** Some snippet queued from position `k` on comes from slot `i`. */
  predicate QueuedFrom(queued: seq<Item>, k: nat, i: nat) {
    exists j :: k <= j < |queued| && queued[j].index == i
  }

  /**
   * The fallback's verdicts: the slot of each queued snippet holds `moderateText`'s
   * verdict for that snippet, at the filtering level, in the world the earlier
   * steps left behind (its cache writes and calls), tagged with the slot. Slots no
   * snippet is queued for keep what they held.
   */
  lemma {:induction false} FallbackVerdicts(env: Env, w: World, keep: seq<bool>, level: string, queued: seq<Item>,
                                            k: nat, results: seq<Val>, fixed: bool)
    requires k <= |queued| && ValidItems(keep, queued)
    requires Indexed(results) && EmptyOutside(keep, results)
    ensures var r := Fallback(env, w, keep, level, queued, k, results, fixed).0;
            forall j :: k <= j < |queued| && LastForSlot(queued, j) ==>
              r[queued[j].index]
                == Tag(ModerateText(env, WorldBefore(env, w, level, queued, k, j, fixed), queued[j].text, level).0,
                       queued[j].index)
    ensures var r := Fallback(env, w, keep, level, queued, k, results, fixed).0;
            forall i :: 0 <= i < |results| && !QueuedFrom(queued, k, i) ==> r[i] == results[i]
    decreases |queued| - k
  {
    if k < |queued| {
      var it := queued[k];
      var (v, w1) := FallbackStep(env, w, level, it, fixed);
      var next := Place(keep, results, it.index, v);
      FallbackVerdicts(env, w1, keep, level, queued, k + 1, next, fixed);
      var r := Fallback(env, w1, keep, level, queued, k + 1, next, fixed).0;
      assert Fallback(env, w, keep, level, queued, k, results, fixed).0 == r;
      forall j | k <= j < |queued| && LastForSlot(queued, j)
        ensures r[queued[j].index]
                  == Tag(ModerateText(env, WorldBefore(env, w, level, queued, k, j, fixed), queued[j].text, level).0,
                         queued[j].index)
      {
        if j == k {
          assert !QueuedFrom(queued, k + 1, it.index);
        } else {
          assert WorldBefore(env, w, level, queued, k, j, fixed) == WorldBefore(env, w1, level, queued, k + 1, j, fixed);
        }
      }
      forall i | 0 <= i < |results| && !QueuedFrom(queued, k, i)
        ensures r[i] == results[i]
      {
        assert i != it.index;
        assert !QueuedFrom(queued, k + 1, i);
      }
    }
  }

  /** One snippet of the fallback: its tagged verdict, and the world after `setCache`. */
  function FallbackStep(env: Env, w: World, level: string, it: Item, fixed: bool): (r: (Val, World))
    ensures r.0.Obj? && Field(r.0, "index") == Num(it.index)
    ensures r.0 == Tag(ModerateText(env, w, it.text, level).0, it.index)
    ensures r.1.calls <= w.calls + 1 && r.1.storeUp == w.storeUp && r.1.now == w.now
    ensures fixed && StoreOk(w) ==> StoreOk(r.1)
  {
    var (v, w1) := ModerateText(env, w, it.text, level);
    var w2 := if fixed && Has(v, "error") then w1 else SetCache(w1, it.key, v);
    (Tag(v, it.index), w2)
  }

  /** `raw.replace(/^```json\s*\/i, '').replace(/```$/i, '').trim()`. */
  function BatchClean(raw: string): string {
    var s := DropJsonFence(raw);
    Trim(if EndsWith(s, "```") then s[..|s| - 3] else s)
  }

  function SafeSlots(n: nat): (r: seq<Val>)
    ensures |r| == n && Indexed(r)
  {
    seq(n, i requires 0 <= i < n => Obj(map["index" := Num(i), "blocked" := Bool(false), "status" := Str("SAFE")]))
  }

  /** `new Array(n).fill(null)`. */
  function NoVerdicts(n: nat): (r: seq<Val>)
    ensures |r| == n && forall i :: 0 <= i < n ==> r[i] == Null
  {
    seq(n, _ => Null)
  }

  /** The cache pass over the surviving snippets, starting from empty slots. */
  function CachePass(env: Env, w: World, texts: seq<string>, level: string): (r: (seq<Val>, seq<Item>, World))
    ensures Indexed(r.0) && EmptyOutside(Keep(texts), r.0) && ValidItems(Keep(texts), r.1)
    ensures r.2.calls == w.calls && r.2.storeUp == w.storeUp && r.2.now == w.now
    ensures |r.1| <= |texts|
    ensures StoreOk(w) ==> StoreOk(r.2)
  {
    Gather(env, w, Keep(texts), Items(env.sha, texts, level), NoVerdicts(|texts|), [])
  }

  /** `moderateTextBatch(textArray, filteringLevel)`, with the fallback chosen by `fixed`. */
  function BatchWith(env: Env, w: World, texts: seq<string>, level: string, fixed: bool): (r: (seq<Val>, World))
    ensures |r.0| == |texts| && Indexed(r.0)
    ensures (forall i :: 0 <= i < |texts| ==> !Survives(texts[i])) ==> r == (SafeSlots(|texts|), w)
    ensures (exists i :: 0 <= i < |texts| && Survives(texts[i])) ==> EmptyOutside(Keep(texts), r.0)
    ensures r.1.calls <= w.calls + 1 + |texts| && r.1.storeUp == w.storeUp && r.1.now == w.now
    ensures fixed && StoreOk(w) ==> StoreOk(r.1)
  {
    if Items(env.sha, texts, level) == [] then
      (SafeSlots(|texts|), w)
    else
      var (results, queued, w1) := CachePass(env, w, texts, level);
      if queued == [] then (results, w1)
      else
        var (o, w2) := Call(env, w1);
        Answer(env, w2, Keep(texts), level, queued, results, o, fixed)
  }

  /** The rest of the batch once the classifier call has answered `o`. */
  function Answer(env: Env, w: World, keep: seq<bool>, level: string, queued: seq<Item>, results: seq<Val>,
                  o: Outcome, fixed: bool): (r: (seq<Val>, World))
    requires ValidItems(keep, queued)
    requires Indexed(results) && EmptyOutside(keep, results)
    ensures Indexed(r.0) && EmptyOutside(keep, r.0)
    ensures r.1.calls <= w.calls + |queued| && r.1.storeUp == w.storeUp && r.1.now == w.now
    ensures fixed && StoreOk(w) ==> StoreOk(r.1)
  {
    match o
    case Down(_) => (FillSafe(keep, results, queued), w)
    case Up(reply) =>
      match env.parse(BatchClean(reply))
      case None => Fallback(env, w, keep, level, queued, 0, results, fixed)
      case Some(p) =>
        if !p.Arr? then (FillSafe(keep, results, queued), w)
        else
          var (res, w3, threw) := ApplyEntries(w, keep, queued, p.items, results);
          if threw then (FillSafe(keep, res, queued), w3) else (res, w3)
  }

  /** A snippet of at most 500 characters after trimming has the batch key `moderateText` uses for it. */
  lemma ItemKeyIsTextKey(sha: string -> string, t: string, level: string)
    requires |Trim(t)| <= ItemLimit
    ensures ItemKey(sha, t, level) == TextKey(sha, ItemText(t), level)
  {
    TakeOfShort(Trim(t), ItemLimit);
    TrimIdempotent(t);
    TakeOfShort(Trim(t), TextLimit);
  }

  /**
   * The cache poisoning of the fallback as written: a snippet whose classification
   * fails is cached with its fail-open verdict, and `moderateText` then serves that
   * safe verdict from the cache, without asking the classifier, until it expires.
   */
  lemma FallbackCachesFailure(env: Env, w: World, keep: seq<bool>, level: string, t: string, it: Item,
                               results: seq<Val>)
    requires ValidItems(keep, [it])
    requires Indexed(results) && EmptyOutside(keep, results)
    requires it.text == ItemText(t) && it.key == ItemKey(env.sha, t, level) && |Trim(t)| <= ItemLimit
    requires w.storeUp && env.ttlSec >= 0
    requires |Trim(it.text)| >= MinTextLength
    requires !Hit(env, w, TextKey(env.sha, it.text, level))
    requires env.svc(w.calls).Down?
    ensures var w' := Fallback(env, w, keep, level, [it], 0, results, false).1;
            && Hit(env, w', TextKey(env.sha, it.text, level))
            && Has(ModerateText(env, w', it.text, level).0, "error")
            && ModerateText(env, w', it.text, level).1 == w'
  {
    var (v, w1) := ModerateText(env, w, it.text, level);
    ItemKeyIsTextKey(env.sha, t, level);
    var key := TextKey(env.sha, it.text, level);
    assert it.key == key;
    assert v == FailOpen(TextKind, env.svc(w.calls).message);
    var w2 := SetCache(w1, key, v);
    assert w2.store[key] == Row(v, w.now);
    assert Fallback(env, w, keep, level, [it], 0, results, false).1 == w2;
    assert Hit(env, w2, key);
  }

  /**
   * The corrected fallback: a snippet whose classification fails leaves no verdict
   * in the cache, so the next `moderateText` of it asks the classifier again.
   */
  lemma CorrectedFallbackCachesNoFailure(env: Env, w: World, keep: seq<bool>, level: string, t: string, it: Item,
                                         results: seq<Val>)
    requires ValidItems(keep, [it])
    requires Indexed(results) && EmptyOutside(keep, results)
    requires it.text == ItemText(t) && it.key == ItemKey(env.sha, t, level) && |Trim(t)| <= ItemLimit
    requires w.storeUp
    requires |Trim(it.text)| >= MinTextLength
    requires !Hit(env, w, TextKey(env.sha, it.text, level))
    requires env.svc(w.calls).Down?
    ensures var w' := Fallback(env, w, keep, level, [it], 0, results, true).1;
            && !Hit(env, w', TextKey(env.sha, it.text, level))
            && ModerateText(env, w', it.text, level).1.calls == w'.calls + 1
  {
    ItemKeyIsTextKey(env.sha, t, level);
    var key := TextKey(env.sha, it.text, level);
    var (c, w1) := GetCached(env, w, key);
    assert !Hit(env, w1, key);
  }

  /** A reply array without `null` entries is reached to the end. */
  lemma ReachedAll(entries: seq<Val>)
    requires forall j :: 0 <= j < |entries| ==> entries[j] != Null && entries[j] != Undef
    ensures Reached(entries) == entries
  {
  }

  /** Once something is queued, the batch is one call and its answer. */
  lemma BatchUnfold(env: Env, w: World, texts: seq<string>, level: string, fixed: bool)
    requires Items(env.sha, texts, level) != []
    requires CachePass(env, w, texts, level).1 != []
    ensures var g := CachePass(env, w, texts, level);
            BatchWith(env, w, texts, level, fixed)
              == Answer(env, Call(env, g.2).1, Keep(texts), level, g.1, g.0, Call(env, g.2).0, fixed)
  {
  }

  /** An array reply without `null` entries is answered with what the entries pass leaves. */
  lemma AnswerArray(env: Env, w: World, keep: seq<bool>, level: string, queued: seq<Item>, results: seq<Val>,
                    reply: string, entries: seq<Val>, fixed: bool)
    requires ValidItems(keep, queued)
    requires Indexed(results) && EmptyOutside(keep, results)
    requires env.parse(BatchClean(reply)) == Some(Arr(entries))
    requires forall j :: 0 <= j < |entries| ==> entries[j] != Null && entries[j] != Undef
    ensures var a := ApplyEntries(w, keep, queued, entries, results);
            Answer(env, w, keep, level, queued, results, Up(reply), fixed) == (a.0, a.1)
  {
  }

  /**
   * A batch reply that is a JSON array without `null` entries: every slot holds the
   * verdict of the last entry naming its snippet, and a slot no entry names keeps
   * what the cache pass left in it (a cached verdict, or `null`).
   */
  lemma BatchArrayReply(env: Env, w: World, texts: seq<string>, level: string, fixed: bool, entries: seq<Val>)
    requires Items(env.sha, texts, level) != []
    requires var g := CachePass(env, w, texts, level);
             g.1 != [] && env.svc(g.2.calls).Up? && env.parse(BatchClean(env.svc(g.2.calls).reply)) == Some(Arr(entries))
    requires forall j :: 0 <= j < |entries| ==> entries[j] != Null && entries[j] != Undef
    ensures var g := CachePass(env, w, texts, level);
            var r := BatchWith(env, w, texts, level, fixed).0;
            forall i :: 0 <= i < |texts| ==> r[i] == SlotAfter(g.1, entries, g.0, i)
  {
    var g := CachePass(env, w, texts, level);
    var c := Call(env, g.2);
    ReachedAll(entries);
    ApplyEntriesSlots(c.1, Keep(texts), g.1, entries, g.0);
    BatchUnfold(env, w, texts, level, fixed);
    AnswerArray(env, c.1, Keep(texts), level, g.1, g.0, c.0.reply, entries, fixed);
  }

  /**
   * A batch call that fails: every queued slot still empty gets the safe verdict
   * tagged with it, and every other slot keeps what the cache pass left in it.
   */
  lemma BatchCallFailsOpen(env: Env, w: World, texts: seq<string>, level: string, fixed: bool)
    requires Items(env.sha, texts, level) != []
    requires var (results, queued, w1) := CachePass(env, w, texts, level);
             queued != [] && env.svc(w1.calls).Down?
    ensures var (results, queued, w1) := CachePass(env, w, texts, level);
            var r := BatchWith(env, w, texts, level, fixed).0;
            forall i :: 0 <= i < |texts| ==>
              r[i] == (if InQueue(queued, i) && !Truthy(results[i]) then SafeAt(i) else results[i])
  {
    BatchUnfold(env, w, texts, level, fixed);
  }
}

=== FILE: json.dfy ===
/**
 * JavaScript values as they cross a JSON boundary, with the handful of JavaScript
 * operators the moderation code applies to them: truthiness, `||`, `??`, property
 * access with and without optional chaining.
 *
 * Numbers are integers here; fractional confidences are not modelled.
 */
module Json {
  import opened Base

  datatype Val =
    | Undef
    | Null
    | Bool(b: bool)
    | Num(n: int)
    | Str(s: string)
    | Arr(items: seq<Val>)
    | Obj(fields: map<string, Val>)

  /** JavaScript truthiness: `undefined`, `null`, `false`, `0` and `''` are falsy. */
  predicate Truthy(v: Val) {
    match v
    case Undef => false
    case Null => false
    case Bool(b) => b
    case Num(n) => n != 0
    case Str(s) => |s| > 0
    case Arr(_) => true
    case Obj(_) => true
  }

  /** `v?.k`: the property, or `undefined` when `v` has no such own property. */
  function Field(v: Val, k: string): (r: Val)
    ensures v.Obj? && k in v.fields ==> r == v.fields[k]
    ensures !v.Obj? ==> r == Undef
  {
    if v.Obj? && k in v.fields then v.fields[k] else Undef
  }

  /** `v` is an object with an own property `k`. */
  predicate Has(v: Val, k: string) {
    v.Obj? && k in v.fields
  }

  /** `v.k`: like `Field`, but reading a property of `null` or `undefined` throws a TypeError (None). */
  function Prop(v: Val, k: string): (r: Option<Val>)
    ensures r.None? <==> (v == Undef || v == Null)
    ensures r.Some? ==> r.value == Field(v, k)
  {
    if v.Undef? || v.Null? then None else Some(Field(v, k))
  }

  /** `a || b`. */
  function Or(a: Val, b: Val): (r: Val)
    ensures Truthy(a) ==> r == a
    ensures !Truthy(a) ==> r == b
  {
    if Truthy(a) then a else b
  }

  /** `a ?? b`. */
  function Coalesce(a: Val, b: Val): (r: Val)
    ensures (a == Undef || a == Null) ==> r == b
    ensures !(a == Undef || a == Null) ==> r == a
  {
    if a.Undef? || a.Null? then b else a
  }

  /**
   * `{ ...v, k: x }` for an object `v`; any other value spreads no properties
   * (the values spread in this code are always objects).
   */
  function Extend(v: Val, k: string, x: Val): (r: Val)
    ensures r.Obj? && k in r.fields && r.fields[k] == x
    ensures v.Obj? ==> r.fields == v.fields[k := x]
  {
    if v.Obj? then Obj(v.fields[k := x]) else Obj(map[k := x])
  }

  /** An object literal with a single property. */
  function Single(k: string, v: Val): Val {
    Obj(map[k := v])
  }

  /** `{ blocked: false }`, the fail-open reply used throughout the client. */
  const NotBlocked: Val := Single("blocked", Bool(false))
}

=== FILE: legacy_controller.dfy ===
/**
 * The legacy moderation endpoints. A device's profile has already been resolved
 * by the device middleware; the URL endpoint applies the block list, then the allow
 * list (both matching sub-domains), then a daily time window, then the `off` level,
 * and only then asks the threat service.
 */
module LegacyController {
  import opened Base
  import opened Strings
  import opened Domains
  import opened Profiles
  import opened LegacyModeration

  /** One entry of the handler's `timeRestrictions` array. */
  datatype Restriction = Restriction(dayOfWeek: int, startTime: Option<string>, endTime: Option<string>)

  /**
   * The profile as these handlers read it. `timeRestrictions` is `None` when the
   * stored value is not an array (so it has no `length`).
   */
  datatype Child = Child(
    blockedSites: seq<string>,
    allowedSites: seq<string>,
    timeRestrictions: Option<seq<Restriction>>,
    filteringLevel: Level,
    imageBlurThreshold: Option<string>)

  /** The local time the handler reads from the clock. */
  datatype Clock = Clock(day: int, hours: nat, minutes: nat)

  predicate ValidClock(c: Clock) {
    0 <= c.day <= 6 && c.hours < 24 && c.minutes < 60
  }

  /** `HH:MM`, zero-padded. */
  function CurrentTime(c: Clock): (r: string)
    requires ValidClock(c)
    ensures |r| == 5 && r[2] == ':'
  {
    Pad2(c.hours) + ":" + Pad2(c.minutes)
  }

  datatype Answer =
    | Missing(error: string)
    | Gated(blocked: bool, reason: string, source: Option<string>)
    | Checked(v: Verdict)
    | Results(vs: seq<Verdict>)
  {
    predicate Blocks() {
      (Gated? && blocked) || (Checked? && v.Blocked())
    }
  }

  /** `timeRestrictions.find(r => r.dayOfWeek === day)`. */
  function FirstOn(rs: seq<Restriction>, day: int): (r: Option<Restriction>)
    ensures r.Some? ==> r.value in rs && r.value.dayOfWeek == day
    ensures r.None? <==> forall i :: 0 <= i < |rs| ==> rs[i].dayOfWeek != day
  {
    if rs == [] then None
    else if rs[0].dayOfWeek == day then Some(rs[0])
    else FirstOn(rs[1..], day)
  }

  /** `currentTime < startTime || currentTime > endTime`; comparing with a missing bound is false. */
  predicate OutsideWindow(now: string, startTime: Option<string>, endTime: Option<string>) {
    (startTime.Some? && LexLess(now, startTime.value)) || (endTime.Some? && LexLess(endTime.value, now))
  }

  /** The time gate as written: only an array with entries is consulted, and only today's first entry. */
  predicate TimeBlocked(child: Child, clock: Clock)
    requires ValidClock(clock)
  {
    child.timeRestrictions.Some? && |child.timeRestrictions.value| > 0
    && var today := FirstOn(child.timeRestrictions.value, clock.day);
       today.Some? && OutsideWindow(CurrentTime(clock), today.value.startTime, today.value.endTime)
  }

  /** The gate the stored schema supports: the enabled schedule's first entry for today. */
  predicate ScheduleBlocked(t: TimeRestrictions, clock: Clock)
    requires ValidClock(clock)
  {
    t.enabled
    && var today := FirstScheduled(t.schedule, clock.day);
       today.Some? && OutsideWindow(CurrentTime(clock), today.value.startTime, today.value.endTime)
  }

  function FirstScheduled(entries: seq<ScheduleEntry>, day: int): (r: Option<ScheduleEntry>)
    ensures r.Some? ==> r.value in entries && r.value.day == day
    ensures r.None? <==> forall i :: 0 <= i < |entries| ==> entries[i].day != day
  {
    if entries == [] then None
    else if entries[0].day == day then Some(entries[0])
    else FirstScheduled(entries[1..], day)
  }

  /**
   * A stored profile as these handlers see it: the schema's `timeRestrictions` is an
   * object, not an array, and `imageBlurThreshold` is read from the custom settings.
   */
  function FromProfile(p: Profile): (c: Child)
    ensures c.timeRestrictions.None?
    ensures c.blockedSites == p.blockedSites && c.allowedSites == p.allowedSites
    ensures c.filteringLevel == p.filteringLevel
  {
    var threshold :=
      if "imageBlurThreshold" in p.customSettings && p.customSettings["imageBlurThreshold"].Text?
         && p.customSettings["imageBlurThreshold"].s != []
      then Some(p.customSettings["imageBlurThreshold"].s) else None;
    Child(p.blockedSites, p.allowedSites, None, p.filteringLevel, threshold)
  }

  // ----- POST /url -----

  /** A non-empty URL on neither the child's blocklist nor allowlist. */
  predicate Unlisted(hostname: string -> Option<string>, child: Child, url: string) {
    url != [] && !MatchesSiteList(hostname, url, child.blockedSites) && !MatchesSiteList(hostname, url, child.allowedSites)
  }

  /** The time gate: the handler's reading of the schedule, or with `schema` the stored schedule. */
  predicate OutsideHours(child: Child, profile: Profile, schema: bool, clock: Clock)
    requires ValidClock(clock)
  {
    if schema then ScheduleBlocked(profile.timeRestrictions, clock) else TimeBlocked(child, clock)
  }

  /**
   * `moderateUrlHandler`. `schema` false is the code as written (the time gate reads the
   * handler's array shape); true reads the stored schedule of `profile` instead.
   */
  function UrlWith(apis: Apis, m: Memo, hostname: string -> Option<string>, child: Child, profile: Profile,
                   schema: bool, clock: Clock, url: string): (r: (Answer, Memo))
    requires ValidClock(clock)
    ensures url == [] ==> r == (Missing("URL required."), m)
    ensures url != [] && MatchesSiteList(hostname, url, child.blockedSites) ==>
      r == (Gated(true, "URL on blocklist", Some("blocklist")), m)
    ensures (url != [] && !MatchesSiteList(hostname, url, child.blockedSites)
             && MatchesSiteList(hostname, url, child.allowedSites)) ==>
      r == (Gated(false, "URL on allowlist", None), m)
    ensures Unlisted(hostname, child, url) && OutsideHours(child, profile, schema, clock) ==>
      r == (Gated(true, "Outside allowed hours", Some("time_restriction")), m)
    ensures Unlisted(hostname, child, url) && !OutsideHours(child, profile, schema, clock) && child.filteringLevel == Off ==>
      r == (Checked(Clear), m)
    ensures Unlisted(hostname, child, url) && !OutsideHours(child, profile, schema, clock) && child.filteringLevel != Off ==>
      r == (Checked(ModerateUrl(apis, m, url).0), ModerateUrl(apis, m, url).1)
    ensures r.1.calls <= m.calls + 1
    ensures r.1.calls == m.calls + 1 ==> child.filteringLevel != Off
  {
    if url == [] then (Missing("URL required."), m)
    else if MatchesSiteList(hostname, url, child.blockedSites) then (Gated(true, "URL on blocklist", Some("blocklist")), m)
    else if MatchesSiteList(hostname, url, child.allowedSites) then (Gated(false, "URL on allowlist", None), m)
    else if OutsideHours(child, profile, schema, clock) then
      (Gated(true, "Outside allowed hours", Some("time_restriction")), m)
    else if child.filteringLevel == Off then (Checked(Clear), m)
    else
      var (v, m1) := ModerateUrl(apis, m, url);
      (Checked(v), m1)
  }

  /** The URL endpoint as written, for the profile the middleware resolved. */
  function UrlHandler(apis: Apis, m: Memo, hostname: string -> Option<string>, profile: Profile, clock: Clock,
                      url: string): (r: (Answer, Memo))
    requires ValidClock(clock)
    ensures url == [] ==> r.0 == Missing("URL required.")
    ensures r.1.calls <= m.calls + 1
  {
    UrlWith(apis, m, hostname, FromProfile(profile), profile, false, clock, url)
  }

  /** The URL endpoint with the time gate reading the stored schedule. */
  function UrlHandlerCorrected(apis: Apis, m: Memo, hostname: string -> Option<string>, profile: Profile,
                               clock: Clock, url: string): (r: (Answer, Memo))
    requires ValidClock(clock)
    ensures url == [] ==> r.0 == Missing("URL required.")
    ensures (url != [] && !MatchesSiteList(hostname, url, profile.blockedSites)
             && !MatchesSiteList(hostname, url, profile.allowedSites)
             && ScheduleBlocked(profile.timeRestrictions, clock)) ==>
      r == (Gated(true, "Outside allowed hours", Some("time_restriction")), m)
  {
    UrlWith(apis, m, hostname, FromProfile(profile), profile, true, clock, url)
  }

  // ----- POST /text -----

  function TextHandler(apis: Apis, m: Memo, child: Child, text: string): (r: (Answer, Memo))
    ensures text == [] ==> r == (Missing("Text required."), m)
    ensures text != [] && child.filteringLevel == Off ==> r == (Checked(Clear), m)
    ensures text != [] && child.filteringLevel != Off ==>
      var (v, m') := ModerateText(apis, m, text);
      r == (Checked(v), m')
  {
    if text == [] then (Missing("Text required."), m)
    else if child.filteringLevel == Off then (Checked(Clear), m)
    else
      var (v, m1) := ModerateText(apis, m, text);
      (Checked(v), m1)
  }

  // ----- POST /image -----

  /** The likelihood level at which images are blocked for a filtering level. */
  function Threshold(child: Child): (t: string)
    ensures child.filteringLevel == Strict ==> t == "POSSIBLE"
    ensures child.filteringLevel == Moderate || child.filteringLevel == Off ==> t == "LIKELY"
    ensures child.filteringLevel == Custom && child.imageBlurThreshold.Some? && child.imageBlurThreshold.value != "" ==>
      t == child.imageBlurThreshold.value
    ensures child.filteringLevel == Custom && (child.imageBlurThreshold.None? || child.imageBlurThreshold.value == "") ==>
      t == "LIKELY"
    ensures t != ""
    ensures child.filteringLevel != Custom ==> t in SeverityLevels
  {
    match child.filteringLevel
    case Strict => "POSSIBLE"
    case Moderate => "LIKELY"
    case Custom =>
      if child.imageBlurThreshold.Some? && child.imageBlurThreshold.value != "" then child.imageBlurThreshold.value
      else "LIKELY"
    case Off => "LIKELY"
  }

  datatype ImageRequest = ImageRequest(imageUrl: Option<string>, imageUrls: Option<seq<string>>)

  function ImageHandler(apis: Apis, m: Memo, child: Child, req: ImageRequest): (r: (Answer, Memo))
    ensures child.filteringLevel == Off ==> r == (Checked(Clear), m)
    ensures child.filteringLevel != Off && req.imageUrls.Some? ==>
      r.0.Results? && |r.0.vs| == |req.imageUrls.value|
      && r == (Results(Each(ImageStep(apis, Threshold(child)), m, req.imageUrls.value).0),
               Each(ImageStep(apis, Threshold(child)), m, req.imageUrls.value).1)
    ensures child.filteringLevel != Off && req.imageUrls.None? ==>
      var (v, m') := ModerateImage(apis, m, req.imageUrl.GetOr([]), Threshold(child));
      r == (Checked(v), m')
  {
    if child.filteringLevel == Off then (Checked(Clear), m)
    else
      var threshold := Threshold(child);
      match req.imageUrls
      case Some(urls) =>
        var (vs, m1) := ModerateImageBatch(apis, m, urls, threshold);
        (Results(vs), m1)
      case None =>
        var (v, m1) := ModerateImage(apis, m, req.imageUrl.GetOr([]), threshold);
        (Checked(v), m1)
  }

  // ----- Properties -----

  /** A domain on both lists is blocked: the block list is consulted first. */
  lemma BlockListWins(apis: Apis, m: Memo, hostname: string -> Option<string>, profile: Profile, clock: Clock,
                      url: string, site: string)
    requires ValidClock(clock) && url != []
    requires site in profile.blockedSites && site in profile.allowedSites
    requires ExtractDomain(hostname, url) == site
    ensures UrlHandler(apis, m, hostname, profile, clock, url) == (Gated(true, "URL on blocklist", Some("blocklist")), m)
  {
    var i :| 0 <= i < |profile.blockedSites| && profile.blockedSites[i] == site;
    assert SiteMatches(site, profile.blockedSites[i]);
  }

  /** The `off` level does not lift the block list, and it answers clear without a call otherwise. */
  lemma OffLevelSkipsOnlyTheService(apis: Apis, m: Memo, hostname: string -> Option<string>, profile: Profile,
                                    clock: Clock, url: string)
    requires ValidClock(clock) && url != [] && profile.filteringLevel == Off
    ensures var (a, m') := UrlHandler(apis, m, hostname, profile, clock, url);
            m' == m
            && (MatchesSiteList(hostname, url, profile.blockedSites) ==> a.Blocks())
            && (!MatchesSiteList(hostname, url, profile.blockedSites) ==> !a.Blocks())
  {
  }

  /**
   * The time gate as written never fires for a stored profile: the schema stores
   * `timeRestrictions` as an object, which has no `length`, whatever its schedule says.
   */
  lemma StoredScheduleIgnored(apis: Apis, m: Memo, hostname: string -> Option<string>, profile: Profile,
                              clock: Clock, url: string)
    requires ValidClock(clock) && url != []
    requires !MatchesSiteList(hostname, url, profile.blockedSites)
    requires !MatchesSiteList(hostname, url, profile.allowedSites)
    requires profile.filteringLevel != Off
    ensures !TimeBlocked(FromProfile(profile), clock)
    ensures UrlHandler(apis, m, hostname, profile, clock, url).0 == Checked(ModerateUrl(apis, m, url).0)
  {
  }

  /** A concrete stored profile outside its allowed hours that the as-written gate lets through. */
  lemma NightTimeNotBlocked(profile: Profile)
    requires profile.timeRestrictions == TimeRestrictions(true, [ScheduleEntry(1, Some("08:00"), Some("20:00"))], 0)
    ensures ScheduleBlocked(profile.timeRestrictions, Clock(1, 22, 30))
    ensures !TimeBlocked(FromProfile(profile), Clock(1, 22, 30))
  {
    var now := CurrentTime(Clock(1, 22, 30));
    assert now == "22:30";
    assert LexLess("20:00", now) by {
      assert "20:00"[0] == now[0];
      assert "20:00"[1..] == "0:00" && now[1..] == "2:30";
    }
  }

  /** Both ends of a window are inside it. */
  lemma WindowIncludesEndpoints(now: string, startTime: string, endTime: string)
    requires !LexLess(endTime, startTime)
    requires now == startTime || now == endTime
    ensures !OutsideWindow(now, Some(startTime), Some(endTime))
  {
    LexLessIrreflexive(now);
    if now == endTime && LexLess(now, startTime) {
      LexLessAsymmetric(now, startTime);
    }
  }

  /** A custom threshold that is not a level name blocks every annotated image. */
  lemma UnknownCustomThresholdBlocks(apis: Apis, m: Memo, child: Child, url: string)
    requires child.filteringLevel == Custom
    requires child.imageBlurThreshold.Some? && child.imageBlurThreshold.value != ""
    requires child.imageBlurThreshold.value !in SeverityLevels
    requires url != [] && Get(m, ImageKey(apis, url, Threshold(child))).None?
    requires apis.vision(m.calls).Annotated?
    ensures ImageHandler(apis, m, child, ImageRequest(Some(url), None)).0.Blocks()
  {
    UnknownThresholdBlocksEverything(apis.vision(m.calls).likelihood, Threshold(child));
  }
}

=== FILE: legacy_moderation.dfy ===
/**
 * The legacy moderation service: text through a category classifier, images through
 * a likelihood annotator compared with a severity threshold, URLs through a threat
 * list, each result memoised in an in-process cache with a lifetime.
 *
 * The three external services are oracles indexed by the number of calls made so
 * far; an answer that is missing or malformed is a failure, which fails open.
 */
module LegacyModeration {
  import opened Base
  import opened Strings
  import opened Encoding

  /** What a moderation call answers. `Clear` is `{ blocked: false }`. */
  datatype Verdict =
    | Clear
    | Classified(categories: seq<string>, source: string)
    | Unavailable
  {
    /** `blocked` of the answer: only a classification with at least one category blocks. */
    predicate Blocked() {
      Classified? && categories != []
    }
  }

  datatype TextAnswer = TextDown | TextUp(flags: set<string>)

  /** A missing `safeSearchAnnotation` is `NoAnnotation`. */
  datatype VisionAnswer = VisionDown | NoAnnotation | Annotated(likelihood: map<string, string>)

  datatype UrlAnswer = UrlDown | Matches(threatTypes: seq<string>)

  /** The cached value and the time after which it is gone (0: never). */
  datatype Entry = Entry(v: Verdict, expiresAt: int)

  datatype Memo = Memo(entries: map<string, Entry>, now: int, calls: nat)

  /** How the cache keys are formed: as the code forms them, or identifying the request fully. */
  datatype KeyScheme = AsWritten | Corrected

  datatype Apis = Apis(
    text: nat -> TextAnswer,
    vision: nat -> VisionAnswer,
    safeBrowsing: nat -> UrlAnswer,
    ttlSec: int,
    keys: KeyScheme)

  const DefaultTtlSec: int := 3600

  /** `parseInt(process.env.CACHE_TTL) || 3600`: an absent, unparsable or zero setting gives the default. */
  function ConfiguredTtl(setting: Option<int>): (t: int)
    ensures t != 0
    ensures setting.Some? && setting.value != 0 ==> t == setting.value
    ensures setting.None? || setting.value == 0 ==> t == 3600
  {
    if setting.Some? && setting.value != 0 then setting.value else DefaultTtlSec
  }

  // ----- The cache -----

  /** A lifetime of 0 never expires; otherwise an entry is served up to and including its expiry time. */
  predicate Live(e: Entry, now: int) {
    e.expiresAt == 0 || now <= e.expiresAt
  }

  function Get(m: Memo, key: string): (r: Option<Verdict>)
    ensures r.Some? <==> key in m.entries && Live(m.entries[key], m.now)
  {
    if key in m.entries && Live(m.entries[key], m.now) then Some(m.entries[key].v) else None
  }

  function Set(apis: Apis, m: Memo, key: string, v: Verdict): (m': Memo)
    ensures m'.now == m.now && m'.calls == m.calls
    ensures key in m'.entries && m'.entries[key].v == v
    ensures apis.ttlSec >= 0 ==> Get(m', key) == Some(v)
    ensures forall k :: k in m.entries && k != key ==> k in m'.entries && m'.entries[k] == m.entries[k]
    ensures forall k :: k in m'.entries && k != key ==> k in m.entries
  {
    var expiresAt := if apis.ttlSec == 0 then 0 else m.now + apis.ttlSec * 1000;
    m.(entries := m.entries[key := Entry(v, expiresAt)])
  }

  function Tick(m: Memo): Memo {
    m.(calls := m.calls + 1)
  }

  // ----- Cache keys -----

  const TextKeyChars: nat := 200
  const KeyDigits: nat := 100

  function TextKey(apis: Apis, text: string): string {
    match apis.keys
    case AsWritten => "text:" + Base64(Utf8(Take(text, TextKeyChars)))
    case Corrected => "text:" + text
  }

  function ImageKey(apis: Apis, url: string, threshold: string): string {
    match apis.keys
    case AsWritten => "img:" + Take(Base64(Utf8(url)), KeyDigits)
    case Corrected => "img:" + url + "@" + threshold
  }

  function UrlKey(apis: Apis, url: string): string {
    match apis.keys
    case AsWritten => "url:" + Take(Base64(Utf8(url)), KeyDigits)
    case Corrected => "url:" + url
  }

  // ----- Text -----

  /** The classifier categories that block, in the order they are reported. */
  const BlockedCategories: seq<string> := [
    "sexual", "sexual/minors", "violence", "violence/graphic",
    "hate", "hate/threatening", "harassment", "harassment/threatening",
    "self-harm", "self-harm/intent", "self-harm/instructions"]

  /** The members of `list` that are in `flags`, in list order. */
  function Flagged(list: seq<string>, flags: set<string>): (r: seq<string>)
    ensures forall c :: c in r <==> c in list && c in flags
    ensures r == [] <==> forall i :: 0 <= i < |list| ==> list[i] !in flags
    ensures |r| <= |list|
    ensures |list| == 1 ==> r == (if list[0] in flags then list else [])
  {
    if list == [] then [] else (if list[0] in flags then [list[0]] else []) + Flagged(list[1..], flags)
  }

  /**
   * Filtering a concatenation filters each part and keeps them in order; with the
   * one-element case of `Flagged` this pins the answer down as the flagged members
   * of the list in list order.
   */
  lemma {:induction false} FlaggedAppend(a: seq<string>, b: seq<string>, flags: set<string>)
    ensures Flagged(a + b, flags) == Flagged(a, flags) + Flagged(b, flags)
    decreases |a|
  {
    if a == [] {
      assert a + b == b;
    } else {
      assert (a + b)[0] == a[0];
      assert (a + b)[1..] == a[1..] + b;
      FlaggedAppend(a[1..], b, flags);
    }
  }

  /** Two flagged members of the list are reported in the order they stand in it. */
  lemma FlaggedKeepsOrder(list: seq<string>, flags: set<string>, i: nat, j: nat)
    requires i < j < |list| && list[i] in flags && list[j] in flags
    ensures Flagged(list, flags) == Flagged(list[..i], flags) + [list[i]]
      + Flagged(list[i + 1..j], flags) + [list[j]] + Flagged(list[j + 1..], flags)
  {
    assert list == list[..i] + [list[i]] + list[i + 1..j] + [list[j]] + list[j + 1..];
    FlaggedAppend(list[..i] + [list[i]] + list[i + 1..j] + [list[j]], list[j + 1..], flags);
    FlaggedAppend(list[..i] + [list[i]] + list[i + 1..j], [list[j]], flags);
    FlaggedAppend(list[..i] + [list[i]], list[i + 1..j], flags);
    FlaggedAppend(list[..i], [list[i]], flags);
  }

  const MinTextLength: nat := 10

  /** `moderateText(text)`. */
  function ModerateText(apis: Apis, m: Memo, text: string): (r: (Verdict, Memo))
    ensures |Trim(text)| < MinTextLength ==> r == (Clear, m)
    ensures |Trim(text)| >= MinTextLength && Get(m, TextKey(apis, text)).Some? ==>
      r == (Get(m, TextKey(apis, text)).value, m)
    ensures |Trim(text)| >= MinTextLength && Get(m, TextKey(apis, text)).None? ==>
      r.1.calls == m.calls + 1
      && match apis.text(m.calls)
         case TextDown => r.0 == Unavailable && Get(r.1, TextKey(apis, text)).None?
         case TextUp(flags) =>
           r.0 == Classified(Flagged(BlockedCategories, flags), "openai")
           && (r.0.Blocked() <==> exists i :: 0 <= i < |BlockedCategories| && BlockedCategories[i] in flags)
           && (apis.ttlSec >= 0 ==> Get(r.1, TextKey(apis, text)) == Some(r.0))
    ensures r.1.calls <= m.calls + 1
  {
    if |Trim(text)| < MinTextLength then (Clear, m)
    else
      var key := TextKey(apis, text);
      match Get(m, key)
      case Some(v) => (v, m)
      case None =>
        match apis.text(m.calls)
        case TextDown => (Unavailable, Tick(m))
        case TextUp(flags) =>
          var v := Classified(Flagged(BlockedCategories, flags), "openai");
          (v, Set(apis, Tick(m), key, v))
  }

  // ----- Images -----

  const SeverityLevels: seq<string> := ["UNKNOWN", "VERY_UNLIKELY", "UNLIKELY", "POSSIBLE", "LIKELY", "VERY_LIKELY"]

  /** `SeverityLevels.indexOf(s)`: -1 for anything that is not a level name. */
  function Severity(s: Option<string>): (r: int)
    ensures -1 <= r < |SeverityLevels|
    ensures r >= 0 ==> s.Some? && SeverityLevels[r] == s.value
    ensures s.Some? && s.value in SeverityLevels ==> r >= 0
  {
    if s.Some? then IndexOf(SeverityLevels, s.value) else -1
  }

  function IndexOf(xs: seq<string>, x: string): (r: int)
    ensures -1 <= r < |xs|
    ensures r >= 0 ==> xs[r] == x && forall j :: 0 <= j < r ==> xs[j] != x
    ensures r == -1 <==> x !in xs
  {
    if xs == [] then -1
    else if xs[0] == x then 0
    else
      var k := IndexOf(xs[1..], x);
      if k == -1 then -1 else k + 1
  }

  const CheckedCategories: seq<string> := ["adult", "racy", "violence"]

  function Likelihood(ann: map<string, string>, category: string): Option<string> {
    if category in ann then Some(ann[category]) else None
  }

  /** `${category}:${safeSearch[category]}`. */
  function Label(ann: map<string, string>, category: string): string {
    category + ":" + (if category in ann then ann[category] else "undefined")
  }

  /** The checked categories whose likelihood is at or above the threshold, labelled, in order. */
  function AtOrAbove(categories: seq<string>, ann: map<string, string>, threshold: int): (r: seq<string>)
    ensures |r| <= |categories|
    ensures r == [] <==> forall i :: 0 <= i < |categories| ==> Severity(Likelihood(ann, categories[i])) < threshold
  {
    if categories == [] then []
    else
      (if Severity(Likelihood(ann, categories[0])) >= threshold then [Label(ann, categories[0])] else [])
      + AtOrAbove(categories[1..], ann, threshold)
  }

  /** The verdict on an annotation at a threshold level name. */
  function Judge(ann: map<string, string>, threshold: string): (v: Verdict)
    ensures v.Classified? && v.source == "google_vision"
    ensures v.Blocked() <==> exists i :: (0 <= i < |CheckedCategories|
      && Severity(Likelihood(ann, CheckedCategories[i])) >= Severity(Some(threshold)))
  {
    Classified(AtOrAbove(CheckedCategories, ann, Severity(Some(threshold))), "google_vision")
  }

  /** `moderateImage(imageUrl, threshold)`. */
  function ModerateImage(apis: Apis, m: Memo, url: string, threshold: string): (r: (Verdict, Memo))
    ensures url == [] ==> r == (Clear, m)
    ensures url != [] && Get(m, ImageKey(apis, url, threshold)).Some? ==>
      r == (Get(m, ImageKey(apis, url, threshold)).value, m)
    ensures url != [] && Get(m, ImageKey(apis, url, threshold)).None? ==> r.1.calls == m.calls + 1
    ensures url != [] && Get(m, ImageKey(apis, url, threshold)).None? && apis.vision(m.calls).Annotated? ==>
      r.0 == Judge(apis.vision(m.calls).likelihood, threshold)
      && (apis.ttlSec >= 0 ==> Get(r.1, ImageKey(apis, url, threshold)) == Some(r.0))
    ensures url != [] && Get(m, ImageKey(apis, url, threshold)).None? && !apis.vision(m.calls).Annotated? ==>
      !r.0.Blocked() && Get(r.1, ImageKey(apis, url, threshold)).None?
    ensures url != [] && Get(m, ImageKey(apis, url, threshold)).None? && apis.vision(m.calls).VisionDown? ==>
      r.0 == Unavailable
    ensures url != [] && Get(m, ImageKey(apis, url, threshold)).None? && apis.vision(m.calls).NoAnnotation? ==>
      r.0 == Clear
    ensures r.1.calls <= m.calls + 1
  {
    if url == [] then (Clear, m)
    else
      var key := ImageKey(apis, url, threshold);
      match Get(m, key)
      case Some(v) => (v, m)
      case None =>
        match apis.vision(m.calls)
        case VisionDown => (Unavailable, Tick(m))
        case NoAnnotation => (Clear, Tick(m))
        case Annotated(ann) =>
          var v := Judge(ann, threshold);
          (v, Set(apis, Tick(m), key, v))
  }

  // ----- URLs -----

  /** `moderateUrl(url)`. */
  function ModerateUrl(apis: Apis, m: Memo, url: string): (r: (Verdict, Memo))
    ensures url == [] ==> r == (Clear, m)
    ensures url != [] && Get(m, UrlKey(apis, url)).Some? ==> r == (Get(m, UrlKey(apis, url)).value, m)
    ensures url != [] && Get(m, UrlKey(apis, url)).None? ==> r.1.calls == m.calls + 1
    ensures url != [] && Get(m, UrlKey(apis, url)).None? && apis.safeBrowsing(m.calls).Matches? ==>
      r.0 == Classified(apis.safeBrowsing(m.calls).threatTypes, "safe_browsing")
      && (r.0.Blocked() <==> apis.safeBrowsing(m.calls).threatTypes != [])
      && (apis.ttlSec >= 0 ==> Get(r.1, UrlKey(apis, url)) == Some(r.0))
    ensures url != [] && Get(m, UrlKey(apis, url)).None? && apis.safeBrowsing(m.calls).UrlDown? ==>
      r.0 == Unavailable && !r.0.Blocked() && r.1.entries == m.entries
    ensures r.1.calls <= m.calls + 1
  {
    if url == [] then (Clear, m)
    else
      var key := UrlKey(apis, url);
      match Get(m, key)
      case Some(v) => (v, m)
      case None =>
        match apis.safeBrowsing(m.calls)
        case UrlDown => (Unavailable, Tick(m))
        case Matches(types) =>
          var v := Classified(types, "safe_browsing");
          (v, Set(apis, Tick(m), key, v))
  }

  // ----- Batches -----

  const BatchSize: nat := 16

  /** One moderation call: the verdict for an input and the cache after it. */
  type Step = (Memo, string) -> (Verdict, Memo)

  /** A step applied to each input in turn, threading the cache through. */
  function Each(step: Step, m: Memo, xs: seq<string>): (r: (seq<Verdict>, Memo))
    ensures |r.0| == |xs|
    ensures xs != [] ==> r.0[0] == step(m, xs[0]).0
    decreases |xs|
  {
    if xs == [] then ([], m)
    else
      var first := step(m, xs[0]);
      var rest := Each(step, first.1, xs[1..]);
      ([first.0] + rest.0, rest.1)
  }

  /** Chunks of 16 from position `from`, each chunk in turn, results appended in order. */
  function Chunked(step: Step, m: Memo, xs: seq<string>, from: nat): (r: (seq<Verdict>, Memo))
    requires from <= |xs|
    decreases |xs| - from
  {
    if from == |xs| then ([], m)
    else
      var upto := Min(from + BatchSize, |xs|);
      var chunk := Each(step, m, xs[from..upto]);
      var rest := Chunked(step, chunk.1, xs, upto);
      (chunk.0 + rest.0, rest.1)
  }

  function ImageStep(apis: Apis, threshold: string): Step {
    (m: Memo, url: string) => ModerateImage(apis, m, url, threshold)
  }

  /** `moderateImageBatch(imageUrls, threshold)`: one verdict per URL, in input order. */
  function ModerateImageBatch(apis: Apis, m: Memo, urls: seq<string>, threshold: string): (r: (seq<Verdict>, Memo))
    ensures |r.0| == |urls|
    ensures r == Each(ImageStep(apis, threshold), m, urls)
    ensures forall i :: 0 <= i < |urls| && urls[i] == [] ==> r.0[i] == Clear
  {
    ChunkingIsTransparent(ImageStep(apis, threshold), m, urls, 0);
    assert urls[0..] == urls;
    EmptyUrlsClear(apis, threshold, m, urls);
    Chunked(ImageStep(apis, threshold), m, urls, 0)
  }

  /** An empty URL gets `{ blocked: false }` wherever it stands in the batch. */
  lemma {:induction false} EmptyUrlsClear(apis: Apis, threshold: string, m: Memo, urls: seq<string>)
    ensures forall i :: 0 <= i < |urls| && urls[i] == [] ==> Each(ImageStep(apis, threshold), m, urls).0[i] == Clear
    decreases |urls|
  {
    if urls != [] {
      var step := ImageStep(apis, threshold);
      var first := step(m, urls[0]);
      EmptyUrlsClear(apis, threshold, first.1, urls[1..]);
      forall i | 0 <= i < |urls| && urls[i] == []
        ensures Each(step, m, urls).0[i] == Clear
      {
        if i > 0 {
          assert urls[1..][i - 1] == urls[i];
        }
      }
    }
  }

  /** Running two pieces one after the other is running their concatenation. */
  lemma {:induction false} EachAppend(step: Step, m: Memo, a: seq<string>, b: seq<string>)
    ensures var first := Each(step, m, a);
            var second := Each(step, first.1, b);
            Each(step, m, a + b) == (first.0 + second.0, second.1)
    decreases |a|
  {
    if a == [] {
      assert a + b == b;
      var second := Each(step, m, b);
      assert Each(step, m, a) == ([], m);
      assert [] + second.0 == second.0;
    } else {
      assert (a + b)[0] == a[0];
      assert (a + b)[1..] == a[1..] + b;
      var head := step(m, a[0]);
      EachAppend(step, head.1, a[1..], b);
      var tail := Each(step, head.1, a[1..]);
      var second := Each(step, tail.1, b);
      assert Each(step, m, a) == ([head.0] + tail.0, tail.1);
      assert Each(step, m, a + b) == ([head.0] + Each(step, head.1, a[1..] + b).0, second.1);
      assert [head.0] + (tail.0 + second.0) == ([head.0] + tail.0) + second.0;
    }
  }

  /** Chunking changes nothing: the chunks together answer what one pass over all inputs answers. */
  lemma {:induction false} ChunkingIsTransparent(step: Step, m: Memo, xs: seq<string>, from: nat)
    requires from <= |xs|
    ensures Chunked(step, m, xs, from) == Each(step, m, xs[from..])
    decreases |xs| - from
  {
    if from < |xs| {
      var upto := Min(from + BatchSize, |xs|);
      var chunk := Each(step, m, xs[from..upto]);
      ChunkingIsTransparent(step, chunk.1, xs, upto);
      EachAppend(step, m, xs[from..upto], xs[upto..]);
      assert xs[from..upto] + xs[upto..] == xs[from..];
    } else {
      assert xs[from..] == [];
    }
  }

  // ----- Properties -----

  /** A lower threshold flags at least what a higher one flags. */
  lemma LowerThresholdBlocksMore(ann: map<string, string>, lower: string, higher: string)
    requires Severity(Some(lower)) <= Severity(Some(higher))
    ensures Judge(ann, higher).Blocked() ==> Judge(ann, lower).Blocked()
  {
  }

  /** A threshold that is not a level name (index -1) blocks every annotated image. */
  lemma UnknownThresholdBlocksEverything(ann: map<string, string>, threshold: string)
    requires threshold !in SeverityLevels
    ensures Judge(ann, threshold).Blocked()
  {
    assert Severity(Likelihood(ann, CheckedCategories[0])) >= Severity(Some(threshold));
  }

  /** A failed call is not cached: the next request asks the service again. */
  lemma FailureIsNotCached(apis: Apis, m: Memo, text: string)
    requires |Trim(text)| >= MinTextLength
    requires Get(m, TextKey(apis, text)).None?
    requires apis.text(m.calls).TextDown?
    ensures var (v, m') := ModerateText(apis, m, text);
            v == Unavailable && Get(m', TextKey(apis, text)).None? && m'.calls == m.calls + 1
  {
  }

  /** The text key reads only the first 200 characters: texts that agree there share a verdict. */
  lemma TextKeyReadsPrefixOnly(apis: Apis, a: string, b: string)
    requires apis.keys == AsWritten
    requires |a| >= TextKeyChars && |b| >= TextKeyChars && a[..TextKeyChars] == b[..TextKeyChars]
    ensures TextKey(apis, a) == TextKey(apis, b)
  {
  }

  /** The as-written URL key: ASCII URLs that agree on their first 75 characters collide. */
  lemma {:induction false} UrlKeysCollide(apis: Apis, a: string, b: string)
    requires apis.keys == AsWritten
    requires |a| >= 75 && |b| >= 75 && a[..75] == b[..75] && IsAscii(a[..75])
    ensures UrlKey(apis, a) == UrlKey(apis, b)
  {
    PrefixDigits(a);
    PrefixDigits(b);
  }

  /** The first 100 Base64 digits of an ASCII-prefixed string encode its first 75 characters. */
  lemma PrefixDigits(s: string)
    requires |s| >= 75 && IsAscii(s[..75])
    ensures Take(Base64(Utf8(s)), KeyDigits) == Base64(Utf8(s[..75]))
  {
    var p, q := s[..75], s[75..];
    assert s == p + q;
    assert |p| % 3 == 0;
    PrefixEncodes(p, q);
    assert 4 * ((|p| + 2) / 3) == KeyDigits;
    TakeOfAppend(Base64(Utf8(p)), Base64(Utf8(q)), KeyDigits);
  }

  /** An ASCII prefix of whole three-character groups encodes on its own. */
  lemma PrefixEncodes(p: string, q: string)
    requires IsAscii(p) && |p| % 3 == 0
    ensures Base64(Utf8(p + q)) == Base64(Utf8(p)) + Base64(Utf8(q))
    ensures |Base64(Utf8(p))| == 4 * ((|p| + 2) / 3)
  {
    Utf8Append(p, q);
    Utf8OfAscii(p);
    Base64Append(Utf8(p), Utf8(q));
    Base64Length(Utf8(p));
  }

  lemma TakeOfAppend(x: string, y: string, n: nat)
    requires |x| == n
    ensures Take(x + y, n) == x
  {
    assert (x + y)[..n] == x;
  }

  /** A concrete pair of distinct URLs with one as-written key. */
  lemma DistinctUrlsShareKey(apis: Apis)
    requires apis.keys == AsWritten
    ensures LongUrl + "1" != LongUrl + "2"
    ensures UrlKey(apis, LongUrl + "1") == UrlKey(apis, LongUrl + "2")
  {
    var a := LongUrl + "1";
    var b := LongUrl + "2";
    assert |LongUrl| == 75;
    assert IsAscii(LongUrl) by {
      forall i | 0 <= i < 20
        ensures LongUrl[i] as int < 0x80
      {
        assert LongUrl[i] == "https://example.com/"[i];
      }
    }
    assert a[..75] == LongUrl == b[..75];
    assert a[75] != b[75];
    UrlKeysCollide(apis, a, b);
  }

  /** A URL of seventy-five ASCII characters. */
  const LongUrl: string := "https://example.com/" + seq(55, _ => 'a')

  /** With the corrected scheme, distinct URLs never share a key. */
  lemma CorrectedUrlKeysDistinct(apis: Apis, a: string, b: string)
    requires apis.keys == Corrected && a != b
    ensures UrlKey(apis, a) != UrlKey(apis, b)
  {
    assert UrlKey(apis, a)[4..] == a;
    assert UrlKey(apis, b)[4..] == b;
  }

  /**
   * The as-written image key has no threshold: once a lenient request has cached a
   * clear verdict for an image, a strict request for the same image gets that verdict
   * back without a call, although the annotation would block it at its threshold.
   */
  lemma StrictRequestServedLenientVerdict(apis: Apis, m: Memo, url: string, ann: map<string, string>)
    requires apis.keys == AsWritten && apis.ttlSec > 0
    requires url != [] && Get(m, ImageKey(apis, url, "LIKELY")).None?
    requires apis.vision(m.calls) == Annotated(ann)
    requires AllPossible(ann)
    ensures var (lenient, m1) := ModerateImage(apis, m, url, "LIKELY");
            var (strict, m2) := ModerateImage(apis, m1, url, "POSSIBLE");
            !lenient.Blocked() && strict == lenient && m2.calls == m1.calls
            && Judge(ann, "POSSIBLE").Blocked()
  {
    PossibleBlocksOnlyStrictly(ann);
    assert ImageKey(apis, url, "POSSIBLE") == ImageKey(apis, url, "LIKELY");
  }

  lemma SeverityOfNames()
    ensures Severity(Some("POSSIBLE")) == 3 && Severity(Some("LIKELY")) == 4
  {
    assert SeverityLevels[3] == "POSSIBLE" && SeverityLevels[4] == "LIKELY";
    assert forall j :: 0 <= j < 3 ==> |SeverityLevels[j]| != 8 || SeverityLevels[j][0] != 'P';
    assert forall j :: 0 <= j < 4 ==> |SeverityLevels[j]| != 6 || SeverityLevels[j][0] != 'L';
  }

  /** Every category at `POSSIBLE`: blocked at a `POSSIBLE` threshold, clear at `LIKELY`. */
  lemma PossibleBlocksOnlyStrictly(ann: map<string, string>)
    requires AllPossible(ann)
    ensures !Judge(ann, "LIKELY").Blocked() && Judge(ann, "POSSIBLE").Blocked()
  {
    SeverityOfNames();
    assert Severity(Likelihood(ann, CheckedCategories[0])) >= Severity(Some("POSSIBLE"));
  }

  /** Every checked category annotated `POSSIBLE`, as in `{ adult: 'POSSIBLE', racy: 'POSSIBLE', violence: 'POSSIBLE' }`. */
  predicate AllPossible(ann: map<string, string>) {
    forall i :: 0 <= i < |CheckedCategories| ==> Likelihood(ann, CheckedCategories[i]) == Some("POSSIBLE")
  }

  /** With the corrected scheme, a request at another threshold is never served from this one's entry. */
  lemma CorrectedImageKeysSeparateThresholds(apis: Apis, url: string, t1: string, t2: string)
    requires apis.keys == Corrected && t1 != t2
    ensures ImageKey(apis, url, t1) != ImageKey(apis, url, t2)
  {
    var n := |"img:" + url + "@"|;
    assert ImageKey(apis, url, t1)[n..] == t1;
    assert ImageKey(apis, url, t2)[n..] == t2;
  }
}

=== FILE: live_controller.dfy ===
/**
 * The live moderation endpoints (`/api/moderate/text|image|url|page`): resolve the
 * device's profile, apply the profile's site lists, delegate to the classification
 * service, record blocked verdicts about a known profile, and reply.
 *
 * Replies are a status code and a JSON body. The activity log is the sequence of
 * records written, in order.
 */
module LiveController {
  import opened Base
  import opened Strings
  import opened Json
  import opened Domains
  import opened Profiles
  import opened Gemini
  import opened Numbers

  /** The server's state: the classification world, the stored profiles and the activity log. */
  datatype Server = Server(w: World, profiles: seq<Profile>, log: seq<ActivityRecord>)

  /** The service environment and `new URL(url).hostname`. */
  datatype Ctx = Ctx(env: Env, hostname: string -> Option<string>)

  datatype Http = Http(status: nat, body: Val)

  function Ok200(body: Val): Http {
    Http(200, body)
  }

  function BadRequest(message: string): Http {
    Http(400, Single("error", Str(message)))
  }

  /** The 500 reply of a handler whose body threw. */
  function ServerError(message: string): Http {
    Http(500, Obj(map["error" := Str(message), "blocked" := Bool(false)]))
  }

  /** `child?.filteringLevel || 'moderate'`. */
  function LevelFor(child: Option<Profile>): (l: string)
    ensures IsLevelName(l)
  {
    match child
    case Some(p) => LevelName(p.filteringLevel)
    case None => "moderate"
  }

  /** Append a record about a known profile. */
  function Record(s: Server, child: Profile, url: string, domain: Option<string>, kind: string, reason: Val): Server {
    s.(log := s.log + [ActivityRecord(child.id, child.parentId, url, domain, kind, reason)])
  }

  // ----- The site lists -----

  datatype Gate = Allow | Deny | Pass

  /**
   * The site-list check of the URL and page endpoints: only for a known profile and
   * a non-empty domain; the allow list is consulted first; entries match the domain
   * exactly. Neither the filtering level nor the time restrictions are consulted.
   */
  function SiteGate(child: Option<Profile>, domain: Option<string>): (g: Gate)
    ensures g == Allow <==> child.Some? && domain.Some? && domain.value != [] && domain.value in child.value.allowedSites
    ensures g == Deny <==>
      (child.Some? && domain.Some? && domain.value != []
       && domain.value !in child.value.allowedSites && domain.value in child.value.blockedSites)
  {
    if child.Some? && domain.Some? && domain.value != [] then
      if domain.value in child.value.allowedSites then Allow
      else if domain.value in child.value.blockedSites then Deny
      else Pass
    else Pass
  }

  // ----- POST /text -----

  datatype TextRequest = TextRequest(text: Val, deviceId: Option<string>, url: Option<string>)

  /** `url` in a request body, when it is truthy. */
  predicate Given(url: Option<string>) {
    url.Some? && url.value != []
  }

  function TextHandler(c: Ctx, s: Server, req: TextRequest): (r: (Http, Server))
    ensures !(req.text.Str? && req.text.s != []) ==> r == (BadRequest("text (string) is required"), s)
    ensures req.text.Str? && req.text.s != [] ==>
      var child := ResolveChild(s.profiles, req.deviceId);
      var (v, w') := ModerateText(c.env, s.w, req.text.s, LevelFor(child));
      r.0 == Ok200(v) && r.1.w == w' && r.1.profiles == s.profiles
      && (if child.Some? && Truthy(Field(v, "blocked")) && Given(req.url)
          then r.1.log == s.log + [ActivityRecord(child.value.id, child.value.parentId, req.url.value,
                                   GetDomain(c.hostname, req.url.value), "text", Field(v, "category"))]
          else r.1.log == s.log)
  {
    if !(req.text.Str? && req.text.s != []) then (BadRequest("text (string) is required"), s)
    else
      var child := ResolveChild(s.profiles, req.deviceId);
      var (v, w1) := ModerateText(c.env, s.w, req.text.s, LevelFor(child));
      var s1 := s.(w := w1);
      var s2 := if child.Some? && Truthy(Field(v, "blocked")) && Given(req.url)
        then Record(s1, child.value, req.url.value, GetDomain(c.hostname, req.url.value), "text", Field(v, "category"))
        else s1;
      (Ok200(v), s2)
  }

  // ----- POST /image -----

  datatype ImageRequest = ImageRequest(imageUrls: Val, deviceId: Option<string>, url: Option<string>)

  /** A request entry that is an `http` string. */
  predicate HttpString(v: Val) {
    v.Str? && StartsWith(v.s, "http")
  }

  /** `xs.filter(u => typeof u === 'string' && u.startsWith('http'))`, as strings. */
  function HttpStrings(xs: seq<Val>): (r: seq<string>)
    ensures |r| <= |xs|
    ensures forall i :: 0 <= i < |r| ==> StartsWith(r[i], "http")
    ensures (forall i :: 0 <= i < |xs| ==> !HttpString(xs[i])) ==> r == []
    ensures |xs| > 0 && HttpString(xs[0]) ==> |r| > 0 && r[0] == xs[0].s
    ensures |xs| > 0 && !HttpString(xs[0]) ==> r == HttpStrings(xs[1..])
  {
    if xs == [] then []
    else if HttpString(xs[0]) then [xs[0].s] + HttpStrings(xs[1..])
    else HttpStrings(xs[1..])
  }

  /** `xs.filter(...).slice(0, n)`: the first `n` http strings of the request. */
  function FirstHttp(xs: seq<Val>, n: nat): (r: seq<string>)
    ensures |r| == Min(n, |HttpStrings(xs)|) && r == HttpStrings(xs)[..|r|]
  {
    var hs := HttpStrings(xs);
    if |hs| <= n then hs else hs[..n]
  }

  /** One `moderateImage` call, seen only through what the endpoints rely on. */
  function ImageStep(c: Ctx, w: World, url: string, level: string): (r: (Val, World))
    ensures r.1.calls <= w.calls + 2 && r.1.storeUp == w.storeUp && r.1.now == w.now
    ensures StoreOk(w) ==> StoreOk(r.1) && Coherent(r.0)
  {
    ModerateImage(c.env, w, url, level)
  }

  /** `moderateImage` over each URL in order, threading the world through the calls. */
  function ImageAll(c: Ctx, w: World, urls: seq<string>, level: string): (r: (seq<Val>, World))
    ensures |r.0| == |urls|
    ensures r.1.calls <= w.calls + 2 * |urls| && r.1.storeUp == w.storeUp && r.1.now == w.now
    ensures StoreOk(w) ==> StoreOk(r.1)
    decreases |urls|
  {
    if urls == [] then ([], w)
    else
      var step := ImageStep(c, w, urls[0], level);
      var rest := ImageAll(c, step.1, urls[1..], level);
      ([step.0] + rest.0, rest.1)
  }

  /** `{ ...r, url }` for each verdict and the URL it was computed for. */
  function Enrich(results: seq<Val>, urls: seq<string>): (r: seq<Val>)
    requires |results| == |urls|
    ensures |r| == |results|
    ensures forall i :: 0 <= i < |r| ==> Field(r[i], "url") == Str(urls[i])
    ensures forall i :: 0 <= i < |r| ==> results[i].Obj? ==> Field(r[i], "blocked") == Field(results[i], "blocked")
  {
    seq(|results|, i requires 0 <= i < |results| => Extend(results[i], "url", Str(urls[i])))
  }

  /** `enriched.filter(r => r.blocked)`, in order. */
  function BlockedOnly(vs: seq<Val>): (r: seq<Val>)
    ensures |r| <= |vs|
    ensures forall i :: 0 <= i < |r| ==> Truthy(Field(r[i], "blocked")) && r[i] in vs
    ensures |r| == 0 <==> forall i :: 0 <= i < |vs| ==> !Truthy(Field(vs[i], "blocked"))
    ensures |r| > 0 ==> exists i :: (0 <= i < |vs| && r[0] == vs[i] && Truthy(Field(vs[i], "blocked"))
      && forall j :: 0 <= j < i ==> !Truthy(Field(vs[j], "blocked")))
  {
    if vs == [] then []
    else if Truthy(Field(vs[0], "blocked")) then [vs[0]] + BlockedOnly(vs[1..])
    else
      var rest := BlockedOnly(vs[1..]);
      assert forall j :: 1 <= j < |vs| ==> vs[j] == vs[1..][j - 1];
      rest
  }

  const MaxImagesPerRequest: nat := 10

  /** The image reply: blocked when any verdict is, the blocked verdicts, and every verdict. */
  function ImageReply(enriched: seq<Val>): (b: Val)
    ensures Field(b, "results") == Arr(enriched)
    ensures Field(b, "blockedImages") == Arr(BlockedOnly(enriched))
    ensures Field(b, "blocked") == Bool(true) <==> exists i :: 0 <= i < |enriched| && Truthy(Field(enriched[i], "blocked"))
    ensures Field(b, "blocked") == Bool(false) <==> forall i :: 0 <= i < |enriched| ==> !Truthy(Field(enriched[i], "blocked"))
  {
    var blocked := BlockedOnly(enriched);
    Obj(map["blocked" := Bool(|blocked| > 0), "blockedImages" := Arr(blocked), "results" := Arr(enriched)])
  }

  function ImageHandler(c: Ctx, s: Server, req: ImageRequest): (r: (Http, Server))
    ensures !(req.imageUrls.Arr? && |req.imageUrls.items| > 0) ==> r == (BadRequest("imageUrls (array) is required"), s)
    ensures req.imageUrls.Arr? && |req.imageUrls.items| > 0 ==>
      var child := ResolveChild(s.profiles, req.deviceId);
      var urls := FirstHttp(req.imageUrls.items, MaxImagesPerRequest);
      var (results, w') := ImageAll(c, s.w, urls, LevelFor(child));
      |urls| <= MaxImagesPerRequest
      && r.0 == Ok200(ImageReply(Enrich(results, urls))) && r.1.w == w' && r.1.profiles == s.profiles
      && (child.None? || !Given(req.url) ==> r.1.log == s.log)
      && |r.1.log| <= |s.log| + 1
      && (child.Some? && Given(req.url) && Field(r.0.body, "blocked") == Bool(true) ==>
            r.1.log == s.log + [ActivityRecord(child.value.id, child.value.parentId, req.url.value,
                                               GetDomain(c.hostname, req.url.value), "image",
                                               Field(BlockedOnly(Enrich(results, urls))[0], "category"))])
      && (!(child.Some? && Given(req.url) && Field(r.0.body, "blocked") == Bool(true)) ==> r.1.log == s.log)
    ensures StoreOk(s.w) ==> StoreOk(r.1.w)
  {
    if !(req.imageUrls.Arr? && |req.imageUrls.items| > 0) then (BadRequest("imageUrls (array) is required"), s)
    else
      var child := ResolveChild(s.profiles, req.deviceId);
      var urls := FirstHttp(req.imageUrls.items, MaxImagesPerRequest);
      var (results, w1) := ImageAll(c, s.w, urls, LevelFor(child));
      var enriched := Enrich(results, urls);
      var blocked := BlockedOnly(enriched);
      var s1 := s.(w := w1);
      var s2 := if child.Some? && |blocked| > 0 && Given(req.url)
        then Record(s1, child.value, req.url.value, GetDomain(c.hostname, req.url.value), "image",
                    Field(blocked[0], "category"))
        else s1;
      (Ok200(ImageReply(enriched)), s2)
  }

  // ----- POST /url -----

  datatype UrlRequest = UrlRequest(url: Val, deviceId: Option<string>)

  const AllowListed: Val :=
    Obj(map["blocked" := Bool(false), "status" := Str("SAFE"), "reason" := Str("allowlisted"), "confidence" := Num(100)])

  const BlockListed: Val :=
    Obj(map["blocked" := Bool(true), "status" := Str("UNSAFE"), "reason" := Str("manual_blocklist"), "confidence" := Num(100)])

  function UrlHandler(c: Ctx, s: Server, req: UrlRequest): (r: (Http, Server))
    ensures !(req.url.Str? && req.url.s != []) ==> r == (BadRequest("url (string) is required"), s)
    ensures req.url.Str? && req.url.s != [] ==>
      var child := ResolveChild(s.profiles, req.deviceId);
      var domain := GetDomain(c.hostname, req.url.s);
      match SiteGate(child, domain)
      case Allow => r == (Ok200(AllowListed), s)
      case Deny =>
        r == (Ok200(BlockListed), Record(s, child.value, req.url.s, domain, "url", Str("manual_blocklist")))
      case Pass =>
        var (v, w') := ModerateUrl(c.env, s.w, req.url.s);
        r.0 == Ok200(v) && r.1.w == w' && r.1.profiles == s.profiles
        && (if child.Some? && Truthy(Field(v, "blocked"))
            then r.1.log == s.log + [ActivityRecord(child.value.id, child.value.parentId, req.url.s, domain, "url",
                                                    Field(v, "reason"))]
            else r.1.log == s.log)
  {
    if !(req.url.Str? && req.url.s != []) then (BadRequest("url (string) is required"), s)
    else
      var url := req.url.s;
      var child := ResolveChild(s.profiles, req.deviceId);
      var domain := GetDomain(c.hostname, url);
      match SiteGate(child, domain)
      case Allow => (Ok200(AllowListed), s)
      case Deny => (Ok200(BlockListed), Record(s, child.value, url, domain, "url", Str("manual_blocklist")))
      case Pass =>
        var (v, w1) := ModerateUrl(c.env, s.w, url);
        var s1 := s.(w := w1);
        var s2 := if child.Some? && Truthy(Field(v, "blocked"))
          then Record(s1, child.value, url, domain, "url", Field(v, "reason"))
          else s1;
        (Ok200(v), s2)
  }

  // ----- POST /page -----

  datatype PageRequest = PageRequest(url: string, text: Val, imageUrls: Val, deviceId: Option<string>)

  const MinPageText: nat := 50
  const MaxPageImages: nat := 5

  /** `{ blocked: false, status: 'SAFE' }`: the stand-in for text that is not classified. */
  const SkippedText: Val := Obj(map["blocked" := Bool(false), "status" := Str("SAFE")])

  /**
   * Whether the handler's body throws: truthy text that is not a string has no `trim`;
   * a non-empty string list has no `filter`; and an object list throws either while its
   * `length` is compared with 0 (when that value cannot be converted) or at `filter`
   * (when the converted `length` is positive, as for `1`, `"1"`, `true`, `[1]` or `"0.5"`).
   */
  predicate PageThrows(req: PageRequest) {
    (Truthy(req.text) && !req.text.Str?)
    || (req.imageUrls.Str? && req.imageUrls.s != [])
    || (req.imageUrls.Obj? && ObjectLengthThrows(Field(req.imageUrls, "length")))
  }

  /** `list.length > 0` followed by `list.filter`, for a list that is an object with this `length`. */
  predicate ObjectLengthThrows(length: Val) {
    ConversionThrows(length) || Positive(length)
  }

  /** `text && text.trim().length > 50`: page text long enough to classify. */
  predicate LongText(req: PageRequest) {
    req.text.Str? && |Trim(req.text.s)| > MinPageText
  }

  /**
   * The world once the calls started before the handler throws have run: `moderateUrl`
   * always starts first; `moderateText` starts as well when the text is long enough,
   * since then only the image list can have thrown. Their answers are dropped, but
   * their calls and cache writes stay.
   */
  function StartedBeforeThrow(c: Ctx, w: World, req: PageRequest, level: string): (r: World)
    ensures StoreOk(w) ==> StoreOk(r)
  {
    var w1 := ModerateUrl(c.env, w, req.url).1;
    if LongText(req) then ModerateText(c.env, w1, req.text.s, level).1 else w1
  }

  /** `imageUrls?.length > 0` for an array. */
  predicate HasImages(req: PageRequest) {
    req.imageUrls.Arr? && |req.imageUrls.items| > 0
  }

  /** The combined verdict: blocked when any part is, with the first blocked part's reason. */
  function Aggregate(urlResult: Val, textResult: Val, imageResults: seq<Val>): (r: (Val, Val))
    ensures Truthy(r.0) <==>
      (Truthy(Field(urlResult, "blocked")) || Truthy(Field(textResult, "blocked"))
       || exists i :: 0 <= i < |imageResults| && Truthy(Field(imageResults[i], "blocked")))
    ensures Truthy(Field(urlResult, "blocked")) ==> r.1 == Field(urlResult, "reason")
    ensures !Truthy(Field(urlResult, "blocked")) && Truthy(Field(textResult, "blocked")) ==>
      r.1 == Field(textResult, "category")
    ensures (!Truthy(Field(urlResult, "blocked")) && !Truthy(Field(textResult, "blocked"))
      && forall i :: 0 <= i < |imageResults| ==> !Truthy(Field(imageResults[i], "blocked"))) ==> r.1 == Null
    ensures !Truthy(Field(urlResult, "blocked")) && !Truthy(Field(textResult, "blocked")) ==>
      forall i :: (0 <= i < |imageResults| && Truthy(Field(imageResults[i], "blocked"))
        && (forall j :: 0 <= j < i ==> !Truthy(Field(imageResults[j], "blocked"))))
        ==> r.1 == Field(imageResults[i], "category")
  {
    var blockedImages := BlockedOnly(imageResults);
    var isBlocked := Or(Or(Field(urlResult, "blocked"), Field(textResult, "blocked")), Bool(|blockedImages| > 0));
    var reason :=
      if Truthy(Field(urlResult, "blocked")) then Field(urlResult, "reason")
      else if Truthy(Field(textResult, "blocked")) then Field(textResult, "category")
      else if |blockedImages| > 0 then Field(blockedImages[0], "category")
      else Null;
    FirstBlockedUnique(imageResults, blockedImages);
    (isBlocked, reason)
  }

  /** The first blocked entry that `BlockedOnly` finds is the leftmost blocked entry. */
  lemma FirstBlockedUnique(vs: seq<Val>, blocked: seq<Val>)
    requires blocked == BlockedOnly(vs)
    ensures forall i :: (0 <= i < |vs| && Truthy(Field(vs[i], "blocked"))
      && (forall j :: 0 <= j < i ==> !Truthy(Field(vs[j], "blocked")))) ==> |blocked| > 0 && blocked[0] == vs[i]
  {
    forall i | 0 <= i < |vs| && Truthy(Field(vs[i], "blocked")) && (forall j :: 0 <= j < i ==> !Truthy(Field(vs[j], "blocked")))
      ensures |blocked| > 0 && blocked[0] == vs[i]
    {
      FirstBlockedAt(vs, i);
    }
  }

  /** When entry `i` is blocked and none before it is, `BlockedOnly` starts with entry `i`. */
  lemma {:induction false} FirstBlockedAt(vs: seq<Val>, i: nat)
    requires i < |vs| && Truthy(Field(vs[i], "blocked"))
    requires forall j :: 0 <= j < i ==> !Truthy(Field(vs[j], "blocked"))
    ensures |BlockedOnly(vs)| > 0 && BlockedOnly(vs)[0] == vs[i]
  {
    if i > 0 {
      assert !Truthy(Field(vs[0], "blocked"));
      assert forall j :: 0 <= j < i - 1 ==> vs[1..][j] == vs[j + 1];
      FirstBlockedAt(vs[1..], i - 1);
    }
  }

  /**
   * `details.images`: one entry per classified image. `fixed` false is the code as
   * written, which takes each entry's `url` from the unfiltered request list; true
   * takes it from the list of URLs actually classified.
   */
  function ImageDetails(requested: seq<Val>, checked: seq<string>, results: seq<Val>, fixed: bool): (r: seq<Val>)
    requires |results| == |checked|
    ensures |r| == |results|
    ensures fixed ==> forall i :: 0 <= i < |r| ==> Field(r[i], "url") == Str(checked[i])
    ensures !fixed ==> forall i :: 0 <= i < |r| ==> Field(r[i], "url") == (if i < |requested| then requested[i] else Undef)
    ensures forall i :: 0 <= i < |r| ==> Field(r[i], "blocked") == Field(results[i], "blocked")
  {
    seq(|results|, i requires 0 <= i < |results| =>
      Obj(map["url" := (if fixed then Str(checked[i]) else if i < |requested| then requested[i] else Undef),
              "blocked" := Field(results[i], "blocked"), "category" := Field(results[i], "category")]))
  }

  /** The image URLs the page endpoint classifies: the first five http strings of the request. */
  function CheckedImages(req: PageRequest): (r: seq<string>)
    ensures |r| <= MaxPageImages
    ensures forall i :: 0 <= i < |r| ==> StartsWith(r[i], "http")
  {
    if HasImages(req) then FirstHttp(req.imageUrls.items, MaxPageImages) else []
  }

  /** The reply's `details.images` has one entry per URL in `urls`, each naming its URL. */
  predicate DetailsNameImages(body: Val, urls: seq<string>) {
    var images := Field(Field(body, "details"), "images");
    images.Arr? && |images.items| == |urls|
    && forall i :: 0 <= i < |urls| ==> Field(images.items[i], "url") == Str(urls[i])
  }

  /** The page reply: the combined verdict and the details of each part. */
  function PageReply(urlResult: Val, textResult: Val, requested: seq<Val>, checked: seq<string>,
                     imageResults: seq<Val>, fixed: bool): (b: Val)
    requires |imageResults| == |checked|
    ensures Field(b, "blocked") == Aggregate(urlResult, textResult, imageResults).0
    ensures Field(b, "reason") == Aggregate(urlResult, textResult, imageResults).1
    ensures fixed ==> DetailsNameImages(b, checked)
  {
    var (isBlocked, reason) := Aggregate(urlResult, textResult, imageResults);
    var details := Obj(map[
      "url" := Obj(map["blocked" := Field(urlResult, "blocked"), "reason" := Field(urlResult, "reason")]),
      "text" := Obj(map["blocked" := Field(textResult, "blocked"), "category" := Field(textResult, "category")]),
      "images" := Arr(ImageDetails(requested, checked, imageResults, fixed))]);
    Obj(map["blocked" := isBlocked, "reason" := reason, "details" := details])
  }

  /** The classifying part of the page endpoint, for a request that neither list settles and that does not throw. */
  function PageClassified(c: Ctx, s: Server, req: PageRequest, child: Option<Profile>, domain: Option<string>,
                          fixed: bool): (r: (Http, Server))
    requires !PageThrows(req)
    ensures r.0.status == 200 && r.1.profiles == s.profiles
    ensures child.None? ==> r.1.log == s.log
    ensures child.Some? ==> r.1.log == s.log || |r.1.log| == |s.log| + 1
    ensures child.Some? && Truthy(Field(r.0.body, "blocked")) ==>
      r.1.log == s.log + [ActivityRecord(child.value.id, child.value.parentId, req.url, domain, "page",
                                         Field(r.0.body, "reason"))]
    ensures !(child.Some? && Truthy(Field(r.0.body, "blocked"))) ==> r.1.log == s.log
    ensures StoreOk(s.w) ==> StoreOk(r.1.w)
    ensures fixed ==> DetailsNameImages(r.0.body, CheckedImages(req))
  {
    var level := LevelFor(child);
    var (urlResult, w1) := ModerateUrl(c.env, s.w, req.url);
    var (textResult, w2) :=
      if LongText(req) then ModerateText(c.env, w1, req.text.s, level)
      else (SkippedText, w1);
    var checked := CheckedImages(req);
    var (imageResults, w3) := ImageAll(c, w2, checked, level);
    var (isBlocked, reason) := Aggregate(urlResult, textResult, imageResults);
    var requested := if req.imageUrls.Arr? then req.imageUrls.items else [];
    var s1 := s.(w := w3);
    var s2 := if child.Some? && Truthy(isBlocked) then Record(s1, child.value, req.url, domain, "page", reason) else s1;
    (Ok200(PageReply(urlResult, textResult, requested, checked, imageResults, fixed)), s2)
  }

  /** `moderatePageHandler`, with the image details chosen by `fixed`. */
  function PageWith(c: Ctx, s: Server, req: PageRequest, fixed: bool): (r: (Http, Server))
    ensures req.url == [] ==> r == (BadRequest("url is required"), s)
    ensures req.url != [] ==>
      var child := ResolveChild(s.profiles, req.deviceId);
      var domain := GetDomain(c.hostname, req.url);
      match SiteGate(child, domain)
      case Allow => r == (Ok200(Obj(map["blocked" := Bool(false), "reason" := Str("allowlisted")])), s)
      case Deny => r == (Ok200(Obj(map["blocked" := Bool(true), "reason" := Str("manual_blocklist")])),
                         Record(s, child.value, req.url, domain, "url", Str("manual_blocklist")))
      case Pass =>
        (PageThrows(req) ==> r.0 == ServerError("Page moderation error") && r.1.log == s.log && r.1.profiles == s.profiles)
        && (PageThrows(req) && !LongText(req) ==> r.1.w == ModerateUrl(c.env, s.w, req.url).1)
        && (PageThrows(req) && LongText(req) ==>
              r.1.w == ModerateText(c.env, ModerateUrl(c.env, s.w, req.url).1, req.text.s, LevelFor(child)).1)
        && (!PageThrows(req) ==> r == PageClassified(c, s, req, child, domain, fixed))
    ensures StoreOk(s.w) ==> StoreOk(r.1.w)
  {
    if req.url == [] then (BadRequest("url is required"), s)
    else
      var child := ResolveChild(s.profiles, req.deviceId);
      var domain := GetDomain(c.hostname, req.url);
      match SiteGate(child, domain)
      case Allow => (Ok200(Obj(map["blocked" := Bool(false), "reason" := Str("allowlisted")])), s)
      case Deny =>
        (Ok200(Obj(map["blocked" := Bool(true), "reason" := Str("manual_blocklist")])),
         Record(s, child.value, req.url, domain, "url", Str("manual_blocklist")))
      case Pass =>
        if PageThrows(req) then (ServerError("Page moderation error"), s.(w := StartedBeforeThrow(c, s.w, req, LevelFor(child))))
        else PageClassified(c, s, req, child, domain, fixed)
  }

  /** The page endpoint as written. */
  function PageHandler(c: Ctx, s: Server, req: PageRequest): (r: (Http, Server))
    ensures req.url == [] ==> r == (BadRequest("url is required"), s)
    ensures r.1.profiles == s.profiles
    ensures req.url != [] ==>
      var child := ResolveChild(s.profiles, req.deviceId);
      var gate := SiteGate(child, GetDomain(c.hostname, req.url));
      (gate == Pass && PageThrows(req) ==> r.0 == ServerError("Page moderation error") && r.1.log == s.log)
      && (gate == Pass && !PageThrows(req) ==>
            r.0.status == 200
            && (child.Some? && Truthy(Field(r.0.body, "blocked")) <==> |r.1.log| == |s.log| + 1)
            && (!(child.Some? && Truthy(Field(r.0.body, "blocked"))) ==> r.1.log == s.log))
      && (gate != Pass ==> r.0.status == 200 && (gate == Deny <==> |r.1.log| == |s.log| + 1))
    ensures StoreOk(s.w) ==> StoreOk(r.1.w)
  {
    PageWith(c, s, req, false)
  }

  /** The page endpoint with image details that name the URL each verdict is for. */
  function PageHandlerCorrected(c: Ctx, s: Server, req: PageRequest): (r: (Http, Server))
    ensures req.url == [] ==> r.0.status == 400
    ensures StoreOk(s.w) ==> StoreOk(r.1.w)
    ensures req.url != [] && !PageThrows(req)
            && SiteGate(ResolveChild(s.profiles, req.deviceId), GetDomain(c.hostname, req.url)) == Pass ==>
              r.0.status == 200 && DetailsNameImages(r.0.body, CheckedImages(req))
  {
    PageWith(c, s, req, true)
  }

  /**
   * An object image list whose `length` converts to a number makes the handler throw
   * exactly when that number is positive.
   */
  lemma ObjectLengthAgrees(length: Val)
    requires ToNumber(length).Some?
    ensures ObjectLengthThrows(length) <==> ToNumber(length).value > 0
  {
    ConvertedDoesNotThrow(length);
    PositiveAgrees(length);
  }

  /**
   * A positive fraction as the `length` of an object image list, `{ length: "d.f" }`, makes
   * the handler throw, so a URL that neither list settles gets the 500 reply.
   */
  lemma FractionalLengthAnswers500(c: Ctx, s: Server, req: PageRequest, d: string, f: string)
    requires req.url != []
    requires SiteGate(ResolveChild(s.profiles, req.deviceId), GetDomain(c.hostname, req.url)) == Pass
    requires req.imageUrls.Obj? && Field(req.imageUrls, "length") == Str(d + "." + f)
    requires d != [] && Digits(d) && Digits(f) && (DecimalValue(d) > 0 || DecimalValue(f) > 0)
    ensures PageHandler(c, s, req).0 == ServerError("Page moderation error")
  {
    FractionPositive(d, f);
  }

  // ----- Properties across the endpoints -----

  /** A domain on both lists is allowed: the allow list wins, and nothing is logged or classified. */
  lemma AllowListWins(c: Ctx, s: Server, req: UrlRequest)
    requires req.url.Str? && req.url.s != []
    requires ResolveChild(s.profiles, req.deviceId).Some?
    requires GetDomain(c.hostname, req.url.s).Some? && GetDomain(c.hostname, req.url.s).value != []
    requires GetDomain(c.hostname, req.url.s).value in ResolveChild(s.profiles, req.deviceId).value.allowedSites
    ensures UrlHandler(c, s, req) == (Ok200(AllowListed), s)
  {
  }

  /**
   * The `off` level does not switch classification off: a profile at level `off`
   * whose domain is on neither list still has the URL classified.
   */
  lemma OffLevelStillClassified(c: Ctx, s: Server, req: UrlRequest)
    requires req.url.Str? && req.url.s != []
    requires ResolveChild(s.profiles, req.deviceId).Some?
    requires ResolveChild(s.profiles, req.deviceId).value.filteringLevel == Off
    requires SiteGate(ResolveChild(s.profiles, req.deviceId), GetDomain(c.hostname, req.url.s)) == Pass
    requires !Hit(c.env, s.w, UrlKey(c.env.sha, req.url.s))
    ensures UrlHandler(c, s, req).1.w.calls == s.w.calls + 1
  {
  }

  /**
   * The as-written page details mislabel images: when the first requested entry is
   * not an http string but the second is, the first detail names the skipped entry,
   * not the image its verdict is for.
   */
  lemma PageDetailsMislabelImages(requested: seq<Val>, results: seq<Val>)
    requires |requested| >= 2 && !HttpString(requested[0]) && HttpString(requested[1])
    requires |results| == |FirstHttp(requested, MaxPageImages)|
    ensures var checked := FirstHttp(requested, MaxPageImages);
            |checked| > 0
            && Field(ImageDetails(requested, checked, results, false)[0], "url") == requested[0]
            && Field(ImageDetails(requested, checked, results, false)[0], "url") != Str(checked[0])
  {
    var hs := HttpStrings(requested);
    assert hs == HttpStrings(requested[1..]);
    assert |FirstHttp(requested, MaxPageImages)| > 0;
    assert requested[1..][0] == requested[1];
    assert |hs| > 0 && hs[0] == requested[1].s;
  }
}

=== FILE: numbers.dfy ===
/**
 * JavaScript's conversion of a JSON value to a number (`ToNumber`, as applied by the
 * `-` in `p.index - 1`), for the purpose the batch code has for it: indexing an array.
 *
 * A numeral is read exactly: the result is its integer value, or None when the
 * conversion gives NaN or the numeral's value is not an integer. Either way a
 * non-integer names no array element, so None covers both.
 */
module Numbers {
  import opened Base
  import opened Strings
  import opened Json

  predicate Digits(s: string) {
    forall i :: 0 <= i < |s| ==> IsDigit(s[i])
  }

  function Pow10(n: nat): (r: nat)
    ensures r >= 1
  {
    if n == 0 then 1 else 10 * Pow10(n - 1)
  }

  /** The value of a digit in radix 2, 8 or 16, or None when it is not a digit of that radix. */
  function DigitIn(c: char, radix: nat): (r: Option<nat>)
    ensures r.Some? ==> r.value < radix
  {
    var d := if '0' <= c <= '9' then c as int - '0' as int
             else if 'a' <= c <= 'f' then c as int - 'a' as int + 10
             else if 'A' <= c <= 'F' then c as int - 'A' as int + 10
             else 16;
    if d < radix then Some(d) else None
  }

  predicate DigitsIn(s: string, radix: nat) {
    forall i :: 0 <= i < |s| ==> DigitIn(s[i], radix).Some?
  }

  /** The value of a digit string in the given radix, most significant digit first. */
  function RadixValue(s: string, radix: nat): (r: nat)
    requires DigitsIn(s, radix)
  {
    if |s| == 0 then 0
    else RadixValue(s[..|s| - 1], radix) * radix + DigitIn(s[|s| - 1], radix).value
  }

  /** `0x…`, `0o…` or `0b…` after the prefix: at least one digit of the radix. */
  function PrefixedValue(s: string, radix: nat): (r: Option<int>)
    ensures r.Some? <==> s != [] && DigitsIn(s, radix)
    ensures r.Some? ==> r.value == RadixValue(s, radix)
  {
    if s != [] && DigitsIn(s, radix) then Some(RadixValue(s, radix)) else None
  }

  /** `d` divided by ten to the `n`, removing one trailing zero digit at a time; None when inexact. */
  function Shrink(d: nat, n: nat): (r: Option<nat>)
    ensures r.Some? ==> r.value * Pow10(n) == d
    decreases n
  {
    if n == 0 then Some(d)
    else if d % 10 == 0 then
      var r := Shrink(d / 10, n - 1);
      assert r.Some? ==> r.value * Pow10(n) == 10 * (r.value * Pow10(n - 1));
      r
    else None
  }

  /** The integer equal to `d` times ten to the `p`, or None when that is not an integer. */
  function Scale(d: nat, p: int): (r: Option<int>)
    ensures p >= 0 ==> r == Some(d * Pow10(p))
    ensures p < 0 && r.Some? ==> r.value * Pow10(-p) == d
    ensures r.Some? ==> r.value >= 0
  {
    if p >= 0 then Some(d * Pow10(p))
    else match Shrink(d, -p) case Some(k) => Some(k) case None => None
  }

  /**
   * A decimal mantissa `digits`, `digits.digits`, `digits.` or `.digits`, with at least one digit:
   * its digits read as one integer, and how many of them follow the point.
   */
  function Mantissa(m: string): (r: Option<(nat, nat)>)
  {
    var dot := IndexOfChar(m, '.');
    var whole := if dot.Some? then m[..dot.value] else m;
    var frac := if dot.Some? then m[dot.value + 1..] else [];
    if |whole| + |frac| > 0 && Digits(whole) && Digits(frac) then
      Some((PointedValue(whole, frac), |frac|))
    else None
  }

  /** The digits on both sides of the point, read as one integer. */
  function PointedValue(whole: string, frac: string): nat
    requires Digits(whole) && Digits(frac)
  {
    DecimalValue(whole) * Pow10(|frac|) + DecimalValue(frac)
  }

  /** An exponent after `e` or `E`: an optional sign, then at least one digit. */
  function Exponent(e: string): (r: Option<int>)
  {
    var sign := if e != [] && e[0] == '-' then -1 else 1;
    var ds := if e != [] && (e[0] == '+' || e[0] == '-') then e[1..] else e;
    if ds != [] && Digits(ds) then Some(sign * DecimalValue(ds)) else None
  }

  /**
   * An unsigned decimal numeral, a mantissa then optionally `e` or `E` and an exponent,
   * read exactly: its digits as one integer and the power of ten that scales them.
   */
  function Decimal(u: string): (r: Option<(nat, int)>)
  {
    var mark := match IndexOfChar(u, 'e') case Some(i) => Some(i) case None => IndexOfChar(u, 'E');
    var m := if mark.Some? then u[..mark.value] else u;
    var exp := if mark.Some? then Exponent(u[mark.value + 1..]) else Some(0);
    match Mantissa(m)
    case None => None
    case Some(mant) => if exp.None? then None else Some((mant.0, exp.value - mant.1))
  }

  /** The integer an unsigned decimal numeral names, or None when it is malformed or not an integer. */
  function Unsigned(u: string): (r: Option<int>)
  {
    match Decimal(u)
    case None => None
    case Some(d) => Scale(d.0, d.1)
  }

  function Negated(r: Option<int>): Option<int> {
    if r.Some? then Some(-r.value) else None
  }

  /**
   * `Number(s)` for a string: surrounding white space is ignored and an empty string is 0;
   * `0x`, `0o` and `0b` read hexadecimal, octal and binary digits with no sign allowed;
   * otherwise an optional sign and a decimal numeral. Anything else, `Infinity` included, gives None.
   */
  function StringToNumber(s: string): (r: Option<int>)
  {
    Numeral(Trim(s))
  }

  /** A numeral with no surrounding white space, as `StringToNumber` reads it. */
  function Numeral(t: string): (r: Option<int>)
    ensures t == [] ==> r == Some(0)
  {
    if t == [] then Some(0)
    else if |t| >= 2 && t[0] == '0' && (t[1] == 'x' || t[1] == 'X') then PrefixedValue(t[2..], 16)
    else if |t| >= 2 && t[0] == '0' && (t[1] == 'o' || t[1] == 'O') then PrefixedValue(t[2..], 8)
    else if |t| >= 2 && t[0] == '0' && (t[1] == 'b' || t[1] == 'B') then PrefixedValue(t[2..], 2)
    else if t[0] == '+' then Unsigned(t[1..])
    else if t[0] == '-' then Negated(Unsigned(t[1..]))
    else Unsigned(t)
  }

  /**
   * `Number(v)` for a JSON value. `null` is 0 and a boolean 1 or 0; an object is NaN.
   * An array converts through its comma-joined string: an empty one is 0, one with two or
   * more elements holds a comma and is NaN, and a one-element array reads as its element,
   * except that `null` or `undefined` inside it reads as the empty string (0) and a boolean
   * as the word `true` or `false` (NaN).
   */
  function ToNumber(v: Val): (r: Option<int>)
    ensures v.Num? ==> r == Some(v.n)
    ensures v.Str? ==> r == StringToNumber(v.s)
    ensures v.Arr? && |v.items| == 1 && !v.items[0].Bool? && !v.items[0].Null? && !v.items[0].Undef? ==>
      r == ToNumber(v.items[0])
    ensures v.Arr? && |v.items| > 1 ==> r.None?
    decreases v
  {
    match v
    case Undef => None
    case Null => Some(0)
    case Bool(b) => Some(if b then 1 else 0)
    case Num(n) => Some(n)
    case Str(s) => StringToNumber(s)
    case Obj(_) => None
    case Arr(items) =>
      if |items| == 0 then Some(0)
      else if |items| > 1 then None
      else
        match items[0]
        case Undef => Some(0)
        case Null => Some(0)
        case Bool(_) => None
        case _ => ToNumber(items[0])
  }

  /**
   * Whether converting `v` to a primitive throws. JSON has no functions, so an object's own
   * `toString` key always holds a non-function: it hides `Object.prototype.toString`, and
   * `valueOf` gives back the object itself, so no primitive is found and a `TypeError` is
   * thrown. An array converts through `join`, which converts every element.
   */
  predicate ConversionThrows(v: Val)
    decreases v
  {
    match v
    case Obj(fields) => "toString" in fields
    case Arr(items) => exists i | 0 <= i < |items| :: ConversionThrows(items[i])
    case _ => false
  }

  /**
   * `v > 0` in JavaScript for a value whose conversion does not throw: its number is positive.
   * A fraction such as `0.5` counts, and so do `Infinity` and `+Infinity`; NaN does not.
   */
  predicate Positive(v: Val)
    decreases v
  {
    match v
    case Bool(b) => b
    case Num(n) => n > 0
    case Str(s) => NumeralPositive(Trim(s))
    case Arr(items) =>
      |items| == 1 && !items[0].Undef? && !items[0].Null? && !items[0].Bool? && Positive(items[0])
    case _ => false
  }

  /** A numeral with no surrounding white space names a positive number. */
  predicate NumeralPositive(t: string) {
    if t == [] then false
    else if |t| >= 2 && t[0] == '0' && (t[1] == 'x' || t[1] == 'X') then PositiveIn(t[2..], 16)
    else if |t| >= 2 && t[0] == '0' && (t[1] == 'o' || t[1] == 'O') then PositiveIn(t[2..], 8)
    else if |t| >= 2 && t[0] == '0' && (t[1] == 'b' || t[1] == 'B') then PositiveIn(t[2..], 2)
    else if t == "Infinity" || t == "+Infinity" then true
    else if t[0] == '+' then DecimalPositive(t[1..])
    else if t[0] == '-' then false
    else DecimalPositive(t)
  }

  predicate PositiveIn(s: string, radix: nat) {
    PrefixedValue(s, radix).Some? && PrefixedValue(s, radix).value > 0
  }

  /** An unsigned decimal numeral with a digit other than zero. */
  predicate DecimalPositive(u: string) {
    Decimal(u).Some? && Decimal(u).value.0 > 0
  }

  // ----- Properties -----

  /** A string of decimal digits reads as its decimal value, as `parseInt` would read it. */
  lemma DigitsReadDecimal(d: string)
    requires d != [] && Digits(d)
    ensures StringToNumber(d) == Some(DecimalValue(d))
  {
    assert IsDigit(d[0]) && IsDigit(d[|d| - 1]);
    TrimOfTrimmed(d);
    NumeralOfDecimal(d);
    UnsignedDigits(d);
  }

  /** A leading `+` changes nothing and a leading `-` negates. */
  lemma SignedDigitsRead(d: string, sign: char)
    requires d != [] && Digits(d) && (sign == '+' || sign == '-')
    ensures sign == '+' ==> StringToNumber([sign] + d) == Some(DecimalValue(d))
    ensures sign == '-' ==> StringToNumber([sign] + d) == Some(-(DecimalValue(d) as int))
  {
    assert IsDigit(d[|d| - 1]);
    SignTrimmed(d, sign);
    NumeralSigned(d, sign);
    UnsignedDigits(d);
  }

  /** A fraction of zeros names the same integer: `1.0`, `1.00` and `1.` all read as 1. */
  lemma ZeroFractionRead(d: string, z: string)
    requires d != [] && Digits(d)
    requires forall i :: 0 <= i < |z| ==> z[i] == '0'
    ensures StringToNumber(d + "." + z) == Some(DecimalValue(d))
  {
    var s := d + "." + z;
    assert s[0] == d[0] && IsDigit(d[0]);
    assert s[|s| - 1] == '.' || s[|s| - 1] == '0';
    TrimOfTrimmed(s);
    NumeralOfDecimal(s);
    ZerosHaveNoValue(z);
    UnsignedZeroFraction(d, z);
  }

  /** An exponent scales by a power of ten: `1e0` is 1 and `2e3` is 2000. */
  lemma ExponentRead(d: string, k: string)
    requires d != [] && Digits(d) && k != [] && Digits(k)
    ensures StringToNumber(d + "e" + k) == Some(DecimalValue(d) * Pow10(DecimalValue(k)))
  {
    var s := d + "e" + k;
    assert s[0] == d[0] && IsDigit(d[0]);
    assert s[|s| - 1] == k[|k| - 1] && IsDigit(k[|k| - 1]);
    TrimOfTrimmed(s);
    NumeralOfDecimal(s);
    UnsignedExponent(d, k);
  }

  /** `0x` followed by hexadecimal digits reads them in base 16. */
  lemma HexRead(h: string)
    requires h != [] && DigitsIn(h, 16)
    ensures StringToNumber("0x" + h) == Some(RadixValue(h, 16))
  {
    var s := "0x" + h;
    assert DigitIn(h[|h| - 1], 16).Some?;
    assert s[|s| - 1] == h[|h| - 1];
    TrimOfTrimmed(s);
    assert s[2..] == h;
  }

  /** A fraction whose last digit is not zero is not an integer, so it reads as None. */
  lemma FractionReadsNone(d: string, f: string)
    requires Digits(d) && f != [] && Digits(f) && f[|f| - 1] != '0'
    ensures Unsigned(d + "." + f).None?
  {
    UnsignedPointed(d, f);
    PointedLastDigit(d, f);
    InexactScale(PointedValue(d, f), |f|);
  }

  /** The digits of `d.f` end in the last digit of `f`. */
  lemma PointedLastDigit(d: string, f: string)
    requires Digits(d) && f != [] && Digits(f) && f[|f| - 1] != '0'
    ensures PointedValue(d, f) % 10 != 0
  {
    var a, b := DecimalValue(d), DecimalValue(f);
    LastDigitMod(f);
    assert b % 10 != 0;
    TenthOff(a, |f|, b);
  }

  /** Scaling down by at least one power of ten fails when the last digit is not zero. */
  lemma InexactScale(v: nat, n: nat)
    requires n >= 1 && v % 10 != 0
    ensures Scale(v, -(n as int)).None?
  {
  }

  /** Spellings of the number a digit string `d` names: `d`, `+d`, `d.0` and `[d]`. */
  function Spellings(d: string): seq<Val> {
    [Str(d), Str(['+'] + d), Str(d + ".0"), Arr([Str(d)])]
  }

  /** Every spelling in `Spellings(d)` converts to the value of `d`. */
  lemma SpellingsRead(d: string)
    requires d != [] && Digits(d)
    ensures forall v | v in Spellings(d) :: ToNumber(v) == Some(DecimalValue(d))
  {
    DigitsReadDecimal(d);
    SignedDigitsRead(d, '+');
    PointZeroRead(d);
  }

  lemma PointZeroRead(d: string)
    requires d != [] && Digits(d)
    ensures StringToNumber(d + ".0") == Some(DecimalValue(d))
  {
    ZeroFractionRead(d, "0");
    assert d + "." + "0" == d + ".0";
  }

  /** Where `ToNumber` gives an integer, `Positive` says exactly whether it is above zero. */
  lemma {:induction false} PositiveAgrees(v: Val)
    requires ToNumber(v).Some?
    ensures Positive(v) <==> ToNumber(v).value > 0
    decreases v
  {
    match v
    case Str(s) => NumeralPositiveAgrees(Trim(s));
    case Arr(items) =>
      if |items| == 1 && !items[0].Undef? && !items[0].Null? && !items[0].Bool? {
        PositiveAgrees(items[0]);
      }
    case _ =>
  }

  /** A value that converts to a number converts without throwing. */
  lemma {:induction false} ConvertedDoesNotThrow(v: Val)
    requires ToNumber(v).Some?
    ensures !ConversionThrows(v)
    decreases v
  {
    match v
    case Arr(items) =>
      if |items| == 1 && !items[0].Undef? && !items[0].Null? && !items[0].Bool? {
        ConvertedDoesNotThrow(items[0]);
      }
    case _ =>
  }

  lemma NumeralPositiveAgrees(t: string)
    requires Numeral(t).Some?
    ensures NumeralPositive(t) <==> Numeral(t).value > 0
  {
    if t != [] && !(|t| >= 2 && t[0] == '0' && t[1] in "xXoObB") {
      NotInfinity(t);
      if t[0] == '+' {
        assert Numeral(t) == Unsigned(t[1..]);
        DecimalPositiveAgrees(t[1..]);
      } else if t[0] == '-' {
        assert Numeral(t) == Negated(Unsigned(t[1..]));
        DecimalPositiveAgrees(t[1..]);
      } else {
        assert Numeral(t) == Unsigned(t);
        DecimalPositiveAgrees(t);
      }
    }
  }

  /** `Infinity` is no integer numeral, signed or not. */
  lemma NotInfinity(t: string)
    requires Numeral(t).Some?
    ensures t != "Infinity" && t != "+Infinity"
  {
    LetterNumeral("Infinity");
    SignedLetterNumeral("+Infinity");
  }

  /** A numeral whose first character is a letter other than a radix prefix is malformed. */
  lemma LetterNumeral(t: string)
    requires t != [] && !IsDigit(t[0]) && t[0] !in ".+-"
    ensures Numeral(t).None?
  {
    LetterFirst(t);
  }

  /** So is one that is a plus sign followed by such a letter. */
  lemma SignedLetterNumeral(t: string)
    requires |t| >= 2 && t[0] == '+' && !IsDigit(t[1]) && t[1] != '.'
    ensures Numeral(t).None?
  {
    LetterFirst(t[1..]);
  }

  /** A numeral that starts with neither a digit nor a point is malformed. */
  lemma LetterFirst(u: string)
    requires u != [] && !IsDigit(u[0]) && u[0] != '.'
    ensures Decimal(u).None?
  {
    var mark := match IndexOfChar(u, 'e') case Some(i) => Some(i) case None => IndexOfChar(u, 'E');
    var m := if mark.Some? then u[..mark.value] else u;
    assert m != [] ==> m[0] == u[0];
    var dot := IndexOfChar(m, '.');
    assert dot.Some? ==> dot.value > 0;
    var whole := if dot.Some? then m[..dot.value] else m;
    assert whole != [] ==> whole[0] == u[0];
    assert whole == [] ==> m == [];
  }

  lemma DecimalPositiveAgrees(u: string)
    requires Unsigned(u).Some?
    ensures Unsigned(u).value >= 0
    ensures DecimalPositive(u) <==> Unsigned(u).value > 0
  {
    var d := Decimal(u).value;
    ScaleSign(d.0, d.1);
  }

  /** Scaling keeps the sign: a result is positive exactly when the digits are. */
  lemma ScaleSign(m: nat, p: int)
    requires Scale(m, p).Some?
    ensures Scale(m, p).value > 0 <==> m > 0
  {
    var n := Scale(m, p).value;
    if p >= 0 {
      assert n == m * Pow10(p);
      ProductPositive(m, Pow10(p));
    } else {
      assert n * Pow10(-p) == m;
      ProductPositive(n, Pow10(-p));
    }
  }

  lemma ProductPositive(a: int, b: nat)
    requires a >= 0 && b >= 1
    ensures a * b > 0 <==> a > 0
  {
    if a > 0 {
      assert a * b >= a;
    }
  }

  /** `d.f` is positive exactly when some digit is not zero: `0.5` is, `0.0` is not. */
  lemma FractionPositive(d: string, f: string)
    requires d != [] && Digits(d) && Digits(f)
    ensures Positive(Str(d + "." + f)) <==> DecimalValue(d) > 0 || DecimalValue(f) > 0
  {
    var s := d + "." + f;
    assert s[|s| - 1] == '.' || s[|s| - 1] == f[|f| - 1];
    assert |f| > 0 ==> IsDigit(f[|f| - 1]);
    TrimOfTrimmed(s);
    assert s[0] == d[0];
    assert |s| >= 2 ==> IsDigit(s[1]) || s[1] == '.' by {
      if |d| >= 2 {
        assert s[1] == d[1];
      }
    }
    PositiveOfDecimal(s);
    DecimalPointed(d, f);
    PointedSign(d, f);
  }

  /** A numeral that starts with a digit and has no radix prefix is positive as a decimal. */
  lemma PositiveOfDecimal(t: string)
    requires t != [] && IsDigit(t[0]) && (|t| >= 2 ==> IsDigit(t[1]) || t[1] == '.')
    ensures NumeralPositive(t) == DecimalPositive(t)
  {
    assert t != "Infinity" && t != "+Infinity" by {
      assert "Infinity"[0] == 'I' && "+Infinity"[0] == '+';
    }
  }

  lemma PointedSign(d: string, f: string)
    requires Digits(d) && Digits(f)
    ensures PointedValue(d, f) > 0 <==> DecimalValue(d) > 0 || DecimalValue(f) > 0
  {
    ProductPositive(DecimalValue(d), Pow10(|f|));
  }

  // ----- Helpers -----

  /** Only digits and points: the characters of a numeral with no exponent. */
  predicate PointDigits(s: string) {
    forall i :: 0 <= i < |s| ==> IsDigit(s[i]) || s[i] == '.'
  }

  /** A numeral starting with a digit and no radix prefix is read as an unsigned decimal. */
  lemma NumeralOfDecimal(t: string)
    requires t != [] && IsDigit(t[0]) && (|t| >= 2 ==> IsDigit(t[1]) || t[1] == '.' || t[1] == 'e')
    ensures Numeral(t) == Unsigned(t)
  {
  }

  lemma DecimalMarks(d: string, t: string)
    requires Digits(d) && Digits(t)
    ensures PointDigits(d + "." + t)
  {
    var s := d + "." + t;
    forall i | 0 <= i < |s|
      ensures IsDigit(s[i]) || s[i] == '.'
    {
      if i < |d| {
        assert s[i] == d[i];
      } else if i > |d| {
        assert s[i] == t[i - |d| - 1];
      }
    }
  }

  /** A character that is no digit and no point does not occur in `PointDigits` text. */
  lemma NoMark(s: string, c: char)
    requires PointDigits(s) && !IsDigit(c) && c != '.'
    ensures IndexOfChar(s, c).None?
  {
    forall i | 0 <= i < |s|
      ensures s[i] != c
    {
      assert IsDigit(s[i]) || s[i] == '.';
    }
  }

  lemma NoChar(d: string, c: char)
    requires Digits(d) && !IsDigit(c)
    ensures IndexOfChar(d, c).None?
  {
    forall i | 0 <= i < |d|
      ensures d[i] != c
    {
      assert IsDigit(d[i]);
    }
  }

  lemma MantissaOfDigits(d: string)
    requires d != [] && Digits(d)
    ensures Mantissa(d) == Some((DecimalValue(d), 0))
  {
    NoChar(d, '.');
    assert d[..|d|] == d;
  }

  lemma UnsignedDigits(d: string)
    requires d != [] && Digits(d)
    ensures Unsigned(d) == Some(DecimalValue(d))
  {
    NoChar(d, 'e');
    NoChar(d, 'E');
    MantissaOfDigits(d);
    assert Decimal(d) == Some((DecimalValue(d), 0));
  }

  /** With no exponent, `d.t` reads as its digits scaled down by the length of `t`. */
  lemma UnsignedPointed(d: string, t: string)
    requires Digits(d) && Digits(t) && |d| + |t| > 0
    ensures Unsigned(d + "." + t) == Scale(PointedValue(d, t), -|t|)
  {
    DecimalPointed(d, t);
  }

  lemma DecimalPointed(d: string, t: string)
    requires Digits(d) && Digits(t) && |d| + |t| > 0
    ensures Decimal(d + "." + t) == Some((PointedValue(d, t), -|t|))
  {
    DecimalMarks(d, t);
    DecimalUnmarked(d + "." + t);
    MantissaPointed(d, t);
  }

  /** Text without an exponent mark is all mantissa. */
  lemma DecimalUnmarked(s: string)
    requires PointDigits(s)
    ensures Decimal(s) == match Mantissa(s) case None => None case Some(m) => Some((m.0, -(m.1 as int)))
  {
    NoMark(s, 'e');
    NoMark(s, 'E');
  }

  lemma MantissaPointed(d: string, t: string)
    requires Digits(d) && Digits(t) && |d| + |t| > 0
    ensures Mantissa(d + "." + t) == Some((PointedValue(d, t), |t|))
  {
    var s := d + "." + t;
    DotAfterDigits(d, t, '.');
    assert s[..|d|] == d && s[|d| + 1..] == t;
  }

  lemma SignTrimmed(d: string, sign: char)
    requires d != [] && IsDigit(d[|d| - 1]) && (sign == '+' || sign == '-')
    ensures Trim([sign] + d) == [sign] + d
  {
    var p := [sign] + d;
    assert p[|p| - 1] == d[|d| - 1];
    TrimOfTrimmed(p);
  }

  lemma NumeralSigned(u: string, sign: char)
    requires sign == '+' || sign == '-'
    ensures Numeral([sign] + u) == if sign == '+' then Unsigned(u) else Negated(Unsigned(u))
  {
    assert ([sign] + u)[1..] == u;
  }

  lemma UnsignedZeroFraction(d: string, z: string)
    requires d != [] && Digits(d) && Digits(z) && DecimalValue(z) == 0
    ensures Unsigned(d + "." + z) == Some(DecimalValue(d))
  {
    UnsignedPointed(d, z);
    assert PointedValue(d, z) == DecimalValue(d) * Pow10(|z|);
    ShrinkMultiple(DecimalValue(d), |z|);
  }

  lemma UnsignedExponent(d: string, k: string)
    requires d != [] && Digits(d) && k != [] && Digits(k)
    ensures Unsigned(d + "e" + k) == Some(DecimalValue(d) * Pow10(DecimalValue(k)))
  {
    var m, x := DecimalValue(d), DecimalValue(k);
    MantissaOfDigits(d);
    ExponentOfDigits(k);
    DecimalMarked(d, k, m, x);
  }

  lemma ExponentOfDigits(k: string)
    requires k != [] && Digits(k)
    ensures Exponent(k) == Some(DecimalValue(k))
  {
    assert IsDigit(k[0]);
  }

  /** Before an `e` is the mantissa and after it the exponent. */
  lemma DecimalMarked(d: string, k: string, m: nat, x: int)
    requires Digits(d) && Mantissa(d) == Some((m, 0)) && Exponent(k) == Some(x)
    ensures Decimal(d + "e" + k) == Some((m, x))
  {
    var s := d + "e" + k;
    DotAfterDigits(d, k, 'e');
    assert s[..|d|] == d && s[|d| + 1..] == k;
  }

  /** In `d + [c] + t` with `d` all digits and `c` no digit, the first `c` is at `|d|`. */
  lemma DotAfterDigits(d: string, t: string, c: char)
    requires Digits(d) && !IsDigit(c)
    ensures IndexOfChar(d + [c] + t, c) == Some(|d|)
  {
    var s := d + [c] + t;
    forall i | 0 <= i < |d|
      ensures s[i] != c
    {
      assert s[i] == d[i] && IsDigit(d[i]);
    }
    IndexOfCharAt(s, c, |d|);
  }

  lemma {:induction false} IndexOfCharAt(s: string, c: char, i: nat)
    requires i < |s| && s[i] == c && forall j :: 0 <= j < i ==> s[j] != c
    ensures IndexOfChar(s, c) == Some(i)
  {
    if i > 0 {
      IndexOfCharAt(s[1..], c, i - 1);
    }
  }

  lemma {:induction false} ZerosHaveNoValue(z: string)
    requires forall i :: 0 <= i < |z| ==> z[i] == '0'
    ensures Digits(z) && DecimalValue(z) == 0
  {
    if |z| > 0 {
      ZerosHaveNoValue(z[..|z| - 1]);
    }
  }

  /** The last digit of a numeral is its value modulo ten. */
  lemma LastDigitMod(f: string)
    requires f != [] && Digits(f)
    ensures DecimalValue(f) % 10 == f[|f| - 1] as int - '0' as int
  {
    assert IsDigit(f[|f| - 1]);
  }

  /** A multiple of ten to the `n`, `n >= 1`, plus `f` has the last digit of `f`. */
  lemma TenthOff(a: nat, n: nat, f: nat)
    requires n >= 1
    ensures (a * Pow10(n) + f) % 10 == f % 10
  {
    var x := a * Pow10(n - 1);
    assert a * Pow10(n) == 10 * x;
  }

  /** Exactly `n` trailing zeros come off a multiple of ten to the `n`. */
  lemma {:induction false} ShrinkMultiple(k: nat, n: nat)
    ensures Shrink(k * Pow10(n), n) == Some(k)
  {
    if n > 0 {
      var x := k * Pow10(n - 1);
      assert k * Pow10(n) == x * 10;
      ShrinkMultiple(k, n - 1);
    }
  }
}

=== FILE: profiles.dfy ===
/**
 * The child profile as the schema stores it, the parent-facing profile operations
 * (create, partial update, device configuration) and the device-to-profile lookup
 * used by the moderation endpoints.
 */
module Profiles {
  import opened Base
  import opened Strings
  import opened Json

  /** `filteringLevel`: an enumeration whose default is `moderate`. */
  datatype Level = Strict | Moderate | Custom | Off

  function LevelName(l: Level): string {
    match l
    case Strict => "strict"
    case Moderate => "moderate"
    case Custom => "custom"
    case Off => "off"
  }

  /** The schema's enum validator: a string is a level only if it is one of the four names. */
  function ParseLevel(s: string): (r: Option<Level>)
    ensures r.Some? ==> LevelName(r.value) == s
  {
    if s == "strict" then Some(Strict)
    else if s == "moderate" then Some(Moderate)
    else if s == "custom" then Some(Custom)
    else if s == "off" then Some(Off)
    else None
  }

  /** Level names and the enum validator are inverse to each other. */
  lemma LevelNameRoundTrip(l: Level, s: string)
    ensures ParseLevel(LevelName(l)) == Some(l)
    ensures ParseLevel(s).Some? <==> (exists l' :: LevelName(l') == s)
  {
    if ParseLevel(s).None? {
      forall l' ensures LevelName(l') != s {
        match l'
        case Strict =>
        case Moderate =>
        case Custom =>
        case Off =>
      }
    }
  }

  /** A value of the free-form `customSettings` object. */
  datatype Setting = Flag(b: bool) | Text(s: string)

  /** One entry of `timeRestrictions.schedule`. */
  datatype ScheduleEntry = ScheduleEntry(day: int, startTime: Option<string>, endTime: Option<string>)

  /** `timeRestrictions`: an object holding a flag, a schedule and a daily limit (0 = none). */
  datatype TimeRestrictions = TimeRestrictions(enabled: bool, schedule: seq<ScheduleEntry>, dailyLimitMinutes: int)

  datatype Profile = Profile(
    id: nat,
    parentId: nat,
    name: string,
    deviceId: Option<string>,
    filteringLevel: Level,
    isActive: bool,
    customSettings: map<string, Setting>,
    allowedSites: seq<string>,
    blockedSites: seq<string>,
    timeRestrictions: TimeRestrictions)

  const DefaultCustomSettings: map<string, Setting> :=
    map["blockAdult" := Flag(true), "blockViolence" := Flag(true),
        "blockGambling" := Flag(false), "blockSocialMedia" := Flag(false),
        "safeSearchLevel" := Text("moderate")]

  const DefaultTimeRestrictions: TimeRestrictions := TimeRestrictions(false, [], 0)

  /** Every schedule day lies in 0..6 (Sunday..Saturday). */
  predicate ValidSchedule(t: TimeRestrictions) {
    forall i :: 0 <= i < |t.schedule| ==> 0 <= t.schedule[i].day <= 6
  }

  predicate AllLowerCased(xs: seq<string>) {
    forall i :: 0 <= i < |xs| ==> IsLowerCased(xs[i])
  }

  /** What the schema guarantees of every stored profile. */
  predicate ValidProfile(p: Profile) {
    && AllLowerCased(p.allowedSites)
    && AllLowerCased(p.blockedSites)
    && ValidSchedule(p.timeRestrictions)
    && |p.name| <= 100
  }

  /** The schema's `lowercase` setter applied to each entry of a site list. */
  function LowerCaseAll(xs: seq<string>): (r: seq<string>)
    ensures |r| == |xs|
    ensures AllLowerCased(r)
    ensures forall i :: 0 <= i < |xs| ==> r[i] == ToLower(xs[i])
  {
    seq(|xs|, i requires 0 <= i < |xs| => ToLower(xs[i]))
  }

  /** A fact recorded for a blocked verdict about a known profile. */
  datatype ActivityRecord = ActivityRecord(
    childId: nat, parentId: nat, url: string, domain: Option<string>, kind: string, blockReason: Val)

  /** An HTTP reply: the payload, or a status code with an error text. */
  datatype Reply<T> = Done(value: T) | Fail(status: nat, error: string)

  const MaxChildren: nat := 10
  const MaxNameLength: nat := 50

  datatype AddChildRequest = AddChildRequest(name: string, filteringLevel: Option<string>)

  /**
   * `addChild`: validation (a trimmed name of 1..50 characters, a level from the
   * enumeration when one is given), the per-parent cap, then a profile with every
   * schema default and the freshly generated device id.
   */
  function AddChild(existing: nat, req: AddChildRequest, parentId: nat, newId: nat, deviceId: string): (r: Reply<Profile>)
    ensures existing >= MaxChildren ==> r.Fail?
    ensures r.Done? ==>
      && existing < MaxChildren
      && r.value.parentId == parentId
      && r.value.name == Trim(req.name) && r.value.name != []
      && r.value.deviceId == Some(deviceId)
      && r.value.isActive
      && r.value.allowedSites == [] && r.value.blockedSites == []
      && r.value.customSettings == DefaultCustomSettings
      && r.value.timeRestrictions == DefaultTimeRestrictions
      && ValidProfile(r.value)
    ensures r.Done? && req.filteringLevel.None? ==> r.value.filteringLevel == Moderate
    ensures r.Done? && req.filteringLevel.Some? ==> LevelName(r.value.filteringLevel) == req.filteringLevel.value
    ensures r.Fail? && existing < MaxChildren ==>
      Trim(req.name) == [] || |Trim(req.name)| > MaxNameLength
      || (req.filteringLevel.Some? && ParseLevel(req.filteringLevel.value).None?)
  {
    var name := Trim(req.name);
    if name == [] || |name| > MaxNameLength then Fail(400, "validation")
    else if req.filteringLevel.Some? && ParseLevel(req.filteringLevel.value).None? then Fail(400, "validation")
    else if existing >= MaxChildren then Fail(400, "Maximum 10 child profiles allowed.")
    else
      var level := if req.filteringLevel.Some? then ParseLevel(req.filteringLevel.value).value else Moderate;
      Done(Profile(newId, parentId, name, Some(deviceId), level, true, DefaultCustomSettings, [], [], DefaultTimeRestrictions))
  }

  /** The body of `PUT /child/:id`; None stands for a field the request leaves out. */
  datatype UpdateRequest = UpdateRequest(
    filteringLevel: Option<string>,
    allowedSites: Option<seq<string>>,
    blockedSites: Option<seq<string>>,
    timeRestrictions: Option<TimeRestrictions>,
    customSettings: Option<map<string, Setting>>,
    isActive: Option<bool>)

  /**
   * The field-by-field merge of `updateChild` followed by the schema's setters and
   * validators; Err when `save` would reject the result.
   */
  function ApplyUpdate(p: Profile, req: UpdateRequest): (r: Result<Profile>)
    ensures r.Ok? ==>
      && r.value.id == p.id && r.value.parentId == p.parentId && r.value.name == p.name
      && r.value.deviceId == p.deviceId
      && (req.filteringLevel.None? ==> r.value.filteringLevel == p.filteringLevel)
      && (req.filteringLevel.Some? ==> LevelName(r.value.filteringLevel) == req.filteringLevel.value)
      && r.value.allowedSites == (if req.allowedSites.Some? then LowerCaseAll(req.allowedSites.value) else p.allowedSites)
      && r.value.blockedSites == (if req.blockedSites.Some? then LowerCaseAll(req.blockedSites.value) else p.blockedSites)
      && r.value.timeRestrictions == req.timeRestrictions.GetOr(p.timeRestrictions)
      && r.value.isActive == req.isActive.GetOr(p.isActive)
    ensures r.Ok? ==> forall k :: k in r.value.customSettings <==>
      (k in p.customSettings || (req.customSettings.Some? && k in req.customSettings.value))
    ensures r.Ok? && req.customSettings.Some? ==> forall k :: k in req.customSettings.value ==>
      r.value.customSettings[k] == req.customSettings.value[k]
    ensures r.Ok? ==> forall k :: k in p.customSettings && !(req.customSettings.Some? && k in req.customSettings.value) ==>
      r.value.customSettings[k] == p.customSettings[k]
    ensures r.Ok? <==>
      && (req.filteringLevel.None? || ParseLevel(req.filteringLevel.value).Some?)
      && (req.timeRestrictions.None? || ValidSchedule(req.timeRestrictions.value))
  {
    if req.filteringLevel.Some? && ParseLevel(req.filteringLevel.value).None? then Err("ValidationError: filteringLevel")
    else if req.timeRestrictions.Some? && !ValidSchedule(req.timeRestrictions.value) then Err("ValidationError: day")
    else
      var level := if req.filteringLevel.Some? then ParseLevel(req.filteringLevel.value).value else p.filteringLevel;
      var settings := if req.customSettings.Some? then p.customSettings + req.customSettings.value else p.customSettings;
      Ok(p.(
        filteringLevel := level,
        allowedSites := if req.allowedSites.Some? then LowerCaseAll(req.allowedSites.value) else p.allowedSites,
        blockedSites := if req.blockedSites.Some? then LowerCaseAll(req.blockedSites.value) else p.blockedSites,
        timeRestrictions := req.timeRestrictions.GetOr(p.timeRestrictions),
        customSettings := settings,
        isActive := req.isActive.GetOr(p.isActive)))
  }

  /** An update that `save` accepts keeps a valid profile valid. */
  lemma ApplyUpdatePreservesValidity(p: Profile, req: UpdateRequest)
    requires ValidProfile(p)
    requires ApplyUpdate(p, req).Ok?
    ensures ValidProfile(ApplyUpdate(p, req).value)
  {
  }

  /** The position of the profile with this id owned by this parent, if any. */
  function FindOwned(store: seq<Profile>, id: nat, parentId: nat): (r: Option<nat>)
    ensures r.Some? ==> r.value < |store| && store[r.value].id == id && store[r.value].parentId == parentId
    ensures r.None? ==> forall i :: 0 <= i < |store| ==> !(store[i].id == id && store[i].parentId == parentId)
  {
    if |store| == 0 then None
    else if store[0].id == id && store[0].parentId == parentId then Some(0)
    else match FindOwned(store[1..], id, parentId)
      case None => None
      case Some(k) => Some(k + 1)
  }

  /**
   * `updateChild`: 404 when the profile is missing or owned by another parent,
   * 500 when `save` rejects the merged profile; in both cases the store is unchanged.
   */
  function UpdateChild(store: seq<Profile>, id: nat, parentId: nat, req: UpdateRequest): (r: (Reply<Profile>, seq<Profile>))
    ensures |r.1| == |store|
    ensures r.0.Fail? ==> r.1 == store
    ensures (forall i :: 0 <= i < |store| ==> !(store[i].id == id && store[i].parentId == parentId)) ==>
      r.0 == Fail(404, "Child not found.")
    ensures r.0.Done? ==>
      (exists i :: 0 <= i < |store| && store[i].id == id && store[i].parentId == parentId
        && ApplyUpdate(store[i], req) == Ok(r.0.value) && r.1 == store[i := r.0.value])
  {
    match FindOwned(store, id, parentId)
    case None => (Fail(404, "Child not found."), store)
    case Some(i) =>
      match ApplyUpdate(store[i], req)
      case Err(_) => (Fail(500, "Failed to update child."), store)
      case Ok(p) => (Done(p), store[i := p])
  }

  /** What `getChildConfig` returns to a device: six policy fields and nothing else. */
  datatype ChildConfig = ChildConfig(
    filteringLevel: Level,
    allowedSites: seq<string>,
    blockedSites: seq<string>,
    timeRestrictions: TimeRestrictions,
    customSettings: map<string, Setting>,
    isActive: bool)

  function GetChildConfig(p: Profile): ChildConfig {
    ChildConfig(p.filteringLevel, p.allowedSites, p.blockedSites, p.timeRestrictions, p.customSettings, p.isActive)
  }

  /** After an accepted update, the device configuration shows exactly the updated policy. */
  lemma ConfigReflectsUpdate(p: Profile, req: UpdateRequest)
    requires ApplyUpdate(p, req).Ok?
    ensures var c := GetChildConfig(ApplyUpdate(p, req).value);
      && (req.filteringLevel.Some? ==> LevelName(c.filteringLevel) == req.filteringLevel.value)
      && (req.filteringLevel.None? ==> c.filteringLevel == p.filteringLevel)
      && (req.blockedSites.Some? ==> c.blockedSites == LowerCaseAll(req.blockedSites.value))
      && (req.blockedSites.None? ==> c.blockedSites == p.blockedSites)
      && (req.allowedSites.Some? ==> c.allowedSites == LowerCaseAll(req.allowedSites.value))
      && (req.allowedSites.None? ==> c.allowedSites == p.allowedSites)
      && (req.timeRestrictions.Some? ==> c.timeRestrictions == req.timeRestrictions.value)
      && (req.timeRestrictions.None? ==> c.timeRestrictions == p.timeRestrictions)
      && (req.customSettings.Some? ==> c.customSettings == p.customSettings + req.customSettings.value)
      && (req.customSettings.None? ==> c.customSettings == p.customSettings)
      && (req.isActive.Some? ==> c.isActive == req.isActive.value)
      && (req.isActive.None? ==> c.isActive == p.isActive)
  {
    var q := ApplyUpdate(p, req).value;
    if req.customSettings.Some? {
      var merged := p.customSettings + req.customSettings.value;
      assert q.customSettings.Keys == merged.Keys;
      assert forall k :: k in merged ==> q.customSettings[k] == merged[k];
    }
  }

  /**
   * `resolveChild`: no profile without a device id; otherwise the first active
   * profile registered to that device.
   */
  function ResolveChild(store: seq<Profile>, deviceId: Option<string>): (r: Option<Profile>)
    ensures (deviceId.None? || deviceId == Some("")) ==> r.None?
    ensures r.Some? ==> r.value in store && r.value.isActive && r.value.deviceId == deviceId
    ensures r.None? && deviceId.Some? && deviceId != Some("") ==>
      forall i :: 0 <= i < |store| ==> !(store[i].isActive && store[i].deviceId == deviceId)
  {
    if deviceId.None? || deviceId == Some("") then None
    else FirstActive(store, deviceId.value)
  }

  function FirstActive(store: seq<Profile>, deviceId: string): (r: Option<Profile>)
    ensures r.Some? ==> r.value in store && r.value.isActive && r.value.deviceId == Some(deviceId)
    ensures r.None? ==> forall i :: 0 <= i < |store| ==> !(store[i].isActive && store[i].deviceId == Some(deviceId))
  {
    if |store| == 0 then None
    else if store[0].isActive && store[0].deviceId == Some(deviceId) then Some(store[0])
    else FirstActive(store[1..], deviceId)
  }
}

=== FILE: relay.dfy ===
/**
 * The background worker's message router. It relays the content script's page and
 * URL checks to the backend and answers `{ blocked: false }` whenever anything
 * on the way fails: a thrown error, a failed request, a body that is not JSON,
 * or (for the URL check) a non-OK status.
 *
 * Extension storage is a map of stored keys; one backend exchange per message is
 * a parameter.
 */
module Relay {
  import opened Base
  import opened Strings
  import opened Json

  const ApiBase: string := "http://localhost:5000/api"

  /** At most this many characters of page text are forwarded. */
  const MaxText: nat := 3000

  /** At most this many image URLs are forwarded. */
  const MaxImages: nat := 5

  /** A backend request: the endpoint and the JSON body. */
  datatype Request = Request(url: string, body: Val)

  /**
   * What the backend exchange produced: no response at all (network failure or
   * the 12-second abort), or a status flag and the body parsed as JSON, if it was.
   */
  datatype Exchange = NoResponse | Response(ok: bool, json: Option<Val>)

  /** How a message was handled: the reply to the sender and the request made, if any. */
  datatype Handled = Handled(reply: Val, request: Option<Request>)

  /** `getConfig`: the stored `deviceId` and `enabled`, `undefined` when absent. */
  function ConfigField(storage: map<string, Val>, k: string): Val {
    if k in storage then storage[k] else Undef
  }

  predicate Enabled(storage: map<string, Val>) {
    Truthy(ConfigField(storage, "enabled")) && Truthy(ConfigField(storage, "deviceId"))
  }

  /** `v?.slice(0, n)`: strings and arrays are cut, `null` and `undefined` give `undefined`, anything else throws. */
  function Slice(v: Val, n: nat): (r: Option<Val>)
    ensures v.Str? ==> r == Some(Str(Take(v.s, n)))
    ensures v.Arr? ==> r.Some? && r.value.Arr? && |r.value.items| == Min(n, |v.items|)
                       && r.value.items == v.items[..|r.value.items|]
    ensures (v.Undef? || v.Null?) ==> r == Some(Undef)
    ensures r.None? <==> !(v.Str? || v.Arr? || v.Undef? || v.Null?)
  {
    match v
    case Undef => Some(Undef)
    case Null => Some(Undef)
    case Str(s) => Some(Str(Take(s, n)))
    case Arr(items) => Some(Arr(if |items| <= n then items else items[..n]))
    case _ => None
  }

  /**
   * The body of the page request: text cut to 3000 characters (`''` when absent or
   * empty), at most five image URLs (`[]` when absent), and the device id.
   * `None` when cutting throws.
   */
  function PageBody(url: Val, text: Val, imageUrls: Val, deviceId: Val): (r: Option<Val>)
    ensures r.Some? ==> r.value.Obj? && r.value.fields.Keys == {"url", "text", "imageUrls", "deviceId"}
    ensures r.Some? ==> r.value.fields["url"] == url && r.value.fields["deviceId"] == deviceId
    ensures r.Some? && (text.Str? || text.Undef? || text.Null?) ==>
              r.value.fields["text"].Str? && |r.value.fields["text"].s| <= MaxText
    ensures r.Some? && imageUrls.Arr? ==>
              r.value.fields["imageUrls"].Arr? && |r.value.fields["imageUrls"].items| <= MaxImages
    ensures r.Some? && (imageUrls.Undef? || imageUrls.Null?) ==> r.value.fields["imageUrls"] == Arr([])
    ensures r.None? <==> (Slice(text, MaxText).None? || Slice(imageUrls, MaxImages).None?)
  {
    match (Slice(text, MaxText), Slice(imageUrls, MaxImages))
    case (Some(t), Some(i)) =>
      Some(Obj(map["url" := url, "text" := Or(t, Str("")), "imageUrls" := Or(i, Arr([])), "deviceId" := deviceId]))
    case _ => None
  }

  /**
   * `moderatePage`. `Err` is a rejected promise. The payload is destructured on
   * entry, so a missing payload rejects before the configuration is read.
   */
  function ModeratePage(storage: map<string, Val>, payload: Val, ex: Exchange): (r: (Result<Val>, Option<Request>))
    ensures (payload.Undef? || payload.Null?) ==> r.0.Err? && r.1.None?
    ensures !(payload.Undef? || payload.Null?) && !Enabled(storage) ==> r == (Ok(NotBlocked), None)
    ensures r.1.Some? ==> Enabled(storage) && r.1.value.url == ApiBase + "/moderate/page"
    ensures r.0.Ok? && r.1.Some? ==> ex.Response? && ex.json == Some(r.0.value)
  {
    if payload.Undef? || payload.Null? then (Err("Cannot destructure the payload"), None)
    else if !Enabled(storage) then (Ok(NotBlocked), None)
    else
      var deviceId := ConfigField(storage, "deviceId");
      match PageBody(Field(payload, "url"), Field(payload, "text"), Field(payload, "imageUrls"), deviceId)
      case None => (Err("slice is not a function"), None)
      case Some(body) =>
        var req := Some(Request(ApiBase + "/moderate/page", body));
        match ex
        case NoResponse => (Err("fetch failed"), req)
        case Response(_, json) =>
          if json.None? then (Err("invalid JSON"), req) else (Ok(json.value), req)
  }

  /** `moderateUrl`: like the page check, but a non-OK status is an error too. */
  function ModerateUrl(storage: map<string, Val>, url: Val, ex: Exchange): (r: (Result<Val>, Option<Request>))
    ensures !Enabled(storage) ==> r == (Ok(NotBlocked), None)
    ensures Enabled(storage) ==>
              r.1 == Some(Request(ApiBase + "/moderate/url",
                                  Obj(map["url" := url, "deviceId" := ConfigField(storage, "deviceId")])))
    ensures r.0.Ok? && Enabled(storage) ==> ex.Response? && ex.ok && ex.json == Some(r.0.value)
    ensures Enabled(storage) && ex.Response? && !ex.ok ==> r.0.Err?
  {
    if !Enabled(storage) then (Ok(NotBlocked), None)
    else
      var req := Some(Request(ApiBase + "/moderate/url", Obj(map["url" := url, "deviceId" := ConfigField(storage, "deviceId")])));
      match ex
      case NoResponse => (Err("fetch failed"), req)
      case Response(ok, json) =>
        if !ok then (Err("Backend error"), req)
        else if json.None? then (Err("invalid JSON"), req)
        else (Ok(json.value), req)
  }

  /** The keys `GET_CONFIG` reads. */
  const ConfigKeys: set<string> := {"deviceId", "enabled", "lockPassword"}

  /** The message router. A rejected check is answered with `{ blocked: false }`. */
  function Route(storage: map<string, Val>, message: Val, ex: Exchange): (r: Handled)
    ensures Field(message, "type") == Str("GET_CONFIG") ==>
              r == Handled(Obj(map k | k in storage && k in ConfigKeys :: storage[k]), None)
  {
    var kind := Field(message, "type");
    if kind == Str("MODERATE_PAGE") then
      var (res, req) := ModeratePage(storage, Field(message, "payload"), ex);
      Handled(if res.Ok? then res.value else NotBlocked, req)
    else if kind == Str("MODERATE_URL") then
      var (res, req) := ModerateUrl(storage, Field(message, "url"), ex);
      Handled(if res.Ok? then res.value else NotBlocked, req)
    else if kind == Str("GET_CONFIG") then
      Handled(Obj(map k | k in storage && k in ConfigKeys :: storage[k]), None)
    else
      Handled(Single("error", Str("Unknown message type")), None)
  }

  /** A check message. */
  predicate IsCheck(message: Val) {
    Field(message, "type") == Str("MODERATE_PAGE") || Field(message, "type") == Str("MODERATE_URL")
  }

  // ----- Properties -----

  /**
   * The relay fails open: a check is answered with what the backend sent, and only
   * then, or with `{ blocked: false }`.
   */
  lemma FailsOpen(storage: map<string, Val>, message: Val, ex: Exchange)
    requires IsCheck(message)
    ensures var h := Route(storage, message, ex);
            h.reply == NotBlocked || (h.request.Some? && ex.Response? && ex.json == Some(h.reply))
  {
  }

  /** A page reported blocked by the relay was reported blocked by the backend. */
  lemma BlockedOnlyByBackend(storage: map<string, Val>, message: Val, ex: Exchange)
    requires IsCheck(message)
    requires Truthy(Field(Route(storage, message, ex).reply, "blocked"))
    ensures ex.Response? && ex.json == Some(Route(storage, message, ex).reply)
    ensures Route(storage, message, ex).request.Some?
  {
    FailsOpen(storage, message, ex);
    assert !Truthy(Field(NotBlocked, "blocked"));
  }

  /** Without a device id, or when disabled, checks make no request and answer not blocked. */
  lemma DisabledMakesNoRequest(storage: map<string, Val>, message: Val, ex: Exchange)
    requires IsCheck(message) && !Enabled(storage)
    ensures Route(storage, message, ex) == Handled(NotBlocked, None)
  {
  }

  /** A failed URL-check response is answered not blocked, although a request was made. */
  lemma UrlCheckNonOkFailsOpen(storage: map<string, Val>, url: Val, json: Option<Val>)
    requires Enabled(storage)
    ensures var h := Route(storage, Obj(map["type" := Str("MODERATE_URL"), "url" := url]), Response(false, json));
            h.reply == NotBlocked && h.request.Some?
  {
    var m := Obj(map["type" := Str("MODERATE_URL"), "url" := url]);
    assert Field(m, "type") == Str("MODERATE_URL");
  }

  /** The page check forwards at most 3000 characters of text and at most five image URLs. */
  lemma PagePayloadCapped(storage: map<string, Val>, payload: Val, ex: Exchange)
    requires Field(payload, "text").Str? && Field(payload, "imageUrls").Arr?
    ensures var (_, req) := ModeratePage(storage, payload, ex);
            req.Some? ==>
              |req.value.body.fields["text"].s| <= MaxText
              && |req.value.body.fields["imageUrls"].items| <= MaxImages
  {
  }

  /** Any other message type is answered with an error and makes no request. */
  lemma UnknownTypeRejected(storage: map<string, Val>, message: Val, ex: Exchange)
    requires !IsCheck(message) && Field(message, "type") != Str("GET_CONFIG")
    ensures Route(storage, message, ex) == Handled(Single("error", Str("Unknown message type")), None)
  {
  }
}

=== FILE: reply_parser.dfy ===
/**
 * The two-stage reading of a classifier reply (`parseGeminiJSON`): strip Markdown
 * code fences and parse strictly; when that throws, salvage the verdict from the
 * raw text with three case-insensitive patterns; when no status can be found,
 * fail with an error.
 *
 * `JSON.parse` (RFC 8259) is left uninterpreted: the parameter `parse` returns the
 * parsed value, or None where `JSON.parse` throws.
 */
module ReplyParser {
  import opened Base
  import opened Strings
  import opened Json

  // ----- Stage 1: fence stripping -----

  /** `.replace(/^```json\s*\/i, '')` */
  function DropJsonFence(s: string): string {
    if MatchesAtCI(s, 0, "```json") then TrimStart(s[7..]) else s
  }

  /** `.replace(/^```\s*\/i, '')` */
  function DropFence(s: string): string {
    if StartsWith(s, "```") then TrimStart(s[3..]) else s
  }

  /** `.replace(/\s*```$/i, '')`: the closing fence and the white space run before it. */
  function DropClosingFence(s: string): string {
    if EndsWith(s, "```") then TrimEnd(s[..|s| - 3]) else s
  }

  /** The text handed to `JSON.parse`. */
  function Clean(raw: string): string {
    Trim(DropClosingFence(DropFence(DropJsonFence(raw))))
  }

  predicate AllSpace(w: string) {
    forall i :: 0 <= i < |w| ==> IsSpace(w[i])
  }

  lemma {:induction false} TrimStartSkipsSpace(w: string, x: string)
    requires AllSpace(w)
    requires x == [] || !IsSpace(x[0])
    ensures TrimStart(w + x) == x
  {
    if |w| > 0 {
      assert (w + x)[1..] == w[1..] + x;
      TrimStartSkipsSpace(w[1..], x);
    } else {
      assert w + x == x;
      TrimStartOfTrimmed(x);
    }
  }

  lemma {:induction false} TrimEndSkipsSpace(x: string, w: string)
    requires AllSpace(w)
    requires x == [] || !IsSpace(x[|x| - 1])
    ensures TrimEnd(x + w) == x
  {
    if |w| > 0 {
      assert (x + w)[..|x + w| - 1] == x + w[..|w| - 1];
      TrimEndSkipsSpace(x, w[..|w| - 1]);
    } else {
      assert x + w == x;
      TrimEndOfTrimmed(x);
    }
  }

  lemma OpeningFenceDropped(w: string, a: string)
    requires AllSpace(w)
    requires a == [] || !IsSpace(a[0])
    ensures DropJsonFence("```json" + w + a) == a
  {
    var raw := "```json" + w + a;
    assert raw[0..7] == "```json";
    assert ToLower("```json") == "```json";
    assert raw[7..] == w + a;
    TrimStartSkipsSpace(w, a);
  }

  lemma ClosingFenceDropped(body: string, w: string)
    requires AllSpace(w)
    requires body == [] || !IsSpace(body[|body| - 1])
    ensures DropClosingFence(body + w + "```") == body
  {
    var a := body + w + "```";
    assert a[|a| - 3..] == "```";
    assert a[..|a| - 3] == body + w;
    TrimEndSkipsSpace(body, w);
  }

  lemma NoFenceAtStart(a: string)
    requires a != [] && a[0] != '`'
    ensures DropFence(a) == a
  {
    if |a| >= 3 {
      assert a[..3][0] == a[0];
    }
  }

  /**
   * Fence stripping recovers the payload of a reply wrapped as
   * "```json", white space, payload, white space, "```".
   */
  lemma CleanUnwrapsFencedReply(body: string, w1: string, w2: string)
    requires body != [] && Trimmed(body)
    requires body[0] != '`'
    requires AllSpace(w1) && AllSpace(w2)
    ensures Clean("```json" + w1 + body + w2 + "```") == body
  {
    var a := body + w2 + "```";
    assert "```json" + w1 + body + w2 + "```" == "```json" + w1 + a;
    OpeningFenceDropped(w1, a);
    assert a[0] == body[0];
    NoFenceAtStart(a);
    ClosingFenceDropped(body, w2);
    TrimOfTrimmed(body);
  }

  /** A reply without fences reaches `JSON.parse` unchanged. */
  lemma CleanKeepsUnfencedReply(body: string)
    requires Trimmed(body)
    requires !StartsWith(body, "```")
    requires !EndsWith(body, "```")
    ensures Clean(body) == body
  {
    if MatchesAtCI(body, 0, "```json") {
      assert false;
    }
    TrimOfTrimmed(body);
  }

  // ----- Stage 2: regex salvage -----

  /** End of the maximal white space run starting at `i` (`\s*` is greedy). */
  function SkipSpace(s: string, i: nat): (j: nat)
    requires i <= |s|
    ensures i <= j <= |s|
    ensures forall k :: i <= k < j ==> IsSpace(s[k])
    ensures j == |s| || !IsSpace(s[j])
    decreases |s| - i
  {
    if i < |s| && IsSpace(s[i]) then SkipSpace(s, i + 1) else i
  }

  /** The pattern prefix `"key"\s*:\s*` at `i`; the position after it. */
  function KeyAt(s: string, i: nat, key: string): (r: Option<nat>)
    ensures r.Some? ==> i + |key| < r.value <= |s|
  {
    if MatchesAtCI(s, i, key) then
      var j := SkipSpace(s, i + |key|);
      if j < |s| && s[j] == ':' then Some(SkipSpace(s, j + 1)) else None
    else None
  }

  /** `"status"\s*:\s*"(SAFE|UNSAFE)"` matched at `i` (case-insensitively); the captured text. */
  function StatusAt(s: string, i: nat): (r: Option<string>)
    ensures r.Some? ==> ToLower(r.value) == "safe" || ToLower(r.value) == "unsafe"
  {
    match KeyAt(s, i, "\"status\"")
    case None => None
    case Some(k) =>
      if k < |s| && s[k] == '"' then
        if MatchesAtCI(s, k + 1, "safe") && k + 5 < |s| && s[k + 5] == '"' then Some(s[k + 1..k + 5])
        else if MatchesAtCI(s, k + 1, "unsafe") && k + 7 < |s| && s[k + 7] == '"' then Some(s[k + 1..k + 7])
        else None
      else None
  }

  /** End of the maximal run of characters other than `"` starting at `i`. */
  function NonQuoteEnd(s: string, i: nat): (j: nat)
    requires i <= |s|
    ensures i <= j <= |s|
    ensures forall k :: i <= k < j ==> s[k] != '"'
    ensures j == |s| || s[j] == '"'
    decreases |s| - i
  {
    if i < |s| && s[i] != '"' then NonQuoteEnd(s, i + 1) else i
  }

  /** `"category"\s*:\s*"([^"]+)"` matched at `i`; the captured text. */
  function CategoryAt(s: string, i: nat): (r: Option<string>)
    ensures r.Some? ==> |r.value| > 0 && '"' !in r.value
  {
    match KeyAt(s, i, "\"category\"")
    case None => None
    case Some(k) =>
      if k < |s| && s[k] == '"' then
        var e := NonQuoteEnd(s, k + 1);
        if k + 1 < e < |s| then Some(s[k + 1..e]) else None
      else None
  }

  /** End of the maximal run of ASCII digits starting at `i`. */
  function DigitEnd(s: string, i: nat): (j: nat)
    requires i <= |s|
    ensures i <= j <= |s|
    ensures forall k :: i <= k < j ==> IsDigit(s[k])
    ensures j == |s| || !IsDigit(s[j])
    decreases |s| - i
  {
    if i < |s| && IsDigit(s[i]) then DigitEnd(s, i + 1) else i
  }

  /** `"confidence"\s*:\s*(\d+)` matched at `i`; `parseInt` of the captured digits. */
  function ConfidenceAt(s: string, i: nat): Option<nat> {
    match KeyAt(s, i, "\"confidence\"")
    case None => None
    case Some(k) =>
      var e := DigitEnd(s, k);
      if e > k then Some(DecimalValue(s[k..e])) else None
  }

  /** `s.match(re)` without the `g` flag: the leftmost position where a matcher succeeds. */
  function FirstPos<T>(s: string, at: (string, nat) -> Option<T>, from: nat): (r: Option<nat>)
    requires from <= |s| + 1
    ensures r.Some? ==> from <= r.value <= |s| && at(s, r.value).Some?
    ensures r.Some? ==> forall j :: from <= j < r.value ==> at(s, j).None?
    ensures r.None? ==> forall j :: from <= j <= |s| ==> at(s, j).None?
    decreases |s| + 1 - from
  {
    if from > |s| then None
    else if at(s, from).Some? then Some(from)
    else FirstPos(s, at, from + 1)
  }

  /** The salvage object `{ status, category, confidence }`. */
  function Salvaged(status: string, category: string, confidence: nat): Val {
    Obj(map["status" := Str(status), "category" := Str(category), "confidence" := Num(confidence)])
  }

  /** `raw.match(/"status"\s*:\s*"(SAFE|UNSAFE)"/i)?.[1]`: the leftmost capture. */
  function FirstStatus(raw: string): (r: Option<string>)
    ensures r.None? <==> forall i :: 0 <= i <= |raw| ==> StatusAt(raw, i).None?
    ensures r.Some? ==> exists i :: (0 <= i <= |raw| && StatusAt(raw, i) == r
      && forall j :: 0 <= j < i ==> StatusAt(raw, j).None?)
  {
    match FirstPos(raw, StatusAt, 0)
    case None => None
    case Some(i) => StatusAt(raw, i)
  }

  /** `raw.match(/"category"\s*:\s*"([^"]+)"/i)?.[1] || 'Unknown'`. */
  function FirstCategory(raw: string): (r: string)
    ensures (forall i :: 0 <= i <= |raw| ==> CategoryAt(raw, i).None?) ==> r == "Unknown"
    ensures (exists i :: 0 <= i <= |raw| && CategoryAt(raw, i).Some?) ==>
      exists i :: (0 <= i <= |raw| && CategoryAt(raw, i) == Some(r)
        && forall j :: 0 <= j < i ==> CategoryAt(raw, j).None?)
  {
    match FirstPos(raw, CategoryAt, 0)
    case None => "Unknown"
    case Some(i) => CategoryAt(raw, i).value
  }

  /** The leftmost `"confidence"\s*:\s*(\d+)` capture read as a decimal number, or 50 when there is none. */
  function FirstConfidence(raw: string): (r: nat)
    ensures (forall i :: 0 <= i <= |raw| ==> ConfidenceAt(raw, i).None?) ==> r == 50
    ensures (exists i :: 0 <= i <= |raw| && ConfidenceAt(raw, i).Some?) ==>
      exists i :: (0 <= i <= |raw| && ConfidenceAt(raw, i) == Some(r)
        && forall j :: 0 <= j < i ==> ConfidenceAt(raw, j).None?)
  {
    match FirstPos(raw, ConfidenceAt, 0)
    case None => 50
    case Some(i) => ConfidenceAt(raw, i).value
  }

  /** The regex salvage when strict parsing throws: Err when no status can be found. */
  function Salvage(raw: string): (r: Result<Val>)
    ensures r.Err? <==> FirstStatus(raw).None?
    ensures r.Ok? ==> FirstStatus(raw).Some? && Field(r.value, "status") == Str(ToUpper(FirstStatus(raw).value))
    ensures r.Ok? ==> Field(r.value, "status") == Str("SAFE") || Field(r.value, "status") == Str("UNSAFE")
    ensures r.Ok? ==> Field(r.value, "category") == Str(FirstCategory(raw))
    ensures r.Ok? ==> Field(r.value, "confidence") == Num(FirstConfidence(raw))
  {
    match FirstStatus(raw)
    case None => Err("Cannot parse Gemini response: " + Take(raw, 100))
    case Some(captured) =>
      UpperOfSafeWord(captured);
      var v := Salvaged(ToUpper(captured), FirstCategory(raw), FirstConfidence(raw));
      assert v.fields["status"] == Str(ToUpper(captured));
      assert v.fields["category"] == Str(FirstCategory(raw));
      assert v.fields["confidence"] == Num(FirstConfidence(raw));
      Ok(v)
  }

  /** `parseGeminiJSON(raw)`: Ok with the parsed value, or Err where it throws. */
  function ParseReply(parse: string -> Option<Val>, raw: string): (r: Result<Val>)
    ensures parse(Clean(raw)).Some? ==> r == Ok(parse(Clean(raw)).value)
    ensures parse(Clean(raw)).None? ==> r == Salvage(raw)
  {
    match parse(Clean(raw))
    case Some(v) => Ok(v)
    case None => Salvage(raw)
  }

  /** Upper-casing a case-insensitive `safe`/`unsafe` capture gives exactly `SAFE`/`UNSAFE`. */
  lemma UpperOfSafeWord(w: string)
    requires ToLower(w) == "safe" || ToLower(w) == "unsafe"
    ensures ToUpper(w) == "SAFE" || ToUpper(w) == "UNSAFE"
  {
    assert |w| == |ToLower(w)|;
    if ToLower(w) == "safe" {
      assert LowerChar(w[0]) == 's' && LowerChar(w[1]) == 'a' && LowerChar(w[2]) == 'f' && LowerChar(w[3]) == 'e';
      assert ToUpper(w) == "SAFE";
    } else {
      assert LowerChar(w[0]) == 'u' && LowerChar(w[1]) == 'n' && LowerChar(w[2]) == 's';
      assert LowerChar(w[3]) == 'a' && LowerChar(w[4]) == 'f' && LowerChar(w[5]) == 'e';
      assert ToUpper(w) == "UNSAFE";
    }
  }
}

=== FILE: scanner.dfy ===
/**
 * The content script as a state machine. Replies from the background worker,
 * page mutations and timer expiries are events; the script's variables
 * (`scanTimer`, `isBlocked`, the blurred set) and the observer's connection are
 * the state. Messages the script sends are appended to `sent`.
 *
 * `fixed` selects the evidently intended behaviour for two defects of the code
 * as written: the observer is connected only after the enable check passes, and
 * the start-up scan cancels a scan that a mutation already scheduled.
 */
module Scanner {
  import opened Base
  import opened Strings
  import opened Json
  import opened Extraction

  /** How far the start-up sequence has got. */
  datatype Boot = AwaitingConfig | AwaitingPrecheck | Finished

  /** A message to the background worker. */
  datatype Outgoing =
    | GetConfig
    | CheckUrl(url: string)
    | CheckPage(url: string, text: string, imageUrls: seq<string>)

  /** The block screen: the title shown and the shortened page address. */
  datatype Screen = Screen(title: string, url: string)

  datatype State = State(
    page: Page,
    hasBody: bool,
    boot: Boot,
    blocked: bool,
    observing: bool,
    timers: map<nat, nat>,
    scanTimer: Option<nat>,
    nextTimer: nat,
    blur: Blur,
    pendingScans: nat,
    screen: Option<Screen>,
    sent: seq<Outgoing>)

  datatype Event =
    | ConfigReply(config: Val)
    | PrecheckReply(result: Val)
    | Mutated(page: Page)
    | TimerFired(id: nat)
    | ScanReply(result: Val)

  /** Delay of the scan armed at start-up, in milliseconds. */
  const InitialDelay: nat := 1500

  /** Delay of the scan armed by a mutation. */
  const MutationDelay: nat := 3000

  /** A page with less text than this and no images is not sent. */
  const MinScanText: nat := 30

  const ShownUrlLength: nat := 90

  const ReasonLabels: map<string, string> := map[
    "Sexual Content" := "Sexual Content Detected",
    "Nudity" := "Nudity Detected",
    "Explicit Language" := "Explicit Language Detected",
    "Violence" := "Violent Content Detected",
    "Drugs" := "Drug-Related Content Detected",
    "Hate Speech" := "Hate Speech Detected",
    "Other Harmful Content" := "Harmful Content Detected",
    "unsafe_url" := "Unsafe URL Detected",
    "manual_blocklist" := "Site Blocked by Guardian Rules",
    "allowlisted" := "Allowlisted Site",
    "content_violation" := "Content Policy Violation"]

  const UnknownReasonLabel: string := "Suspicious Content Detected"

  /**
   * The property key `reasonLabels[reason]` looks up, for the values whose key can be a
   * label name: a string is its own key, and a one-element array converts to its element's
   * key. Every other value converts to a string no label is filed under (`"null"`, `"true"`,
   * a number's digits, `"[object Object]"`, `""`, or a comma-joined list), and gives None.
   */
  function LabelKey(reason: Val): (k: Option<string>)
    ensures reason.Str? ==> k == Some(reason.s)
    ensures reason.Arr? && |reason.items| == 1 ==> k == LabelKey(reason.items[0])
    ensures k.Some? ==> reason == Wrapped(Str(k.value), Nesting(reason))
    decreases reason
  {
    match reason
    case Str(s) => Some(s)
    case Arr(items) => if |items| == 1 then LabelKey(items[0]) else None
    case _ => None
  }

  /** How many one-element arrays enclose the innermost value of `v`. */
  function Nesting(v: Val): nat
    decreases v
  {
    if v.Arr? && |v.items| == 1 then 1 + Nesting(v.items[0]) else 0
  }

  /** `v` inside `n` one-element arrays. */
  function Wrapped(v: Val, n: nat): Val {
    if n == 0 then v else Arr([Wrapped(v, n - 1)])
  }

  /** The label for a reason; a reason whose key has no entry gets the generic label. */
  function Label(reason: Val): (r: string)
    ensures reason.Str? && reason.s in ReasonLabels ==> r == ReasonLabels[reason.s]
    ensures reason.Arr? && |reason.items| == 1 ==> r == Label(reason.items[0])
    ensures r == UnknownReasonLabel <==> !(LabelKey(reason).Some? && LabelKey(reason).value in ReasonLabels)
  {
    var k := LabelKey(reason);
    if k.Some? && k.value in ReasonLabels then ReasonLabels[k.value] else UnknownReasonLabel
  }

  /** A reason wrapped in any number of one-element arrays keeps its label, as `["Nudity"]` does. */
  lemma {:induction false} WrappedReasonKeepsLabel(v: Val, n: nat)
    ensures Label(Wrapped(v, n)) == Label(v)
  {
    if n > 0 {
      WrappedReasonKeepsLabel(v, n - 1);
    }
  }

  /** The page address on the block screen: 90 characters, then `...` if it was longer. */
  function ShownUrl(href: string): (r: string)
    ensures |r| <= ShownUrlLength + 3
    ensures StartsWith(r, Take(href, ShownUrlLength))
    ensures |href| <= ShownUrlLength ==> r == href
  {
    Take(href, ShownUrlLength) + (if |href| > ShownUrlLength then "..." else "")
  }

  /** The scan timers of `r` are those of `s`, or fewer. */
  predicate TimersKept(s: State, r: State) {
    r.timers.Keys <= s.timers.Keys && r.scanTimer == s.scanTimer && r.nextTimer == s.nextTimer
  }

  /** Script start: the configuration is requested, then the observer is connected if the page has a body. */
  function Start(page: Page, hasBody: bool, fixed: bool): (s: State)
    ensures s.sent == [GetConfig] && s.boot == AwaitingConfig && !s.blocked
    ensures s.observing <==> hasBody && !fixed
  {
    State(page, hasBody, AwaitingConfig, false, hasBody && !fixed, map[], None, 0, NoBlur, 0, None, [GetConfig])
  }

  /**
   * `scanTimer = setTimeout(scanPage, delay)`, after `clearTimeout(scanTimer)` when
   * `cancel` holds.
   */
  function Arm(s: State, delay: nat, cancel: bool): (r: State)
    ensures r.scanTimer == Some(s.nextTimer) && r.nextTimer == s.nextTimer + 1
    ensures s.nextTimer in r.timers && r.timers[s.nextTimer] == delay
    ensures forall id :: id != s.nextTimer ==>
              (id in r.timers <==> id in s.timers && !(cancel && s.scanTimer == Some(id)))
    ensures r.blocked == s.blocked && r.observing == s.observing && r.sent == s.sent && r.blur == s.blur
  {
    var kept := if cancel && s.scanTimer.Some? then s.timers - {s.scanTimer.value} else s.timers;
    s.(timers := kept[s.nextTimer := delay], scanTimer := Some(s.nextTimer), nextTimer := s.nextTimer + 1)
  }

  /** `showBlockScreen`: blocked for good, observer disconnected, pending scan cancelled. */
  function ShowBlock(s: State, reason: Val): (r: State)
    ensures r.blocked && !r.observing
    ensures r.screen == Some(Screen(Label(reason), ShownUrl(s.page.href)))
    ensures s.scanTimer.Some? ==> s.scanTimer.value !in r.timers
    ensures TimersKept(s, r)
    ensures r.sent == s.sent && r.blur == s.blur && r.boot == s.boot
  {
    var timers := if s.scanTimer.Some? then s.timers - {s.scanTimer.value} else s.timers;
    s.(blocked := true, observing := false, timers := timers,
       screen := Some(Screen(Label(reason), ShownUrl(s.page.href))))
  }

  /** `scanPage`. */
  function Scan(s: State): (r: State)
    ensures TimersKept(s, r)
    ensures s.blocked ==> r == s
    ensures !s.blocked && |PageText(s.page)| < MinScanText && PageImageUrls(s.page) == [] ==>
              r == s.(blur := Unblur(s.blur))
    ensures !s.blocked && !(|PageText(s.page)| < MinScanText && PageImageUrls(s.page) == []) ==>
              r == s.(pendingScans := s.pendingScans + 1,
                      sent := s.sent + [CheckPage(s.page.href, PageText(s.page), PageImageUrls(s.page))])
  {
    if s.blocked then s
    else
      var text := PageText(s.page);
      var urls := PageImageUrls(s.page);
      if |text| < MinScanText && urls == [] then s.(blur := Unblur(s.blur))
      else s.(pendingScans := s.pendingScans + 1, sent := s.sent + [CheckPage(s.page.href, text, urls)])
  }

  /** The enable check of start-up: `config?.enabled && config?.deviceId`. */
  predicate Enabled(config: Val) {
    Truthy(Field(config, "enabled")) && Truthy(Field(config, "deviceId"))
  }

  function OnConfig(s: State, config: Val, fixed: bool): (r: State)
    requires s.boot == AwaitingConfig
    ensures TimersKept(s, r)
    ensures !Enabled(config) ==> r == s.(boot := Finished)
    ensures Enabled(config) ==>
              r.boot == AwaitingPrecheck && r.sent == s.sent + [CheckUrl(s.page.href)]
              && r.blur == BlurAll(s.page.imgs, s.blur)
  {
    if !Enabled(config) then s.(boot := Finished)
    else
      var r := s.(blur := BlurAll(s.page.imgs, s.blur), boot := AwaitingPrecheck,
                  sent := s.sent + [CheckUrl(s.page.href)]);
      if fixed then r.(observing := s.hasBody) else r
  }

  function OnPrecheck(s: State, result: Val, fixed: bool): (r: State)
    requires s.boot == AwaitingPrecheck
    ensures r.boot == Finished
  {
    var s0 := s.(boot := Finished);
    if Truthy(Field(result, "blocked")) then ShowBlock(s0, Or(Field(result, "reason"), Str("unsafe_url")))
    else Arm(s0, InitialDelay, fixed)
  }

  function OnMutation(s: State, page: Page): (r: State)
    ensures r.page == page
    ensures !s.observing || s.blocked ==> r == s.(page := page)
    ensures s.observing && !s.blocked ==> r.scanTimer == Some(s.nextTimer) && r.nextTimer == s.nextTimer + 1
                                          && r.timers.Keys == (s.timers.Keys - (if s.scanTimer.Some? then {s.scanTimer.value} else {})) + {s.nextTimer}
  {
    var s0 := s.(page := page);
    if !s.observing || s.blocked then s0
    else Arm(s0.(blur := BlurAll(page.imgs, s.blur)), MutationDelay, true)
  }

  function OnScanReply(s: State, result: Val): (r: State)
    requires s.pendingScans > 0
    ensures r.pendingScans == s.pendingScans - 1
    ensures TimersKept(s, r)
  {
    var s0 := s.(pendingScans := s.pendingScans - 1);
    if Truthy(Field(result, "blocked")) then ShowBlock(s0, Or(Field(result, "reason"), Str("content_violation")))
    else s0.(blur := Unblur(s0.blur))
  }

  /** One event. Events that do not apply in the current state change nothing. */
  function Step(s: State, e: Event, fixed: bool): (r: State)
    ensures |s.sent| <= |r.sent| && r.sent[..|s.sent|] == s.sent
  {
    match e
    case ConfigReply(config) => if s.boot == AwaitingConfig then OnConfig(s, config, fixed) else s
    case PrecheckReply(result) => if s.boot == AwaitingPrecheck then OnPrecheck(s, result, fixed) else s
    case Mutated(page) => OnMutation(s, page)
    case TimerFired(id) => if id in s.timers then Scan(s.(timers := s.timers - {id})) else s
    case ScanReply(result) => if s.pendingScans > 0 then OnScanReply(s, result) else s
  }

  function Run(s: State, es: seq<Event>, fixed: bool): State
    decreases |es|
  {
    if es == [] then s else Run(Step(s, es[0], fixed), es[1..], fixed)
  }

  // ----- Properties -----

  /** Start-up blurs the page's images before it asks for the URL check. */
  lemma BlurBeforePrecheck(page: Page, hasBody: bool, config: Val, fixed: bool)
    requires Enabled(config)
    ensures var s := Step(Start(page, hasBody, fixed), ConfigReply(config), fixed);
            s.sent == [GetConfig, CheckUrl(page.href)]
            && forall i :: 0 <= i < |page.imgs| && Blurrable(page.imgs[i]) ==> page.imgs[i].id in s.blur.blurred
  {
    BlurPreservesRestore(page.imgs, NoBlur);
  }

  /** A blocked URL check shows the block screen (default reason `unsafe_url`) and arms no scan. */
  lemma PrecheckBlockStops(s: State, result: Val, fixed: bool)
    requires s.boot == AwaitingPrecheck && Truthy(Field(result, "blocked"))
    ensures var r := Step(s, PrecheckReply(result), fixed);
            r.blocked && !r.observing && r.timers.Keys <= s.timers.Keys
            && (Field(result, "reason") == Undef ==> r.screen.value.title == "Unsafe URL Detected")
  {
  }

  /** A mutation re-blurs, cancels the pending scan and arms exactly one new scan. */
  lemma MutationReschedules(s: State, page: Page, fixed: bool)
    requires s.observing && !s.blocked
    ensures var r := Step(s, Mutated(page), fixed);
            r.blur == BlurAll(page.imgs, s.blur)
            && r.scanTimer == Some(s.nextTimer) && r.timers[s.nextTimer] == MutationDelay
            && (s.scanTimer.Some? ==> s.scanTimer.value !in r.timers || s.scanTimer.value == s.nextTimer)
            && r.timers.Keys == (s.timers.Keys - (if s.scanTimer.Some? then {s.scanTimer.value} else {})) + {s.nextTimer}
  {
    var r := Step(s, Mutated(page), fixed);
    assert r == Arm(s.(page := page, blur := BlurAll(page.imgs, s.blur)), MutationDelay, true);
  }

  /** The scan decides: blocked shows the block screen (default `content_violation`), anything else unblurs. */
  lemma ScanReplyOutcomes(s: State, result: Val, fixed: bool)
    requires s.pendingScans > 0
    ensures var r := Step(s, ScanReply(result), fixed);
            (Truthy(Field(result, "blocked")) ==>
               r.blocked && (Field(result, "reason") == Undef ==> r.screen.value.title == "Content Policy Violation"))
            && (!Truthy(Field(result, "blocked")) ==> r.blur == Unblur(s.blur) && r.blocked == s.blocked)
  {
  }

  /**
   * Once blocked after the configuration arrived, always blocked: the observer stays
   * disconnected and nothing more is sent. (A block before the configuration reply
   * does not stop start-up from sending the URL check.)
   */
  lemma {:induction false} BlockedIsTerminal(s: State, es: seq<Event>, fixed: bool)
    requires s.blocked && !s.observing && s.boot != AwaitingConfig
    ensures var r := Run(s, es, fixed);
            r.blocked && !r.observing && r.sent == s.sent
    decreases |es|
  {
    if es != [] {
      var s1 := Step(s, es[0], fixed);
      assert s1.blocked && !s1.observing && s1.sent == s.sent && s1.boot != AwaitingConfig by {
        match es[0]
        case ConfigReply(_) =>
        case PrecheckReply(result) =>
        case Mutated(page) =>
        case TimerFired(id) =>
        case ScanReply(result) =>
      }
      BlockedIsTerminal(s1, es[1..], fixed);
    }
  }

  // ----- The observer when the extension is off -----

  /** A script that gave up at start-up and has no way to act any more. */
  predicate Inert(s: State) {
    s.boot == Finished && !s.blocked && !s.observing && s.timers == map[] && s.pendingScans == 0
    && s.blur == NoBlur && s.sent == [GetConfig]
  }

  /**
   * As written, the observer is connected at load whatever the configuration says,
   * so on a disabled extension a mutation still blurs the page and arms a scan.
   */
  lemma DisabledStillReacts(page: Page, later: Page)
    requires |later.imgs| > 0 && Blurrable(later.imgs[0])
    ensures var s := Step(Start(page, true, false), ConfigReply(Null), false);
            var r := Step(s, Mutated(later), false);
            !Inert(r) && later.imgs[0].id in r.blur.blurred && r.timers.Keys == {0}
  {
    var s := Step(Start(page, true, false), ConfigReply(Null), false);
    assert s.observing && !s.blocked;
    var r := Step(s, Mutated(later), false);
    assert r.blur == BlurAll(later.imgs, NoBlur);
    BlurPreservesRestore(later.imgs, NoBlur);
  }

  /** With the observer connected only after the enable check, a disabled script does nothing, whatever happens. */
  lemma {:induction false} DisabledStaysInert(page: Page, hasBody: bool, config: Val, es: seq<Event>)
    requires !Enabled(config)
    ensures Inert(Run(Step(Start(page, hasBody, true), ConfigReply(config), true), es, true))
  {
    InertRun(Step(Start(page, hasBody, true), ConfigReply(config), true), es);
  }

  lemma {:induction false} InertRun(s: State, es: seq<Event>)
    requires Inert(s)
    ensures Inert(Run(s, es, true))
    decreases |es|
  {
    if es != [] {
      var s1 := Step(s, es[0], true);
      assert Inert(s1);
      InertRun(s1, es[1..]);
    }
  }

  // ----- At most one pending scan -----

  /** Timer ids are fresh, and the only pending timer is the one `scanTimer` holds. */
  predicate SingleTimer(s: State) {
    (forall id :: id in s.timers ==> id < s.nextTimer && s.scanTimer == Some(id))
    && (s.scanTimer.Some? ==> s.scanTimer.value < s.nextTimer)
  }

  /**
   * As written, start-up arms its scan without cancelling one that a mutation armed
   * meanwhile; two scans are then pending and the older can no longer be cancelled.
   */
  lemma StartupLeavesTwoScans(page: Page, config: Val, later: Page)
    requires Enabled(config)
    ensures var s := Run(Start(page, true, false),
                         [ConfigReply(config), Mutated(later), PrecheckReply(NotBlocked)], false);
            s.timers.Keys == {0, 1} && s.scanTimer == Some(1) && !SingleTimer(s)
  {
    var s0 := Start(page, true, false);
    var s1 := Step(s0, ConfigReply(config), false);
    var s2 := Step(s1, Mutated(later), false);
    assert s2.timers.Keys == {0};
    var s3 := Step(s2, PrecheckReply(NotBlocked), false);
    assert !Truthy(Field(NotBlocked, "blocked"));
    assert s3.timers.Keys == {0, 1};
    var es := [ConfigReply(config), Mutated(later), PrecheckReply(NotBlocked)];
    assert es[1..] == [Mutated(later), PrecheckReply(NotBlocked)];
    assert es[1..][1..] == [PrecheckReply(NotBlocked)];
    assert Run(s3, [], false) == s3;
    assert Run(s2, es[1..][1..], false) == s3;
    assert Run(s1, es[1..], false) == s3;
  }

  lemma SingleTimerStep(s: State, e: Event)
    requires SingleTimer(s)
    ensures SingleTimer(Step(s, e, true))
  {
    match e
    case TimerFired(id) =>
      if id in s.timers {
        assert TimersKept(s, s.(timers := s.timers - {id}));
      }
    case _ =>
  }

  /** With start-up cancelling like a mutation does, at most one scan is ever pending. */
  lemma {:induction false} SingleTimerRun(s: State, es: seq<Event>)
    requires SingleTimer(s)
    ensures SingleTimer(Run(s, es, true))
    ensures forall a, b :: a in Run(s, es, true).timers && b in Run(s, es, true).timers ==> a == b
    decreases |es|
  {
    if es != [] {
      SingleTimerStep(s, es[0]);
      SingleTimerRun(Step(s, es[0], true), es[1..]);
    }
  }
}

=== FILE: site_lists.dfy ===
/**
 * How the dashboard turns what a parent types into allow-list and block-list
 * entries. The profile page's tag input keeps only the host part and refuses
 * duplicates; the children page's site editor keeps the path and appends
 * whatever it gets.
 */
module SiteLists {
  import opened Base
  import opened Strings
  import opened Domains

  /** A suffix of a string without capitals has none either. */
  lemma LowerCasedSuffix(s: string, k: nat)
    requires IsLowerCased(s) && k <= |s|
    ensures IsLowerCased(s[k..])
  {
    forall i | 0 <= i < |s[k..]|
      ensures !IsUpperAscii(s[k..][i])
    {
      assert s[k..][i] == s[k + i];
    }
  }

  /** A prefix of a string without capitals has none either. */
  lemma LowerCasedPrefix(s: string, p: string)
    requires IsLowerCased(s) && StartsWith(s, p)
    ensures IsLowerCased(p)
  {
    forall i | 0 <= i < |p|
      ensures !IsUpperAscii(p[i])
    {
      assert p[i] == s[i];
    }
  }

  function DropPrefix(s: string, p: string): (r: string)
    ensures |r| <= |s| && r == s[|s| - |r|..]
    ensures StartsWith(s, p) ==> r == s[|p|..]
    ensures !StartsWith(s, p) ==> r == s
  {
    if StartsWith(s, p) then s[|p|..] else s
  }

  /** `trim().toLowerCase()`, which both editors apply first. */
  function Normalise(input: string): (r: string)
    ensures IsLowerCased(r)
  {
    ToLower(Trim(input))
  }

  /** Typed input with no surrounding blanks and no capitals is left as it is. */
  lemma NormaliseKeepsBareInput(h: string)
    requires Trimmed(h) && IsLowerCased(h)
    ensures Normalise(h) == h
  {
    TrimOfTrimmed(h);
    ToLowerOfLowerCased(h);
  }

  /** The two schemes cannot both prefix one string. */
  lemma SchemesExclusive(s: string)
    requires StartsWith(s, "https://")
    ensures !StartsWith(s, "http://")
  {
    assert s[4] == s[..8][4] == 's';
  }

  /** `replace(/^https?:\/\//, '')`. */
  function StripScheme(s: string): (r: string)
    ensures |r| <= |s| && r == s[|s| - |r|..]
    ensures StartsWith(s, "http://") ==> r == s[7..]
    ensures StartsWith(s, "https://") ==> r == s[8..]
    ensures !StartsWith(s, "http://") && !StartsWith(s, "https://") ==> r == s
  {
    if StartsWith(s, "https://") then SchemesExclusive(s); s[8..]
    else if StartsWith(s, "http://") then s[7..]
    else s
  }

  predicate HasScheme(s: string) {
    StartsWith(s, "http://") || StartsWith(s, "https://")
  }

  /** `replace(/^https?:\/\/(www\.)?/, '')`: `www.` is dropped only right after a scheme. */
  function StripSchemeAndWww(s: string): (r: string)
    ensures |r| <= |s| && r == s[|s| - |r|..]
    ensures !HasScheme(s) ==> r == s
  {
    if HasScheme(s) then DropPrefix(StripScheme(s), "www.") else s
  }

  // ----- The tag input of the profile page -----

  /** `r` is what follows `lead` in `s`, up to the first slash or the end of `s`. */
  predicate HostAfter(s: string, lead: string, r: string) {
    StartsWith(s, lead) && StartsWith(s[|lead|..], r) && '/' !in r
    && (|lead| + |r| == |s| || s[|lead| + |r|] == '/')
  }

  /** `r` is the host the tag field keeps of the normalised input `n`: what follows the scheme and a `www.` right after it. */
  predicate TagHost(n: string, r: string) {
    (HasScheme(n) && StartsWith(StripScheme(n), "www.") ==> HostAfter(StripScheme(n), "www.", r))
    && (!(HasScheme(n) && StartsWith(StripScheme(n), "www.")) ==> HostAfter(StripScheme(n), "", r))
  }

  /** `input.trim().toLowerCase().replace(/^https?:\/\/(www\.)?/, '').split('/')[0]`. */
  function TagValue(input: string): (r: string)
    ensures '/' !in r
    ensures IsLowerCased(r)
    ensures TagHost(Normalise(input), r)
  {
    var lowered := Normalise(input);
    var stripped := StripSchemeAndWww(lowered);
    var r := BeforeFirst(stripped, '/');
    LowerCasedSuffix(lowered, |lowered| - |stripped|);
    LowerCasedPrefix(stripped, r);
    TagHostCut(lowered);
    r
  }

  /** The cut `TagValue` makes is the host after the scheme and the `www.` it strips. */
  lemma TagHostCut(n: string)
    ensures TagHost(n, BeforeFirst(StripSchemeAndWww(n), '/'))
  {
    var lead := if HasScheme(n) && StartsWith(StripScheme(n), "www.") then "www." else "";
    assert StripSchemeAndWww(n) == StripScheme(n)[|lead|..];
    CutAtSlash(StripScheme(n), lead);
  }

  /** Cutting what follows `lead` at its first slash gives the host after `lead`. */
  lemma CutAtSlash(s: string, lead: string)
    requires StartsWith(s, lead)
    ensures HostAfter(s, lead, BeforeFirst(s[|lead|..], '/'))
  {
    var r := BeforeFirst(s[|lead|..], '/');
    if |lead| + |r| < |s| {
      assert s[|lead| + |r|] == s[|lead|..][|r|];
    }
  }

  /** The list and the text field after an add attempt. */
  datatype TagEdit = TagEdit(values: seq<string>, input: string)

  /** `addTag`: a new, non-empty value is appended; the field is cleared either way. */
  function AddTag(values: seq<string>, input: string): (r: TagEdit)
    ensures r.input == []
    ensures TagValue(input) != [] && TagValue(input) !in values ==> r.values == values + [TagValue(input)]
    ensures TagValue(input) == [] || TagValue(input) in values ==> r.values == values
  {
    var v := TagValue(input);
    TagEdit(if v != [] && v !in values then values + [v] else values, [])
  }

  /** `values.filter(x => x !== v)`. */
  function RemoveTag(values: seq<string>, v: string): (r: seq<string>)
    ensures v !in r
    ensures forall x :: x in r ==> x in values
    ensures forall x :: x != v ==> multiset(r)[x] == multiset(values)[x]
  {
    if values == [] then []
    else
      var rest := RemoveTag(values[1..], v);
      assert values == [values[0]] + values[1..];
      if values[0] == v then rest else [values[0]] + rest
  }

  predicate Distinct(xs: seq<string>) {
    forall i, j :: 0 <= i < j < |xs| ==> xs[i] != xs[j]
  }

  /** The tag list never holds a value twice. */
  lemma AddTagKeepsDistinct(values: seq<string>, input: string)
    requires Distinct(values)
    ensures Distinct(AddTag(values, input).values)
    ensures forall i :: 0 <= i < |AddTag(values, input).values| ==> (i < |values| || AddTag(values, input).values[i] != [])
  {
    var v := TagValue(input);
    var r := AddTag(values, input).values;
    if v != [] && v !in values {
      assert r == values + [v];
      forall i, j | 0 <= i < j < |r|
        ensures r[i] != r[j]
      {
        if j == |values| {
          assert r[i] == values[i];
        }
      }
    }
  }

  /** Adding the same input twice adds it once. */
  lemma AddTagIdempotent(values: seq<string>, input: string)
    ensures AddTag(AddTag(values, input).values, input).values == AddTag(values, input).values
  {
  }

  /** Removal commutes with concatenation, so the surviving entries keep their order. */
  lemma {:induction false} RemoveTagAppend(a: seq<string>, b: seq<string>, v: string)
    ensures RemoveTag(a + b, v) == RemoveTag(a, v) + RemoveTag(b, v)
    decreases |a|
  {
    if a == [] {
      assert a + b == b;
    } else {
      assert (a + b)[1..] == a[1..] + b;
      RemoveTagAppend(a[1..], b, v);
    }
  }

  /** Removing keeps a duplicate-free list duplicate-free. */
  lemma {:induction false} RemoveTagKeepsDistinct(values: seq<string>, v: string)
    requires Distinct(values)
    ensures Distinct(RemoveTag(values, v))
    decreases |values|
  {
    if values != [] {
      RemoveTagKeepsDistinct(values[1..], v);
      var rest := RemoveTag(values[1..], v);
      assert values[0] !in values[1..];
      assert values[0] !in rest;
    }
  }

  // ----- The site editor of the children page -----

  /** `replace(/\/$/, '')`: one trailing slash at most. */
  function DropTrailingSlash(s: string): (r: string)
    ensures |s| > 0 && s[|s| - 1] == '/' ==> r == s[..|s| - 1]
    ensures !(|s| > 0 && s[|s| - 1] == '/') ==> r == s
  {
    if |s| > 0 && s[|s| - 1] == '/' then s[..|s| - 1] else s
  }

  /** `input.trim().toLowerCase().replace(/^https?:\/\//, '').replace(/\/$/, '')`. */
  function SiteValue(input: string): string {
    DropTrailingSlash(StripScheme(Normalise(input)))
  }

  datatype ListKind = BlockList | AllowList

  /** The profile being edited: its two lists and the two text fields. */
  datatype SiteForm = SiteForm(blockedSites: seq<string>, allowedSites: seq<string>,
                               blockedInput: string, allowedInput: string)

  function ListOf(f: SiteForm, k: ListKind): seq<string> {
    if k == BlockList then f.blockedSites else f.allowedSites
  }

  function InputOf(f: SiteForm, k: ListKind): string {
    if k == BlockList then f.blockedInput else f.allowedInput
  }

  function Other(k: ListKind): ListKind {
    if k == BlockList then AllowList else BlockList
  }

  /** `addSite`: the normalised site is appended, duplicates included; an empty one changes nothing. */
  function AddSite(f: SiteForm, k: ListKind): (r: SiteForm)
    ensures SiteValue(InputOf(f, k)) == [] ==> r == f
    ensures SiteValue(InputOf(f, k)) != [] ==>
              ListOf(r, k) == ListOf(f, k) + [SiteValue(InputOf(f, k))] && InputOf(r, k) == []
    ensures ListOf(r, Other(k)) == ListOf(f, Other(k)) && InputOf(r, Other(k)) == InputOf(f, Other(k))
  {
    var site := SiteValue(InputOf(f, k));
    if site == [] then f
    else if k == BlockList then f.(blockedSites := f.blockedSites + [site], blockedInput := [])
    else f.(allowedSites := f.allowedSites + [site], allowedInput := [])
  }

  /** `removeSite`: every equal entry leaves the chosen list; nothing else changes. */
  function RemoveSite(f: SiteForm, k: ListKind, site: string): (r: SiteForm)
    ensures ListOf(r, k) == RemoveTag(ListOf(f, k), site)
    ensures ListOf(r, Other(k)) == ListOf(f, Other(k))
    ensures InputOf(r, k) == InputOf(f, k) && InputOf(r, Other(k)) == InputOf(f, Other(k))
  {
    if k == BlockList then f.(blockedSites := RemoveTag(f.blockedSites, site))
    else f.(allowedSites := RemoveTag(f.allowedSites, site))
  }

  /** Unlike the tag input, the site editor appends a site that is already listed. */
  lemma AddSiteRepeats(f: SiteForm, k: ListKind)
    requires SiteValue(InputOf(f, k)) != [] && SiteValue(InputOf(f, k)) in ListOf(f, k)
    ensures multiset(ListOf(AddSite(f, k), k))[SiteValue(InputOf(f, k))]
         == multiset(ListOf(f, k))[SiteValue(InputOf(f, k))] + 1
  {
  }

  // ----- Entries typed with `www.` -----

  /**
   * Both editors keep a `www.` typed without a scheme, while the server drops
   * `www.` from the visited host, so the entry a parent types for the host of the
   * page never equals the domain the server compares it with.
   */
  lemma WwwEntryMissesItsSite(hostname: string -> Option<string>, url: string, h: string)
    requires hostname(url) == Some(h) && BareHost(h) && StartsWith(h, "www.")
    ensures TagValue(h) == h && SiteValue(h) == h
    ensures GetDomain(hostname, url) == Some(DropPrefix(h, "www."))
    ensures GetDomain(hostname, url) != Some(TagValue(h)) && GetDomain(hostname, url) != Some(SiteValue(h))
  {
    BareHostUnchanged(h);
    SlashFreeUnchanged(h);
    var d := DropPrefix(h, "www.");
    LowerCasedSuffix(h, |h| - |d|);
    ToLowerOfLowerCased(d);
  }

  /** The normalisers with `www.` dropped whether or not a scheme was typed. */
  function TagValueCorrected(input: string): (r: string)
    ensures '/' !in r
    ensures var n := Normalise(input);
            (StartsWith(StripScheme(n), "www.") ==> HostAfter(StripScheme(n), "www.", r))
            && (!StartsWith(StripScheme(n), "www.") ==> HostAfter(StripScheme(n), "", r))
  {
    var stripped := StripScheme(Normalise(input));
    CutAtSlash(stripped, if StartsWith(stripped, "www.") then "www." else "");
    BeforeFirst(DropPrefix(stripped, "www."), '/')
  }

  function SiteValueCorrected(input: string): string {
    DropTrailingSlash(DropPrefix(StripScheme(Normalise(input)), "www."))
  }

  /** A bare host name, as a parent would type it. */
  predicate BareHost(h: string) {
    Trimmed(h) && IsLowerCased(h) && '/' !in h
  }

  /** A bare host has no scheme to strip, so normalising it and stripping changes nothing. */
  lemma BareHostUnchanged(h: string)
    requires BareHost(h)
    ensures StripScheme(Normalise(h)) == h
  {
    NormaliseKeepsBareInput(h);
    assert !StartsWith(h, "http://") by {
      if |h| >= 7 {
        assert h[6] in h;
      }
    }
    assert !StartsWith(h, "https://") by {
      if |h| >= 8 {
        assert h[7] in h;
      }
    }
  }

  /** Cutting at the first slash, or dropping a trailing one, leaves a slash-free string alone. */
  lemma SlashFreeUnchanged(d: string)
    requires '/' !in d
    ensures BeforeFirst(d, '/') == d
    ensures DropTrailingSlash(d) == d
  {
    if |d| > 0 {
      assert d[|d| - 1] in d;
    }
  }

  /** Both corrected editors turn a bare host into the host without its `www.`. */
  lemma CorrectedValuesOfBareHost(h: string)
    requires BareHost(h)
    ensures TagValueCorrected(h) == DropPrefix(h, "www.")
    ensures SiteValueCorrected(h) == DropPrefix(h, "www.")
  {
    BareHostUnchanged(h);
    var d := DropPrefix(h, "www.");
    assert '/' !in d by {
      assert d == h[|h| - |d|..];
    }
    SlashFreeUnchanged(d);
  }

  /**
   * Typing the host of a visited page, `www.` or not, yields exactly the domain the
   * server compares with, in both corrected editors.
   */
  lemma CorrectedEntryMatchesDomain(hostname: string -> Option<string>, url: string, h: string)
    requires hostname(url) == Some(h) && BareHost(h)
    ensures GetDomain(hostname, url) == Some(TagValueCorrected(h))
    ensures GetDomain(hostname, url) == Some(SiteValueCorrected(h))
  {
    CorrectedValuesOfBareHost(h);
    var d := DropPrefix(h, "www.");
    LowerCasedSuffix(h, |h| - |d|);
    ToLowerOfLowerCased(d);
  }
}

=== FILE: strings.dfy ===
/**
 * The JavaScript string operations the pipeline relies on, over `seq<char>`:
 * `trim`, ASCII case mapping, `startsWith`/`endsWith`, `slice(0, n)`, `split`,
 * `join`, first-occurrence `replace`, and the relational `<` on strings.
 *
 * Lengths count characters, not UTF-16 code units; case mapping covers ASCII letters.
 */
module Strings {
  import opened Base

  /** The WhiteSpace and LineTerminator code points that `trim` and the regex class `\s` accept. */
  predicate IsSpace(c: char) {
    c == ' ' || c == '\t' || c == '\n' || c == '\r' || c == '\U{B}' || c == '\U{C}'
    || c == '\U{A0}' || c == '\U{1680}' || ('\U{2000}' <= c <= '\U{200A}')
    || c == '\U{2028}' || c == '\U{2029}' || c == '\U{202F}' || c == '\U{205F}'
    || c == '\U{3000}' || c == '\U{FEFF}'
  }

  /** `s.trimStart()`: drops the maximal leading run of white space. */
  function TrimStart(s: string): (r: string)
    ensures |r| <= |s|
    ensures r == [] || !IsSpace(r[0])
    ensures forall i :: 0 <= i < |s| - |r| ==> IsSpace(s[i])
  {
    if |s| > 0 && IsSpace(s[0]) then TrimStart(s[1..]) else s
  }

  /** `s.trimEnd()`: drops the maximal trailing run of white space. */
  function TrimEnd(s: string): (r: string)
    ensures |r| <= |s|
    ensures r == [] || !IsSpace(r[|r| - 1])
    ensures forall i :: |r| <= i < |s| ==> IsSpace(s[i])
  {
    if |s| > 0 && IsSpace(s[|s| - 1]) then TrimEnd(s[..|s| - 1]) else s
  }

  /** What `trimStart` keeps is a suffix of its input. */
  lemma {:induction false} TrimStartIsSuffix(s: string)
    ensures TrimStart(s) == s[|s| - |TrimStart(s)|..]
  {
    if |s| > 0 && IsSpace(s[0]) {
      TrimStartIsSuffix(s[1..]);
      assert s[1..][|s| - 1 - |TrimStart(s[1..])|..] == s[|s| - |TrimStart(s)|..];
    }
  }

  /** What `trimEnd` keeps is a prefix of its input. */
  lemma {:induction false} TrimEndIsPrefix(s: string)
    ensures TrimEnd(s) == s[..|TrimEnd(s)|]
  {
    if |s| > 0 && IsSpace(s[|s| - 1]) {
      TrimEndIsPrefix(s[..|s| - 1]);
      assert s[..|s| - 1][..|TrimEnd(s)|] == s[..|TrimEnd(s)|];
    }
  }

  /** `s.trim()`. */
  function Trim(s: string): string {
    TrimEnd(TrimStart(s))
  }

  /** A string with no white space at either end. */
  predicate Trimmed(s: string) {
    s == [] || (!IsSpace(s[0]) && !IsSpace(s[|s| - 1]))
  }

  /** How many leading characters `trim` drops. */
  function TrimOffset(s: string): nat {
    |s| - |TrimStart(s)|
  }

  /** `trim` yields a trimmed infix of its input. */
  lemma TrimSpec(s: string)
    ensures Trimmed(Trim(s))
    ensures TrimOffset(s) + |Trim(s)| <= |s|
    ensures Trim(s) == s[TrimOffset(s)..TrimOffset(s) + |Trim(s)|]
  {
    TrimIsTrimmed(TrimStart(s));
    TrimIsInfix(s);
  }

  /** Everything `trim` drops is white space. */
  lemma TrimDropsSpace(s: string)
    ensures TrimOffset(s) + |Trim(s)| <= |s|
    ensures forall k :: 0 <= k < TrimOffset(s) ==> IsSpace(s[k])
    ensures forall k :: TrimOffset(s) + |Trim(s)| <= k < |s| ==> IsSpace(s[k])
  {
    var a := TrimStart(s);
    var i := |s| - |a|;
    TrimStartIsSuffix(s);
    TrimEndIsPrefix(a);
    forall k | i + |Trim(s)| <= k < |s|
      ensures IsSpace(s[k])
    {
      assert s[k] == a[k - i];
    }
  }

  lemma TrimIsTrimmed(a: string)
    requires a == [] || !IsSpace(a[0])
    ensures Trimmed(TrimEnd(a))
  {
    var b := TrimEnd(a);
    TrimEndIsPrefix(a);
    if b != [] {
      assert b[0] == a[0];
    }
  }

  lemma TrimIsInfix(s: string)
    ensures TrimOffset(s) + |Trim(s)| <= |s|
    ensures Trim(s) == s[TrimOffset(s)..TrimOffset(s) + |Trim(s)|]
  {
    var a := TrimStart(s);
    var b := TrimEnd(a);
    var i := |s| - |a|;
    TrimEndIsPrefix(a);
    TrimStartIsSuffix(s);
    forall k | 0 <= k < |b|
      ensures b[k] == s[i..i + |b|][k]
    {
      assert b[k] == a[k];
    }
  }

  lemma {:induction false} TrimStartOfTrimmed(s: string)
    requires s == [] || !IsSpace(s[0])
    ensures TrimStart(s) == s
  {
  }

  lemma {:induction false} TrimEndOfTrimmed(s: string)
    requires s == [] || !IsSpace(s[|s| - 1])
    ensures TrimEnd(s) == s
  {
  }

  /** Trimming a string that has no white space at its ends changes nothing. */
  lemma TrimOfTrimmed(s: string)
    requires Trimmed(s)
    ensures Trim(s) == s
  {
    TrimStartOfTrimmed(s);
    TrimEndOfTrimmed(s);
  }

  /** `trim` is idempotent. */
  lemma TrimIdempotent(s: string)
    ensures Trim(Trim(s)) == Trim(s)
  {
    TrimSpec(s);
    TrimOfTrimmed(Trim(s));
  }

  predicate IsUpperAscii(c: char) {
    'A' <= c <= 'Z'
  }

  predicate IsLowerAscii(c: char) {
    'a' <= c <= 'z'
  }

  function LowerChar(c: char): char {
    if IsUpperAscii(c) then (c as int + 32) as char else c
  }

  function UpperChar(c: char): char {
    if IsLowerAscii(c) then (c as int - 32) as char else c
  }

  /** `s.toLowerCase()` on ASCII letters: same length, no upper-case letter left, others kept. */
  function ToLower(s: string): (r: string)
    ensures |r| == |s|
    ensures forall i :: 0 <= i < |s| ==> r[i] == LowerChar(s[i])
    ensures forall i :: 0 <= i < |r| ==> !IsUpperAscii(r[i])
  {
    seq(|s|, i requires 0 <= i < |s| => LowerChar(s[i]))
  }

  /** `s.toUpperCase()` on ASCII letters. */
  function ToUpper(s: string): (r: string)
    ensures |r| == |s|
    ensures forall i :: 0 <= i < |s| ==> r[i] == UpperChar(s[i])
    ensures forall i :: 0 <= i < |r| ==> !IsLowerAscii(r[i])
  {
    seq(|s|, i requires 0 <= i < |s| => UpperChar(s[i]))
  }

  /** No ASCII upper-case letter occurs in `s`. */
  predicate IsLowerCased(s: string) {
    forall i :: 0 <= i < |s| ==> !IsUpperAscii(s[i])
  }

  lemma ToLowerOfLowerCased(s: string)
    requires IsLowerCased(s)
    ensures ToLower(s) == s
  {
  }

  /** `s.startsWith(p)`. */
  predicate StartsWith(s: string, p: string) {
    |p| <= |s| && s[..|p|] == p
  }

  /** `s.endsWith(p)`. */
  predicate EndsWith(s: string, p: string) {
    |p| <= |s| && s[|s| - |p|..] == p
  }

  /** Case-insensitive (ASCII) test that `lit`, given in lower case, occurs in `s` at `i`. */
  predicate MatchesAtCI(s: string, i: nat, lit: string) {
    i + |lit| <= |s| && ToLower(s[i..i + |lit|]) == lit
  }

  /** `s.slice(0, n)` for `n >= 0`. */
  function Take(s: string, n: nat): (r: string)
    ensures |r| == Min(n, |s|)
    ensures r == s[..|r|]
  {
    if |s| <= n then s else s[..n]
  }

  lemma TakeOfShort(s: string, n: nat)
    requires |s| <= n
    ensures Take(s, n) == s
  {
  }

  /** Position of the first occurrence of `c` in `s`, if any. */
  function IndexOfChar(s: string, c: char): (r: Option<nat>)
    ensures r.Some? ==> r.value < |s| && s[r.value] == c && c !in s[..r.value]
    ensures r.None? ==> c !in s
  {
    if |s| == 0 then None
    else if s[0] == c then Some(0)
    else match IndexOfChar(s[1..], c)
      case None => None
      case Some(k) => Some(k + 1)
  }

  /** `s.split(c)[0]`: the text before the first `c`, or all of `s`. */
  function BeforeFirst(s: string, c: char): (r: string)
    ensures StartsWith(s, r)
    ensures c !in r
    ensures |r| < |s| ==> s[|r|] == c
  {
    match IndexOfChar(s, c)
    case None => s
    case Some(k) => s[..k]
  }

  /** Does `pat` occur in `s` at position `i`? */
  predicate OccursAt(s: string, pat: string, i: nat) {
    i + |pat| <= |s| && s[i..i + |pat|] == pat
  }

  /** First position at or after `from` where `pat` occurs in `s`. */
  function FindFrom(s: string, pat: string, from: nat): (r: Option<nat>)
    requires from <= |s|
    ensures r.Some? ==> from <= r.value && OccursAt(s, pat, r.value)
    ensures r.Some? ==> forall j :: from <= j < r.value ==> !OccursAt(s, pat, j)
    ensures r.None? ==> forall j :: from <= j <= |s| ==> !OccursAt(s, pat, j)
    decreases |s| - from
  {
    if OccursAt(s, pat, from) then Some(from)
    else if from == |s| then None
    else FindFrom(s, pat, from + 1)
  }

  /** `s.replace(pat, rep)` with a string pattern: only the first occurrence is replaced. */
  function ReplaceFirst(s: string, pat: string, rep: string): (r: string)
    ensures (forall j :: 0 <= j <= |s| ==> !OccursAt(s, pat, j)) ==> r == s
  {
    match FindFrom(s, pat, 0)
    case None => s
    case Some(i) => s[..i] + rep + s[i + |pat|..]
  }

  /** `parts.join(sep)`. */
  function Join(parts: seq<string>, sep: string): (r: string)
    ensures |parts| == 0 ==> r == []
    ensures |parts| == 1 ==> r == parts[0]
  {
    if |parts| == 0 then []
    else if |parts| == 1 then parts[0]
    else parts[0] + sep + Join(parts[1..], sep)
  }

  /** JavaScript's `a < b` on strings: lexicographic by character. */
  predicate LexLess(a: string, b: string)
    decreases |a|
  {
    if |b| == 0 then false
    else if |a| == 0 then true
    else if a[0] != b[0] then a[0] < b[0]
    else LexLess(a[1..], b[1..])
  }

  /** `LexLess` is irreflexive. */
  lemma {:induction false} LexLessIrreflexive(a: string)
    ensures !LexLess(a, a)
  {
    if |a| > 0 {
      LexLessIrreflexive(a[1..]);
    }
  }

  /** `LexLess` is asymmetric. */
  lemma {:induction false} LexLessAsymmetric(a: string, b: string)
    requires LexLess(a, b)
    ensures !LexLess(b, a)
    decreases |a|
  {
    if |a| > 0 && |b| > 0 && a[0] == b[0] {
      LexLessAsymmetric(a[1..], b[1..]);
    }
  }

  /** The character of a decimal digit `0..9`. */
  function DigitChar(d: nat): char
    requires d < 10
  {
    ('0' as int + d) as char
  }

  /** `String(n).padStart(2, '0')` for `0 <= n < 100`. */
  function Pad2(n: nat): (r: string)
    requires n < 100
    ensures |r| == 2
  {
    [DigitChar(n / 10), DigitChar(n % 10)]
  }

  predicate IsDigit(c: char) {
    '0' <= c <= '9'
  }

  /** The value of a decimal digit string, as `parseInt` reads `\d+`. */
  function DecimalValue(s: string): nat
    requires forall i :: 0 <= i < |s| ==> IsDigit(s[i])
  {
    if |s| == 0 then 0
    else
      var d := s[|s| - 1] as int - '0' as int;
      assert 0 <= d by { assert IsDigit(s[|s| - 1]); }
      DecimalValue(s[..|s| - 1]) * 10 + d
  }
}

=== FILE: two_tier_cache.dfy ===
/**
 * The two-tier result cache: a fast key-value tier whose entries carry their own
 * time to live, in front of a durable document store whose entries carry an
 * absolute expiry time. Either tier may be absent, and any single read or write
 * may fail; a failure is logged and treated as a miss or a skipped write.
 *
 * Times are milliseconds; time-to-live arguments are seconds.
 */
module TwoTierCache {
  import opened Base
  import opened Json

  /** Every fast-tier key carries this prefix. */
  const Prefix: string := "moderation:"

  function FastKey(key: string): (r: string)
    ensures |r| == |Prefix| + |key| && r[|Prefix|..] == key
  {
    Prefix + key
  }

  /** A fast-tier entry: the stored value and the instant it disappears. */
  datatype FastEntry = FastEntry(value: Val, deadline: int)

  /** A durable document; `expiresAt` is `None` when the stored field is not a number. */
  datatype Doc = Doc(value: Val, expiresAt: Option<int>, updatedAt: int)

  /**
   * Both tiers and the clock. A tier that is `None` is unavailable: no client for
   * the fast tier, or a document store that cannot be reached.
   */
  datatype Tiers = Tiers(fast: Option<map<string, FastEntry>>, durable: Option<map<string, Doc>>, now: int)

  /** Which of the operations of one call fail. */
  datatype Faults = Faults(fastRead: bool, fastWrite: bool, durableRead: bool, durableWrite: bool)

  const NoFaults := Faults(false, false, false, false)

  /** The fast tier's answer: an entry is readable strictly before its deadline. */
  function FastRead(t: Tiers, f: Faults, key: string): (r: Option<Val>)
    ensures r.Some? <==> (t.fast.Some? && !f.fastRead && FastKey(key) in t.fast.value
                          && t.now < t.fast.value[FastKey(key)].deadline)
    ensures r.Some? ==> r.value == t.fast.value[FastKey(key)].value
  {
    if t.fast.Some? && !f.fastRead && FastKey(key) in t.fast.value && t.now < t.fast.value[FastKey(key)].deadline
    then Some(t.fast.value[FastKey(key)].value)
    else None
  }

  /** Seconds to keep a re-populated fast entry: whole seconds left, at least one. */
  function RefillTtl(expiresAt: int, now: int): (s: int)
    requires now < expiresAt
    ensures s >= 1
    ensures expiresAt - now >= 1000 ==> now + s * 1000 <= expiresAt
    ensures now + s * 1000 < expiresAt + 1000
  {
    Max(1, (expiresAt - now) / 1000)
  }

  /** A durable entry whose expiry has been reached is dead; equality counts as reached. */
  predicate Expired(d: Doc, now: int) {
    d.expiresAt.Some? && d.expiresAt.value <= now
  }

  /** The durable half of a read, including lazy deletion and fast-tier re-population. */
  function DurableRead(t: Tiers, f: Faults, key: string): (r: (Option<Val>, Tiers))
    ensures r.1.now == t.now
    ensures (t.durable.None? || f.durableRead || key !in t.durable.value) ==> r == (None, t)
    ensures r.0.Some? ==> t.durable.Some? && key in t.durable.value
                          && !Expired(t.durable.value[key], t.now)
                          && r.0.value == t.durable.value[key].value && Truthy(r.0.value)
    ensures r.1.durable.Some? <==> t.durable.Some?
    ensures r.1.fast.Some? <==> t.fast.Some?
  {
    if t.durable.None? || f.durableRead || key !in t.durable.value then (None, t)
    else
      var d := t.durable.value[key];
      if Expired(d, t.now) then
        (None, if f.durableWrite then t else t.(durable := Some(t.durable.value - {key})))
      else
        var refill := t.fast.Some? && Truthy(d.value) && d.expiresAt.Some? && !f.fastWrite;
        var t1 := if refill
          then t.(fast := Some(t.fast.value[FastKey(key) := FastEntry(d.value, t.now + RefillTtl(d.expiresAt.value, t.now) * 1000)]))
          else t;
        (if Truthy(d.value) then Some(d.value) else None, t1)
  }

  /** `getCached`: the fast tier first, then the durable tier. */
  function Get(t: Tiers, f: Faults, key: string): (r: (Option<Val>, Tiers))
    ensures FastRead(t, f, key).Some? ==> r == (FastRead(t, f, key), t)
    ensures FastRead(t, f, key).None? ==> r == DurableRead(t, f, key)
    ensures r.1.now == t.now
  {
    var hot := FastRead(t, f, key);
    if hot.Some? then (hot, t) else DurableRead(t, f, key)
  }

  /** `setCached`: both tiers are written, each on its own; a failure in one leaves the other alone. */
  function Set(t: Tiers, f: Faults, key: string, value: Val, ttlSeconds: int): (r: Tiers)
    ensures r.now == t.now
    ensures (t.durable.Some? && !f.durableWrite) ==>
      r.durable == Some(t.durable.value[key := Doc(value, Some(t.now + ttlSeconds * 1000), t.now)])
    ensures (t.durable.None? || f.durableWrite) ==> r.durable == t.durable
    ensures (t.fast.Some? && !f.fastWrite && ttlSeconds > 0) ==>
      r.fast == Some(t.fast.value[FastKey(key) := FastEntry(value, t.now + ttlSeconds * 1000)])
    ensures (t.fast.None? || f.fastWrite || ttlSeconds <= 0) ==> r.fast == t.fast
  {
    var expiresAt := t.now + ttlSeconds * 1000;
    var fast := if t.fast.Some? && !f.fastWrite && ttlSeconds > 0
      then Some(t.fast.value[FastKey(key) := FastEntry(value, expiresAt)])
      else t.fast;
    var durable := if t.durable.Some? && !f.durableWrite
      then Some(t.durable.value[key := Doc(value, Some(expiresAt), t.now)])
      else t.durable;
    Tiers(fast, durable, t.now)
  }

  /** Time passes; nothing is evicted eagerly. */
  function Tick(t: Tiers, ms: nat): (r: Tiers)
    ensures r.now == t.now + ms && r.fast == t.fast && r.durable == t.durable
  {
    t.(now := t.now + ms)
  }

  // ----- Properties -----

  /** Distinct keys use distinct fast-tier keys. */
  lemma FastKeysDistinct(a: string, b: string)
    requires a != b
    ensures FastKey(a) != FastKey(b)
  {
    assert FastKey(a)[|Prefix|..] == a;
  }

  /** A fast hit answers without reading or changing the durable tier. */
  lemma FastHitIgnoresDurable(t: Tiers, f: Faults, key: string, other: Option<map<string, Doc>>)
    requires FastRead(t, f, key).Some?
    ensures Get(t, f, key) == (Some(t.fast.value[FastKey(key)].value), t)
    ensures Get(t.(durable := other), f, key).0 == Get(t, f, key).0
  {
  }

  /** A failed fast read answers as if the fast tier had no entry for the key. */
  lemma FastReadErrorFallsThrough(t: Tiers, f: Faults, key: string)
    requires t.fast.Some? && f.fastRead
    ensures Get(t, f, key).0 == Get(t.(fast := Some(t.fast.value - {FastKey(key)})), f.(fastRead := false), key).0
  {
  }

  /** An expired durable entry is a miss and is deleted unless the delete fails; the fast tier is untouched. */
  lemma ExpiredIsDeleted(t: Tiers, f: Faults, key: string)
    requires FastRead(t, f, key).None?
    requires t.durable.Some? && !f.durableRead && key in t.durable.value
    requires Expired(t.durable.value[key], t.now)
    ensures Get(t, f, key).0.None?
    ensures Get(t, f, key).1.fast == t.fast
    ensures !f.durableWrite ==> key !in Get(t, f, key).1.durable.value
  {
  }

  /**
   * A durable hit with a numeric expiry refills the fast tier. The refilled entry
   * never ends before the durable one unless less than a second is left, and never
   * outlives it by a full second.
   */
  lemma RefillBounds(t: Tiers, f: Faults, key: string)
    requires FastRead(t, f, key).None?
    requires t.fast.Some? && !f.fastWrite
    requires t.durable.Some? && !f.durableRead && key in t.durable.value
    requires !Expired(t.durable.value[key], t.now) && t.durable.value[key].expiresAt.Some?
    requires Truthy(t.durable.value[key].value)
    ensures var (v, t') := Get(t, f, key);
            var e := t.durable.value[key].expiresAt.value;
            v == Some(t.durable.value[key].value)
            && t'.fast.Some? && FastKey(key) in t'.fast.value
            && t.now < t'.fast.value[FastKey(key)].deadline < e + 1000
            && (e - t.now >= 1000 ==> t'.fast.value[FastKey(key)].deadline <= e)
  {
  }

  /** A durable value that is falsy reads as a miss. */
  lemma FalsyDurableValueMisses(t: Tiers, f: Faults, key: string)
    requires FastRead(t, f, key).None?
    requires t.durable.Some? && key in t.durable.value && !Truthy(t.durable.value[key].value)
    ensures Get(t, f, key).0.None?
  {
  }

  /**
   * What was written reads back at once, from whichever tier took the write,
   * provided a failed fast write did not leave an older fast entry in front of it.
   */
  lemma SetThenGet(t: Tiers, f: Faults, key: string, value: Val, ttlSeconds: int)
    requires ttlSeconds > 0 && Truthy(value)
    requires (t.fast.Some? && !f.fastWrite)
             || (t.durable.Some? && !f.durableWrite && (t.fast.None? || FastKey(key) !in t.fast.value))
    ensures Get(Set(t, f, key, value, ttlSeconds), NoFaults, key).0 == Some(value)
  {
    assert ttlSeconds * 1000 > 0;
  }

  /**
   * The tiers can disagree: when the fast write fails, a live older fast entry keeps
   * being served although the durable tier holds the new value.
   */
  lemma StaleFastEntryShadowsWrite(t: Tiers, f: Faults, key: string, value: Val, ttlSeconds: int)
    requires f.fastWrite && t.durable.Some? && !f.durableWrite
    requires FastRead(t, NoFaults, key).Some?
    ensures Set(t, f, key, value, ttlSeconds).durable.value[key].value == value
    ensures Get(Set(t, f, key, value, ttlSeconds), NoFaults, key).0 == Some(t.fast.value[FastKey(key)].value)
  {
  }

  /**
   * With the fast tier gone, a written entry lives in the durable tier for exactly
   * its time to live: readable before, a miss at and after the expiry instant.
   */
  lemma DurableLifetime(t: Tiers, key: string, value: Val, ttlSeconds: int, ms: nat)
    requires t.fast.None? && t.durable.Some? && Truthy(value)
    ensures var later := Tick(Set(t, NoFaults, key, value, ttlSeconds), ms);
            Get(later, NoFaults, key).0 == (if ms < ttlSeconds * 1000 then Some(value) else None)
  {
  }

  /** The two tiers are written independently: each result depends only on its own tier and fault. */
  lemma WritesIndependent(t: Tiers, f: Faults, g: Faults, key: string, value: Val, ttlSeconds: int)
    requires f.durableWrite == g.durableWrite
    ensures Set(t, f, key, value, ttlSeconds).durable == Set(t, g, key, value, ttlSeconds).durable
    ensures Set(t, f, key, value, ttlSeconds).durable
         == Set(t.(fast := None), f, key, value, ttlSeconds).durable
    ensures f.fastWrite == g.fastWrite ==>
      Set(t, f, key, value, ttlSeconds).fast == Set(t.(durable := None), g, key, value, ttlSeconds).fast
  {
  }
}
